=== FILE: README.md ===
# markdown-toc core in Dafny

This project models the pure core of the *Markdown TOC* editor extension. That core covers four things:

- **Anchors.** It derives URL anchors from Markdown headers the way five renderers do: `github.com`, `bitbucket.org`, `gitlab.com`, `nodejs.org` and `ghost.org`.
- **Header extraction.** It reads a document line by line and extracts its headers. It skips fenced code blocks, filters by depth, numbers the headers and counts repeated titles.
- **TOC text.** It renders the `<!-- TOC … -->` … `<!-- /TOC -->` block from the header list.
- **Document edits.** It finds an existing TOC range, builds the anchor lines placed above headers and removes them again, and builds the header text written by the "add/remove section numbers" commands.

Strings are `seq<char>` of Unicode scalar values. Every operation is a pure function or a method without side effects. The editor, the configuration store and the anchor package become parameters.

Files, one module each:

- `wrappers.dfy` (`Wrappers`): `Option` / `Result`.
- `text.dfy` (`Text`): JavaScript whitespace and `trim`, decimal rendering, join and character filters.
- `document.dfy` (`Doc`): editor positions and ranges.
- `uri.dfy` (`UriEncoding`): `encodeURI` over UTF-8 as ECMAScript 5.1 section 15.1.3.3 defines it, its inverse, the zero-width-joiner restoration and the final normalisation.
- `slug.dfy` (`AnchorMarkdownHeader`): the five per-renderer transforms and the `anchorMarkdownHeader` dispatcher.
- `cleanup.dfy` (`TitleCleanup`): both `cleanUpTitle` variants, section numbering strings and the base-title rule.
- `anchor.dfy` (`AnchorModel`) and `header.dfy` (`HeaderModel`): the two model classes.
- `extraction.dfy` (`HeaderExtraction`): `getHeaderList` as a fold over the lines.
- `toc_render.dfy` (`TocRender`): `createToc`.
- `toc_document.dfy` (`TocDocument`): `getTocRange`, anchor lines and section lines.

## Model

| member | source | states |
|---|---|---|
| AnchorModel.NewAnchor | src/models/Anchor.ts:5-8 | the name is the header text; the id is `md-` followed by the name, so it is three characters longer |
| AnchorModel.TextOfIdRoundTrip | src/models/Anchor.ts:5-8 | stripping `md-` from an anchor's id gives back the header text it was built from |
| AnchorModel.NewAnchorInjective | src/models/Anchor.ts:6 | different header texts give different ids |
| HeaderModel.NewHeader | src/models/Header.ts:24-28 | a fresh header keeps the anchor mode and has an empty mark, empty titles, no numbering, the zero range and an anchor built from the empty text |
| HeaderModel.Depth | src/models/Header.ts:42-44 | the depth is zero exactly when the header mark is empty |
| HeaderModel.IsHeader | src/models/Header.ts:46-48 | a model is a header exactly when it has a non-empty mark, that is, a positive depth |
| HeaderModel.NewHeaderIsNotHeader | src/models/Header.ts:24-48 | a freshly constructed header is not a header and has depth 0 |
| HeaderModel.NumberStrings | src/models/Header.ts:67 | each number of the order array becomes its decimal text, position by position |
| HeaderModel.TocWithoutOrder | src/models/Header.ts:62-64 | the unnumbered TOC string is the dirty title as recorded, without any numbering |
| HeaderModel.JoinedNumbering | src/models/Header.ts:67 | joining the decimal numbers with `.` and adding a final `.` gives the same text as the section numbering the extractor writes |
| HeaderModel.TocWithOrder | src/models/Header.ts:66-68 | the numbered TOC string ends with the unnumbered one and is at least two characters longer; with the default empty order array it is `. ` followed by the dirty title |
| HeaderModel.TocWithOrderIsNumbered | src/models/Header.ts:66-68 | with a non-empty order array, the numbered TOC string is the section number, a space and the dirty title |
| HeaderModel.TocWithOrderBaseTitle | src/models/Header.ts:66-68 | removing the section number from a numbered TOC string gives back its trimmed title |
| HeaderModel.FullHeaderWithOrder | src/models/Header.ts:70-72 | the header line is the mark, one space, then the numbered TOC string |
| HeaderModel.FullHeaderWithoutOrder | src/models/Header.ts:74-76 | the header line is the mark, one space, then the unnumbered TOC string |
| HeaderModel.GetAnchorId | src/models/Header.ts:56-60 | the anchor fails exactly for an unknown mode or for `nodejs.org`, where no module name is passed; otherwise it holds no `%` and no whitespace |
| HeaderModel.GetAnchorIdIsFirstOccurrence | src/models/Header.ts:56-60 | the anchor is the first occurrence's: on GitHub the k-th repetition's anchor is it with `-k` appended |
| HeaderModel.NodejsHeaderHasNoAnchor | src/models/Header.ts:56-60 | in `nodejs.org` mode the anchor always fails for a missing module name |
| HeaderModel.TocRowWithAnchor | src/models/Header.ts:50-54 | the row fails exactly when the anchor of the cleaned title fails |
| HeaderModel.ParseLinkRow | src/models/Header.ts:50-54 | a `[title](#href)` row whose title has no `(` splits back into its title and target |
| HeaderModel.TocRowRoundTrip | src/models/Header.ts:50-60 | a TOC row splits back into the cleaned title and the anchor that title gets |
| HeaderModel.TocRowLinksShownTitle | src/models/Header.ts:50-60 | when the cleaned title holds no `<`, cleaning it a second time does not change the anchor it links to |
| HeaderModel.HeaderCleanUpIdempotent | src/models/Header.ts:78-83 | the header clean-up is idempotent on results without `<` |
| TitleCleanup.HeaderCleanUpTitle | src/models/Header.ts:78-83 | the cleaned title holds no backtick, `(` or `)`, has no surrounding whitespace and is never longer than the input |
| TitleCleanup.HeaderCleanUpPlain | src/models/Header.ts:78-83 | on a title without links, comments, backticks or parentheses the clean-up is just a trim |
| TitleCleanup.ToolsCleanUpTitle | src/MarkdownTocTools.ts:292-297 | the cleaned title holds no `_`, has no surrounding whitespace and is never longer than the input |
| TitleCleanup.ToolsCleanUpPlain | src/MarkdownTocTools.ts:292-297 | on a title without links, comments or underscores the clean-up is just a trim |
| TitleCleanup.ReplaceLinks | src/MarkdownTocTools.ts:293 | link replacement never lengthens the text and leaves text without `[` or without `(` unchanged; `TitleCleanup.ReplaceLinksUnwraps` states what it replaces |
| TitleCleanup.ReplaceLinksPrefix | src/MarkdownTocTools.ts:293 | the scan copies text before the first `[` unchanged and continues after it |
| TitleCleanup.ReplaceLinksUnwraps | src/MarkdownTocTools.ts:293 | a link `[t](u)` with non-empty one-line text `t` and a target without `]` or `)`, ending the title after text without `[`, is replaced by `t` |
| TitleCleanup.StripComments | src/MarkdownTocTools.ts:294 | comment removal never lengthens the text and leaves text without `<` unchanged; `TitleCleanup.StripCommentsRemoves` states what it removes |
| TitleCleanup.StripCommentsPrefix | src/MarkdownTocTools.ts:294 | the scan copies text before the first `<` unchanged and continues after it |
| TitleCleanup.StripCommentsRemoves | src/MarkdownTocTools.ts:294 | a comment `<!--c-->` with non-empty one-line content, ending the title after text without `<`, is removed entirely |
| TitleCleanup.StripMarked | src/MarkdownTocTools.ts:295 | the result holds no marker and none of the removed characters, and only characters of the input |
| TitleCleanup.StripMarkedContent | src/MarkdownTocTools.ts:295 | apart from `#`, marked removal deletes exactly the marker and the listed characters, keeping everything else in order |
| TitleCleanup.StripMarkedAbsent | src/MarkdownTocTools.ts:295 | text without the marker or the listed characters is left unchanged |
| TitleCleanup.Numbering | src/MarkdownTocTools.ts:271-274 | a non-empty numbering starts with a digit and ends with `.` |
| TitleCleanup.NumberingPrefixOfNumbering | src/MarkdownTocTools.ts:271-276 | the numbering-prefix pattern consumes exactly the whole section number and then continues into what follows |
| TitleCleanup.BaseTitle | src/MarkdownTocTools.ts:276 | the base title is trimmed and is the trimmed title when there is no leading section number |
| TitleCleanup.BaseTitleOfNumbered | src/MarkdownTocTools.ts:271-276 | the base title of a section number, a space and a trimmed title is that title |
| AnchorMarkdownHeader.AsciiOnlyToLowerCase | src/AnchorMarkdownHeader.ts:144-154 | keeps the length, shifts exactly `A`..`Z` down to lower case and leaves every other character unchanged |
| AnchorMarkdownHeader.AsciiOnlyToLowerCaseIdempotent | src/AnchorMarkdownHeader.ts:144-154 | the result has no ASCII upper-case letter, so lowering twice equals lowering once |
| AnchorMarkdownHeader.Suffix | src/AnchorMarkdownHeader.ts:15-17 | the repetition suffix is empty exactly for repetition 0 and otherwise is the separator followed by the count |
| AnchorMarkdownHeader.CollapseNonAlnum | src/AnchorMarkdownHeader.ts:9 | the result holds only `[a-z0-9_]`, never two `_` in a row, is empty exactly when the input is, and its first and last characters are the input's, or `_` where the input's are outside `[a-z0-9]`; the two lemmas below pin the rest |
| AnchorMarkdownHeader.CollapseNonAlnumCopies | src/AnchorMarkdownHeader.ts:9 | lower-case letters and digits are copied unchanged and in order, and the replacement continues after them |
| AnchorMarkdownHeader.CollapseNonAlnumRun | src/AnchorMarkdownHeader.ts:9 | a whole run of other characters, up to a letter, a digit or the end, becomes exactly one `_` |
| AnchorMarkdownHeader.TrimUnderscoresOnce | src/AnchorMarkdownHeader.ts:10 | the one-match rule strips the leading `_` run when there is one, and otherwise only the trailing run |
| AnchorMarkdownHeader.PrefixNonLetter | src/AnchorMarkdownHeader.ts:11 | a text not starting with a lower-case letter gets `_` in front; any other text is unchanged |
| AnchorMarkdownHeader.NodejsBase | src/AnchorMarkdownHeader.ts:8-11 | the node id base holds only `[a-z0-9_]` and, when non-empty, starts with a lower-case letter or with `_` and a digit |
| AnchorMarkdownHeader.NodejsBaseOfLetterStart | src/AnchorMarkdownHeader.ts:8-11 | for a text starting with a lower-case letter and ending with a letter or digit, the trim and prefix steps change nothing: the base is the collapsed text |
| AnchorMarkdownHeader.NodejsBaseOfWord | src/AnchorMarkdownHeader.ts:8-11 | a word of lower-case letters and digits starting with a letter is its own base |
| AnchorMarkdownHeader.NodejsBaseJoin | src/AnchorMarkdownHeader.ts:8-11 | two such words joined by a run of other characters, as `moduleName + '.' + header` is, give the first word, one `_` and the second word |
| AnchorMarkdownHeader.GetNodejsId | src/AnchorMarkdownHeader.ts:8-20 | the node id is its base followed by `_` and the repetition when the repetition is non-zero, and is the bare base for 0 |
| AnchorMarkdownHeader.GetBasicGithubId | src/AnchorMarkdownHeader.ts:22-30 | once escape codes are stripped, every character is rewritten on its own: a space becomes `-`, listed ASCII and CJK punctuation goes, everything else stays in order; text of kept characters is unchanged |
| AnchorMarkdownHeader.StripEscapeCodes | src/AnchorMarkdownHeader.ts:25 | escape stripping never lengthens the text, keeps only input characters and leaves text without `%` unchanged |
| AnchorMarkdownHeader.StripEscapeCodesRemoves | src/AnchorMarkdownHeader.ts:25 | text without `%` is copied, and a `%` followed by two hexadecimal digits is removed together with them |
| AnchorMarkdownHeader.StripEscapeCodesSpaces | src/AnchorMarkdownHeader.ts:23-25 | turning spaces into `-` before the escape step gives the same as doing it after, since neither character can be part of an escape code |
| AnchorMarkdownHeader.GithubStepsPerChar | src/AnchorMarkdownHeader.ts:23-29 | the space replacement and the two punctuation removals act on each character independently, as `GithubImage` says |
| AnchorMarkdownHeader.GetGithubId | src/AnchorMarkdownHeader.ts:32-43 | the GitHub id holds no emoji |
| AnchorMarkdownHeader.GithubSuffixSurvivesEmoji | src/AnchorMarkdownHeader.ts:32-43 | the `-k` suffix is appended before emoji removal and survives it, so the id is the emoji-free base plus the suffix |
| AnchorMarkdownHeader.CollapseHyphens | src/AnchorMarkdownHeader.ts:49 | the result has no `--`, only input characters, and the same first and last character, and is never longer; the lemmas below pin the rest |
| AnchorMarkdownHeader.CollapseHyphensCopies | src/AnchorMarkdownHeader.ts:49 | text without `--` that does not end with `-` is copied unchanged and collapsing continues after it |
| AnchorMarkdownHeader.CollapseHyphensRun | src/AnchorMarkdownHeader.ts:49 | a whole run of hyphens, up to another character or the end, becomes exactly one `-` |
| AnchorMarkdownHeader.CollapseHyphensFixes | src/AnchorMarkdownHeader.ts:49 | text without `--` is unchanged |
| AnchorMarkdownHeader.BitbucketBase | src/AnchorMarkdownHeader.ts:46-49 | the Bitbucket base starts with `markdown-header-` and holds no `--`; `AnchorMarkdownHeader.BitbucketBaseIs` gives its content |
| AnchorMarkdownHeader.BitbucketBaseIs | src/AnchorMarkdownHeader.ts:46-49 | the base is `markdown-header` followed by the collapsed `-` and basic GitHub id; when that id does not start with `-`, it is `markdown-header-` followed by the collapsed id |
| AnchorMarkdownHeader.GetBitbucketId | src/AnchorMarkdownHeader.ts:45-58 | the Bitbucket id is its base followed by `_` and the repetition when the repetition is non-zero, and is the bare base for 0 |
| AnchorMarkdownHeader.BasicGhostId | src/AnchorMarkdownHeader.ts:60-69 | every character is rewritten on its own: spaces and Ghost punctuation go (a space turns into `-`, which is removed), `$` becomes `d`, `~` becomes `t`, anything else stays in order |
| AnchorMarkdownHeader.GetGhostId | src/AnchorMarkdownHeader.ts:71-76 | the Ghost id is the same per-character rewrite whatever the repetition |
| AnchorMarkdownHeader.UnwrapFirstLink | src/AnchorMarkdownHeader.ts:83 | unwrapping the first link never lengthens the text, and text without `[` is unchanged; `AnchorMarkdownHeader.UnwrapFirstLinkUnwraps` states what it unwraps |
| AnchorMarkdownHeader.UnwrapFirstLinkPrefix | src/AnchorMarkdownHeader.ts:83 | text before the first `[` is copied unchanged |
| AnchorMarkdownHeader.UnwrapFirstLinkUnwraps | src/AnchorMarkdownHeader.ts:83 | a one-line link `[t](u)`, with `t` possibly empty and a target without `]` or `)`, after text without `[`, becomes `t` |
| AnchorMarkdownHeader.WhitespaceRunsToHyphen | src/AnchorMarkdownHeader.ts:84 | the result holds no whitespace, only `-` or input characters; the two lemmas below pin the rest |
| AnchorMarkdownHeader.WhitespaceRunsCopies | src/AnchorMarkdownHeader.ts:84 | text without whitespace is copied unchanged and the replacement continues after it |
| AnchorMarkdownHeader.WhitespaceRunsRun | src/AnchorMarkdownHeader.ts:84 | a whole whitespace run, up to another character or the end, becomes exactly one `-` |
| AnchorMarkdownHeader.GitlabCleaned | src/AnchorMarkdownHeader.ts:80-86 | after the markup pre-pass, link unwrapping, whitespace step and punctuation removal, no whitespace, listed punctuation or CJK punctuation remains |
| AnchorMarkdownHeader.DropLeadingHyphen | src/AnchorMarkdownHeader.ts:88 | one leading `-` is removed when there is one; any other text is unchanged |
| AnchorMarkdownHeader.DropTrailingHyphen | src/AnchorMarkdownHeader.ts:89 | one trailing `-` is removed when there is one; any other text is unchanged |
| AnchorMarkdownHeader.HyphenEnds | src/AnchorMarkdownHeader.ts:88-89 | removing one leading and one trailing `-` from a text without `--` leaves no `-` at either end |
| AnchorMarkdownHeader.GitlabBase | src/AnchorMarkdownHeader.ts:80-89 | the GitLab base holds no whitespace and no `--`, and neither starts nor ends with `-`; the lemmas below give its content |
| AnchorMarkdownHeader.GitlabBaseFrom | src/AnchorMarkdownHeader.ts:80-89 | when the steps up to the whitespace replacement yield kept characters without `--` or end hyphens, the remaining steps leave that text as the base |
| AnchorMarkdownHeader.GitlabBaseOfWord | src/AnchorMarkdownHeader.ts:80-89 | such a text that the markup pre-pass leaves alone is its own base |
| AnchorMarkdownHeader.GitlabBaseOfWords | src/AnchorMarkdownHeader.ts:80-89 | two hyphen-free words around a whitespace run give the first word, one `-` and the second word |
| AnchorMarkdownHeader.GetGitlabId | src/AnchorMarkdownHeader.ts:79-95 | the GitLab id is its base followed by `-` and the repetition when the repetition is non-zero, and is the bare base for 0 |
| AnchorMarkdownHeader.AnchorMarkdownHeader | src/AnchorMarkdownHeader.ts:108-160 | fails exactly for an unknown non-empty mode, or for `nodejs.org` with an empty module name, with the matching error; any anchor it returns holds no `%`, no whitespace and no ASCII upper case |
| AnchorMarkdownHeader.GithubEncode | src/AnchorMarkdownHeader.ts:114-158 | the GitHub encoding, with joiners restored, yields only anchor characters: no `%`, no whitespace, no ASCII upper case |
| AnchorMarkdownHeader.PlainEncode | src/AnchorMarkdownHeader.ts:111-158 | the encoding of the other modes yields only anchor characters: no `%`, no whitespace, no ASCII upper case |
| AnchorMarkdownHeader.EmptyModeIsGithub | src/AnchorMarkdownHeader.ts:109 | an empty mode gives the same result as `github.com` |
| AnchorMarkdownHeader.AnchorIgnoresSurroundingWhitespace | src/AnchorMarkdownHeader.ts:156 | leading and trailing whitespace of the header does not change the anchor |
| AnchorMarkdownHeader.GhostIgnoresRepetition | src/AnchorMarkdownHeader.ts:71-76 | in `ghost.org` mode the anchor is the same for every repetition |
| AnchorMarkdownHeader.GithubRepetitionSuffix | src/AnchorMarkdownHeader.ts:32-43 | after encoding and normalisation, the k-th GitHub anchor is the first one with `-k` appended |
| AnchorMarkdownHeader.BitbucketRepetitionSuffix | src/AnchorMarkdownHeader.ts:45-58 | after encoding and normalisation, the k-th Bitbucket anchor is the first one with `_k` appended |
| AnchorMarkdownHeader.GitlabRepetitionSuffix | src/AnchorMarkdownHeader.ts:79-95 | after encoding and normalisation, the k-th GitLab anchor is the first one with `-k` appended |
| AnchorMarkdownHeader.NodejsRepetitionSuffix | src/AnchorMarkdownHeader.ts:8-20 | after encoding and normalisation, the k-th node.js anchor is the first one with `_k` appended |
| AnchorMarkdownHeader.PlainWordGithubEncode | src/AnchorMarkdownHeader.ts:114-158 | a word of lower-case letters and digits passes the GitHub encoding unchanged |
| AnchorMarkdownHeader.GithubPlainWordAnchors | src/AnchorMarkdownHeader.ts:108-160 | a header that trims and lower-cases to such a word has the word as its GitHub anchor, and its k-th repetition the word followed by `-k` |
| AnchorMarkdownHeader.GithubSetupAnchors | src/AnchorMarkdownHeader.ts:108-160 | two headers titled `Setup` get the GitHub anchors `setup` and `setup-1` |
| UriEncoding.EncodeUri | src/AnchorMarkdownHeader.ts:111 | the encoding holds only `%` and the characters `encodeURI` keeps (uriReserved, uriUnescaped and `#`), and leaves text made of those characters unchanged |
| UriEncoding.EncodeUriAppend | src/AnchorMarkdownHeader.ts:111 | encoding distributes over concatenation |
| UriEncoding.Utf8RoundTrip | src/AnchorMarkdownHeader.ts:111 | the UTF-8 bytes of a character decode back to its code point |
| UriEncoding.EncodeUriRoundTrip | src/AnchorMarkdownHeader.ts:111 | percent-decoding is a left inverse of `encodeURI` on every string; `encodeURI` never escapes the reserved characters that `decodeURI` keeps escaped, so on its output the two decodings agree |
| UriEncoding.RestoreJoinersOfEncoding | src/AnchorMarkdownHeader.ts:116-123 | rewriting `%E2%80%8D` after encoding equals encoding while keeping zero-width joiners literal |
| UriEncoding.RestoreJoiners | src/AnchorMarkdownHeader.ts:122 | the joiner restoration never lengthens the text; `UriEncoding.RestoreJoinersOfEncoding` states what it restores |
| UriEncoding.FinalNormalize | src/AnchorMarkdownHeader.ts:158 | the normalised anchor holds no `%`, no whitespace and no upper case, only joiners and the characters `encodeURI` keeps (uriReserved, uriUnescaped and `#`) |
| UriEncoding.FinalNormalizeFixes | src/AnchorMarkdownHeader.ts:158 | text of lower-case letters, digits, `-` and `_` passes the normalisation unchanged |
| HeaderExtraction.LookupStore | src/MarkdownTocTools.ts:278-284 | after recording a title, lookup finds the new count for it and the old entries for every other title |
| HeaderExtraction.NextFence | src/MarkdownTocTools.ts:244-256 | outside code, a type-1 fence line opens block 1 and otherwise a type-2 line opens block 2; a block closes only on a line of its own type |
| HeaderExtraction.ResetLoop | src/MarkdownTocTools.ts:267-269 | the reset loop zeroes the counter at index `depth` only, however many times it runs |
| HeaderExtraction.Bump | src/MarkdownTocTools.ts:267-270 | accepting depth d adds one to counter d-1, zeroes counter d and leaves every other counter unchanged |
| HeaderExtraction.HeaderTitle | src/MarkdownTocTools.ts:275-277 | the title of a header line is the text after the mark, trimmed and cleaned: trimmed and free of `_` |
| HeaderExtraction.HeaderBaseTitle | src/MarkdownTocTools.ts:275-276 | the base title of a header line is the text after the mark without its leading section number, and is trimmed |
| HeaderExtraction.AcceptLine | src/MarkdownTocTools.ts:267-286 | an accepted header is appended with its depth, line, titles and numbering from the bumped counters, and with the hash of its title and its earlier occurrence count, which is then recorded |
| HeaderExtraction.Repetition | src/MarkdownTocTools.ts:278-283 | a title not yet in the map has repetition 0, and one already there one more than its stored count, the value the map holds after the update |
| HeaderExtraction.Step | src/MarkdownTocTools.ts:243-286 | one line moves the fence state as `NextFence` says and keeps the counter array's length; `HeaderExtraction.StepPreserves` states what it does to the headers |
| HeaderExtraction.ExpectedNumbering | src/MarkdownTocTools.ts:267-274 | reference numbering: each component counts the headers at that depth since the last header one level shallower |
| HeaderExtraction.NumberingComponents | src/MarkdownTocTools.ts:271-274 | a section number has one `.` per component and is wholly a numbering prefix |
| HeaderExtraction.OrderedList | src/MarkdownTocTools.ts:271-274 | the ordered-list string has one `.` per counter and is entirely a numbering prefix |
| HeaderExtraction.SectionNumberShape | src/MarkdownTocTools.ts:271-274 | an extracted header's ordered-list string has exactly depth − depthFrom + 1 components |
| HeaderExtraction.StaleDeeperCounter | src/MarkdownTocTools.ts:267-274 | for depths 1, 2, 3, 1, 3 the last header is numbered 2.0.2: the depth-3 counter survives the shallower header |
| HeaderExtraction.StaleDeeperCounterText | src/MarkdownTocTools.ts:271-274 | such a header's ordered-list string is `2.0.2.` |
| HeaderExtraction.StepPreserves | src/MarkdownTocTools.ts:242-287 | one line of the pass preserves the invariant tying headers, counters, title counts and fence state to the lines read so far |
| HeaderExtraction.RunInvariant | src/MarkdownTocTools.ts:242-287 | after every prefix of the document, the headers are those of the accepted lines, with repetition counts, counters and numbering matching the reference definitions |
| HeaderExtraction.RunReads | src/MarkdownTocTools.ts:257-286 | every extracted header sits on a header line whose mark, cleaned title and base title it records |
| HeaderExtraction.GetHeaderList | src/MarkdownTocTools.ts:234-291 | the headers come from exactly the accepted lines, in order, each with depth in range; the hash of each title's k-th occurrence gets repetition k; every numbering equals the reference numbering |
| TocRender.IndentUnit | src/MarkdownTocTools.ts:171-174 | the unit is tabSize spaces when spaces are inserted and tabSize is positive, and a tab otherwise |
| TocRender.OptionsLine | src/MarkdownTocTools.ts:176-201 | the opening marker starts with `<!-- TOC` and ends with `-->` and the line ending |
| TocRender.OptionsLineWithoutFlags | src/MarkdownTocTools.ts:176-201 | with no flags the opening marker is `<!-- TOC -->` |
| TocRender.MinDepth | src/MarkdownTocTools.ts:207-210 | the minimum depth is at most every header's depth and is either 6 or some header's depth |
| TocRender.StartDepth | src/MarkdownTocTools.ts:211 | the start depth is the larger of depthFrom and the minimum depth |
| TocRender.BelowStartDepth | src/MarkdownTocTools.ts:207-211 | a header is shallower than the start depth if and only if it is shallower than depthFrom |
| TocRender.Listed | src/MarkdownTocTools.ts:212-213 | the listed headers are exactly those with depth at most depthTo |
| TocRender.ListedAll | src/MarkdownTocTools.ts:212-213 | when every header is within depthTo all of them are listed, in order |
| TocRender.ExpectedRowsAppend | src/MarkdownTocTools.ts:212-229 | reference rows: the row for a new header is its level of indentation, its number and its title or link |
| TocRender.AddRow | src/MarkdownTocTools.ts:215-227 | adding a row keeps the lengths of the counter and reset arrays; `TocRender.AddRowPreserves` states the numbering it keeps |
| TocRender.AddRowPreserves | src/MarkdownTocTools.ts:215-228 | adding a row keeps the counters equal to the reference numbering |
| TocRender.BuildRows | src/MarkdownTocTools.ts:205-229 | fails exactly when a listed header is shallower than the start depth, where the indentation count would be negative; otherwise it returns the reference rows |
| TocRender.CreateToc | src/MarkdownTocTools.ts:158-232 | fails exactly when depthTo + 1 < depthFrom or a header is shallower than depthFrom; otherwise it returns the options line, the reference rows and the closing marker |
| TocRender.TocText | src/MarkdownTocTools.ts:203-231 | the text is the options line (which carries its own line ending), a line ending, the rows joined by the line ending, a blank line and `<!-- /TOC -->`; with no rows it is the options line, two line endings and `<!-- /TOC -->` |
| TocRender.TocTextFraming | src/MarkdownTocTools.ts:178-231 | the text starts with `<!-- TOC` and ends with `<!-- /TOC -->` |
| TocRender.NumberContinues | src/MarkdownTocTools.ts:215-227 | a row numbers one more than the previous row at its level when only deeper rows lie between |
| TocRender.NumberRestarts | src/MarkdownTocTools.ts:215-227 | a row numbers 1 when a shallower row appears after the last row at its level |
| TocRender.FirstRowNumberedOne | src/MarkdownTocTools.ts:215-227 | the first row at a level, after only deeper rows, numbers 1 |
| TocDocument.GetTocRange | src/MarkdownTocTools.ts:107-128 | returns the range from the first start line to the first later stop line, from column 0 to the end of the stop line, and nothing exactly when no such pair exists |
| TocDocument.AnchorTag | src/MarkdownTocTools.ts:140 | the tag holds the name twice and 30 fixed characters; `TocDocument.AnchorTagRoundTrip` recovers the name from it |
| TocDocument.AnchorText | src/MarkdownTocTools.ts:139-141 | the inserted text is the anchor tag followed by a line feed |
| TocDocument.ParseAnchorTag | src/MarkdownTocTools.ts:140 | parsing succeeds only on a well-formed anchor tag and returns the name it was built from |
| TocDocument.AnchorTagRoundTrip | src/MarkdownTocTools.ts:140 | a name without `"` is recovered from its anchor tag |
| TocDocument.AnchorInsertions | src/MarkdownTocTools.ts:133-144 | without the option nothing is inserted; with it, each header gets one tag at its line, and the call fails exactly when some hash lacks an anchor name |
| TocDocument.WithAnchors | src/MarkdownTocTools.ts:133-144 | insertion only adds lines and keeps the last line last |
| TocDocument.KeepMembers | src/MarkdownTocTools.ts:149-152 | the kept lines are exactly the lines that are not anchor lines |
| TocDocument.KeepAppend | src/MarkdownTocTools.ts:149-152 | filtering distributes over concatenation |
| TocDocument.KeepWithAnchors | src/MarkdownTocTools.ts:133-157 | filtering anchor lines out of a document with inserted anchors gives back the document |
| TocDocument.DeleteAnchors | src/MarkdownTocTools.ts:145-157 | all lines but the last are filtered; the last line is kept as is, or blanked when it is an anchor line |
| TocDocument.AnchorsRoundTrip | src/MarkdownTocTools.ts:133-157 | deleting anchors after inserting them restores the document |
| TocDocument.SectionLine | src/MarkdownTocTools.ts:69 | the numbered section line starts with the header mark |
| TocDocument.PlainSectionLine | src/MarkdownTocTools.ts:83 | the unnumbered section line starts with the header mark |
| TocDocument.SectionLineRoundTrip | src/MarkdownTocTools.ts:61-74 | re-reading a numbered section line gives back the header's base title |
| TocDocument.PlainSectionLineRoundTrip | src/MarkdownTocTools.ts:75-88 | re-reading an unnumbered section line gives back a base title that has no leading numbering |
| Text.NatToStringRoundTrip | src/MarkdownTocTools.ts:273 | the decimal text of a counter parses back to the counter |
| Text.TrimSkipsLeading | src/MarkdownTocTools.ts:275 | trimming ignores any leading whitespace |

## Left out

- Editor plumbing is left out. This covers text edits, saving, the save hook and its `saveBySelf` flag, the `updateMarkdownToc` / `deleteMarkdownToc` / section commands and disposal. Only the text these commands compute is modelled.
- Configuration reads and `os.EOL` (src/MarkdownTocTools.ts:159-170) are left out. The line ending, tab size and space insertion are `Layout` parameters, and the option flags are a parameter of the options line.
- The configuration manager is not part of this model. Its regular expressions become parameters: code fences 1 and 2, header, ignore title, TOC start and stop, and anchor.
- `getHash` (src/MarkdownTocTools.ts:298-301) is a parameter from title and repetition to hash, because it calls the external anchor package. Its `decodeURI` step is not modelled either. That call decodes the whole anchor, including header text that was never encoded, and it throws on a malformed escape. `UriEncoding.PercentDecode` is not `decodeURI`: it decodes every escape, including those of `;/?:@&=+$,#` that `decodeURI` keeps, and it reads only upper-case hex, which is all `encodeURI` writes.
- The emoji regular expression of the GitHub mode is a foreign library. It is modelled as deleting an abstract set of characters.
- The GitLab HTML-tag and image rewrites (src/AnchorMarkdownHeader.ts:81-82) use back-references and greedy matching. They are an abstract string-to-string pre-pass; the first-link unwrapping at line 83 is modelled.
- `convertFromSymbol` (src/models/Header.ts:30-40) is left out. It depends on the editor's document symbols and on a regular-expression module that is not part of this model.
- Unicode `toLowerCase` is left out. It is applied only after `encodeURI`, when the text is ASCII plus zero-width joiners, so ASCII lower-casing is exact there.
- UTF-16 is not modelled. Strings are sequences of scalar values, so lone surrogates, on which `encodeURI` throws, cannot occur. Column positions count scalar values too: the end column of a header range (`HeaderExtraction.AcceptLine`) and of a TOC range (`TocDocument.GetTocRange`) is the line length in scalar values, where the source's `lineText.length` counts UTF-16 code units, so a line holding a character outside the Basic Multilingual Plane, such as most emoji, ends at a different column.
- Non-numeric option values are left out. `NaN` or `undefined` depths are not modelled, and the depth options are assumed to lie in 1..6.
- Insertions beyond the last line of the document are not modelled.
- The title-count map is an association list searched from its most recent entry, starting empty.
- HeaderExtraction.GetHeaderList: the map in the source is a plain object literal (src/MarkdownTocTools.ts:239, 278-283), so it inherits the members of `Object.prototype`. A cleaned title equal to `constructor`, `hasOwnProperty`, `isPrototypeOf`, `propertyIsEnumerable`, `toLocaleString`, `toString` or `valueOf` finds a function there instead of nothing: its first occurrence is not given 0 but the function's source text followed by `1`, a string, and later occurrences append further `1`s. The model gives such titles the counts 0, 1, 2, … like any other, so `HashesMatch` does not describe their hashes. The other inherited members all contain `_`, which the clean-up removes, so no title can name them.
- HeaderExtraction.AcceptLine: for the same reason, the repetition it records and hashes for the seven titles above is a count, not the string the source passes.
- HeaderExtraction.GetHeaderList: the source pushes `new Header(index, depth, title, hash, headerRange, headerResult[1], orderedListStr, baseTitle)` (src/MarkdownTocTools.ts:286), but the `Header` class it imports (src/MarkdownTocTools.ts:8) has a one-parameter constructor taking only the anchor mode (src/models/Header.ts:24-28). As written, every pushed header would have an empty mark, so depth 0, and no line, title, hash or numbering; `createToc` would then throw a `RangeError` at `tab.repeat` for any document with a header, since the start depth is at least `depthFrom`. The model pushes `HeaderExtraction.TocHeader`, a record of the eight values the call passes, which are the fields `createToc`, `insertAnchor` and the section commands read (src/MarkdownTocTools.ts:69, 83, 139-141, 209-224): that is the evident intent, not what the call does.
- HeaderExtraction.GetHeaderList: its contract states the per-line title relation through `Run` and `HeaderExtraction.RunReads` rather than as a direct postcondition.
- UriEncoding.FinalNormalize: it requires encoded input (ASCII plus joiners), which is all the dispatcher ever passes it.

Behaviour of the code worth noting:

- **Counter reset.** The reset loop at src/MarkdownTocTools.ts:267-269 zeroes only the counter one level deeper than the accepted header, not every deeper counter. So a deeper counter can carry over a shallower header (`HeaderExtraction.StaleDeeperCounter`).
- **Anchor line prefix.** The anchor line written by `insertAnchor` uses the id prefix `markdown-`, while the `Anchor` model class uses `md-`.
- **Mode names.** The modes are the host names `github.com`, `bitbucket.org`, `gitlab.com`, `nodejs.org` and `ghost.org`. An empty mode means `github.com`.
- **Node.js underscore trim.** The node.js `^_+|_+$` replacement is not global. It removes the leading run of underscores when there is one, and otherwise the trailing run.

=== FILE: anchor.dfy ===
/** The `Anchor` record of a header: an element id and a name. */
module AnchorModel {
  import opened Wrappers

  const IdPrefix: string := "md-"

  datatype Anchor = Anchor(id: string, name: string)

  /** The `Anchor` constructor: the name is the header text and the id prefixes it with `md-`. */
  function NewAnchor(headerText: string): (a: Anchor)
    ensures a.name == headerText
    ensures |a.id| == |a.name| + |IdPrefix|
    ensures a.id[..|IdPrefix|] == IdPrefix && a.id[|IdPrefix|..] == a.name
  {
    var id := IdPrefix + headerText;
    assert id[..|IdPrefix|] == IdPrefix && id[|IdPrefix|..] == headerText;
    Anchor(id, headerText)
  }

  /** The header text an id was made from, if it carries the `md-` prefix. */
  function TextOfId(id: string): (r: Option<string>)
    ensures r.Some? <==> |id| >= |IdPrefix| && id[..|IdPrefix|] == IdPrefix
    ensures r.Some? ==> |r.value| + |IdPrefix| == |id|
  {
    if |id| >= |IdPrefix| && id[..|IdPrefix|] == IdPrefix then Some(id[|IdPrefix|..]) else None
  }

  /** The header text comes back from the id. */
  lemma {:induction false} TextOfIdRoundTrip(headerText: string)
    ensures TextOfId(NewAnchor(headerText).id) == Some(headerText)
  {
  }

  /** Different header texts give different ids. */
  lemma {:induction false} NewAnchorInjective(x: string, y: string)
    requires NewAnchor(x).id == NewAnchor(y).id
    ensures x == y
  {
    TextOfIdRoundTrip(x);
    TextOfIdRoundTrip(y);
  }
}

=== FILE: cleanup.dfy ===
/**
 The title clean-up regular expressions: link unwrapping, comment removal, the
 special-character pass and the leading section number, each written out as the
 JavaScript regular-expression engine applies it.
 */
module TitleCleanup {
  import opened Wrappers
  import opened Text

  // ---------------------------------------------------------------------
  // `replace(/\[(.+)]\([^)]*\)/gi, "$1")`

  /**
   The match of `\[(.+)]\([^)]*\)` at the head of `s`, as the index `j` of the
   `](` that ends the link text and the index `k` of the `)` that closes the
   target. The greedy `.+` cannot cross a line terminator and backs off to the
   last `](` that still has a `)` somewhere after it; `[^)]*` then stops at the
   first `)`.
   */
  function LinkAt(s: string): (r: Option<(nat, nat)>)
    ensures r.Some? ==> 2 <= r.value.0 && r.value.0 + 2 <= r.value.1 < |s|
    ensures r.Some? ==> s[0] == '[' && s[r.value.0] == ']' && s[r.value.0 + 1] == '(' && s[r.value.1] == ')'
    ensures r.Some? ==> forall i :: 1 <= i < r.value.0 ==> !IsLineTerminator(s[i])
    ensures r.Some? ==> forall i :: r.value.0 + 2 <= i < r.value.1 ==> s[i] != ')'
  {
    if |s| < 5 || s[0] != '[' then None
    else
      var seg := SegmentEnd(s, 1);
      match LastIndexOf(s, ')', 0, |s|)
      case None => None
      case Some(last) =>
        var hi := if last < 1 then 0 else if seg < last - 1 then seg else last - 1;
        match LastOccurrence(s, "](", 2, hi)
        case None => None
        case Some(j) =>
          assert s[j] == s[j..j + 2][0] && s[j + 1] == s[j..j + 2][1];
          match FirstIndexOf(s, ')', j + 2)
          case None => None
          case Some(k) => Some((j, k))
  }

  /** Every link `[text](target)` becomes `text`, scanning left to right. */
  function ReplaceLinks(s: string): (r: string)
    ensures |r| <= |s|
    ensures Avoids(s, '[') ==> r == s
    ensures Avoids(s, '(') ==> r == s
    decreases |s|
  {
    if |s| == 0 then ""
    else match LinkAt(s)
      case Some((j, k)) => s[1..j] + ReplaceLinks(s[k + 1..])
      case None => [s[0]] + ReplaceLinks(s[1..])
  }

  /** Text before the first `[` is copied unchanged. */
  lemma {:induction false} ReplaceLinksPrefix(p: string, x: string)
    requires Avoids(p, '[')
    ensures ReplaceLinks(p + x) == p + ReplaceLinks(x)
    decreases |p|
  {
    var s := p + x;
    if |p| > 0 {
      assert s[0] == p[0] && s[1..] == p[1..] + x;
      assert LinkAt(s) == None;
      assert ReplaceLinks(s) == [s[0]] + ReplaceLinks(s[1..]);
      ReplaceLinksPrefix(p[1..], x);
      AppendAssoc([p[0]], p[1..], ReplaceLinks(x));
      assert [p[0]] + p[1..] == p;
    } else {
      assert s == x;
    }
  }

  /** `LinkAt` read off from the results of the searches it makes. */
  lemma {:induction false} LinkAtFromSearches(s: string, j: nat, k: nat)
    requires |s| >= 5 && s[0] == '[' && 2 <= j && j + 2 <= k
    requires LastIndexOf(s, ')', 0, |s|) == Some(k)
    requires SegmentEnd(s, 1) > j && LastOccurrence(s, "](", 2, if SegmentEnd(s, 1) < k - 1 then SegmentEnd(s, 1) else k - 1) == Some(j)
    requires FirstIndexOf(s, ')', j + 2) == Some(k)
    ensures LinkAt(s) == Some((j, k))
  {
  }

  /** The shape of a link that ends the text: `[`, text on one line, `](`, a target without `]` or `)`, `)`. */
  lemma {:induction false} LinkAtWholeLink(s: string, j: nat)
    requires 2 <= j && j + 2 < |s|
    requires s[0] == '[' && s[j] == ']' && s[j + 1] == '(' && s[|s| - 1] == ')'
    requires forall i :: 1 <= i < j ==> !IsLineTerminator(s[i])
    requires forall i :: j + 2 <= i < |s| - 1 ==> s[i] != ']' && s[i] != ')'
    ensures LinkAt(s) == Some((j, |s| - 1))
  {
    var k := |s| - 1;
    var seg := SegmentEnd(s, 1);
    SegmentEndPast(s, 1, j);
    LastIndexOfIs(s, ')', 0, |s|, k);
    var hi := if seg < k - 1 then seg else k - 1;
    OccursAtOf(s, "](", j);
    NoOccurrenceWithoutHead(s, "](", j + 1, hi);
    LastOccurrenceIs(s, "](", 2, hi, j);
    FirstIndexOfIs(s, ')', j + 2, k);
    LinkAtFromSearches(s, j, k);
  }

  /** A text that is one link `[t](u)` becomes `t`. */
  lemma {:induction false} ReplaceWholeLink(t: string, u: string)
    requires |t| > 0 && forall i :: 0 <= i < |t| ==> !IsLineTerminator(t[i])
    requires Avoids(u, ']') && Avoids(u, ')')
    ensures ReplaceLinks("[" + t + "](" + u + ")") == t
  {
    var s := "[" + t + "](" + u + ")";
    var j := |t| + 1;
    LinkChars(t, u);
    LinkAtWholeLink(s, j);
    assert ReplaceLinks(s) == s[1..j] + ReplaceLinks(s[|s|..]);
  }

  /**
   A link `[t](u)` at the end of a line is replaced by its text `t`: the greedy
   `.+` backs off to the only `](`, and `[^)]*` reaches the final `)`.
   */
  lemma {:induction false} ReplaceLinksUnwraps(p: string, t: string, u: string)
    requires Avoids(p, '[')
    requires |t| > 0 && forall i :: 0 <= i < |t| ==> !IsLineTerminator(t[i])
    requires Avoids(u, ']') && Avoids(u, ')')
    ensures ReplaceLinks(p + ("[" + t + "](" + u + ")")) == p + t
  {
    var s := "[" + t + "](" + u + ")";
    ReplaceWholeLink(t, u);
    ReplaceLinksPrefix(p, s);
  }

  // ---------------------------------------------------------------------
  // `replace(/<!--.+-->/gi, "")`

  /**
   The end of the match of `<!--.+-->` at the head of `s`: the greedy `.+`
   reaches the last `-->` before the first line terminator, and holds at least
   one character.
   */
  function CommentEnd(s: string): (r: Option<nat>)
    ensures r.Some? ==> 8 <= r.value <= |s|
    ensures r.Some? ==> s[..4] == "<!--" && s[r.value - 3..r.value] == "-->"
    ensures r.Some? ==> forall i :: 4 <= i < r.value ==> !IsLineTerminator(s[i])
  {
    if |s| < 8 || s[..4] != "<!--" then None
    else
      var seg := SegmentEnd(s, 4);
      match LastOccurrence(s, "-->", 5, seg - 2)
      case None => None
      case Some(q) =>
        assert s[q..q + 3] == "-->";
        assert forall i :: q <= i < q + 3 ==> !IsLineTerminator(s[i]) by {
          assert forall i :: q <= i < q + 3 ==> s[i] == s[q..q + 3][i - q];
        }
        Some(q + 3)
  }

  /** Every HTML comment that fits on one line is removed, scanning left to right. */
  function StripComments(s: string): (r: string)
    ensures |r| <= |s|
    ensures Avoids(s, '<') ==> r == s
    decreases |s|
  {
    if |s| == 0 then ""
    else match CommentEnd(s)
      case Some(e) => StripComments(s[e..])
      case None => [s[0]] + StripComments(s[1..])
  }

  /** Text before the first `<` is copied unchanged. */
  lemma {:induction false} StripCommentsPrefix(p: string, x: string)
    requires Avoids(p, '<')
    ensures StripComments(p + x) == p + StripComments(x)
    decreases |p|
  {
    if |p| > 0 {
      var s := p + x;
      assert s[0] == p[0] && s[1..] == p[1..] + x;
      assert |s| < 8 || s[..4][0] == s[0];
      assert CommentEnd(s) == None;
      assert StripComments(s) == [s[0]] + StripComments(s[1..]);
      StripCommentsPrefix(p[1..], x);
      AppendAssoc([p[0]], p[1..], StripComments(x));
      assert [p[0]] + p[1..] == p;
    } else {
      assert p + x == x;
    }
  }

  /** A one-line comment that is the whole text ends where the text ends. */
  lemma {:induction false} CommentEndWhole(s: string)
    requires |s| >= 8 && s[..4] == "<!--" && OccursAt(s, "-->", |s| - 3)
    requires forall i :: 4 <= i < |s| ==> !IsLineTerminator(s[i])
    ensures CommentEnd(s) == Some(|s|)
  {
    SegmentEndPast(s, 4, |s| - 1);
    LastOccurrenceIs(s, "-->", 5, |s| - 2, |s| - 3);
  }

  /** The characters of the comment `<!--c-->`. */
  lemma {:induction false} CommentChars(c: string)
    ensures var s := "<!--" + c + "-->";
      && |s| == |c| + 7 && s[..4] == "<!--" && s[|s|..] == ""
      && s[|s| - 3] == '-' && s[|s| - 2] == '-' && s[|s| - 1] == '>'
      && (forall i :: 4 <= i < |s| - 3 ==> s[i] == c[i - 4])
  {
    var s := "<!--" + c + "-->";
    assert s == ['<', '!', '-', '-'] + c + ['-', '-', '>'];
  }

  /** A comment `<!--c-->` at the end of a line is removed with everything in it. */
  lemma {:induction false} StripCommentsRemoves(p: string, c: string)
    requires Avoids(p, '<')
    requires |c| > 0 && forall i :: 0 <= i < |c| ==> !IsLineTerminator(c[i])
    ensures StripComments(p + ("<!--" + c + "-->")) == p
  {
    var s := "<!--" + c + "-->";
    CommentChars(c);
    OccursAtOf(s, "-->", |s| - 3);
    CommentEndWhole(s);
    assert StripComments(s) == StripComments(s[|s|..]);
    StripCommentsPrefix(p, s);
  }

  // ---------------------------------------------------------------------
  // `replace(/\#*_/gi, "")` and `replace(/\#*`|\(|\)/gi, "")`

  /** The length of the run of `#` at the head of `s`. */
  function HashRun(s: string): (n: nat)
    ensures n <= |s|
    ensures forall i :: 0 <= i < n ==> s[i] == '#'
    ensures n < |s| ==> s[n] != '#'
    decreases |s|
  {
    if |s| > 0 && s[0] == '#' then 1 + HashRun(s[1..]) else 0
  }

  /**
   The global replacement of `\#*m` (a run of `#` ending in the marker `m`)
   and of the single characters in `singles` by nothing.
   */
  function StripMarked(s: string, mark: char, singles: set<char>): (r: string)
    requires mark != '#' && '#' !in singles
    ensures |r| <= |s|
    ensures forall i :: 0 <= i < |r| ==> r[i] != mark && r[i] !in singles
    ensures forall i :: 0 <= i < |r| ==> r[i] in s
    decreases |s|
  {
    if |s| == 0 then ""
    else
      var m := HashRun(s);
      if m < |s| && s[m] == mark then StripMarked(s[m + 1..], mark, singles)
      else if s[0] in singles then StripMarked(s[1..], mark, singles)
      else [s[0]] + StripMarked(s[1..], mark, singles)
  }

  /** Removing every character of a string made only of removed characters leaves nothing. */
  lemma {:induction false} RemoveCharsAllIn(s: string, cs: set<char>)
    requires forall i :: 0 <= i < |s| ==> s[i] in cs
    ensures RemoveChars(s, cs) == ""
    decreases |s|
  {
    if |s| > 0 {
      RemoveCharsAllIn(s[1..], cs);
    }
  }

  /** The step that drops a run of `#` and its marker removes nothing the filter keeps. */
  lemma {:induction false} DroppedMarkContent(s: string, m: nat, cs: set<char>)
    requires m < |s| && '#' in cs && s[m] in cs
    requires forall i :: 0 <= i < m ==> s[i] == '#'
    ensures RemoveChars(s, cs) == RemoveChars(s[m + 1..], cs)
  {
    assert s == s[..m + 1] + s[m + 1..];
    RemoveCharsAppend(s[..m + 1], s[m + 1..], cs);
    RemoveCharsAllIn(s[..m + 1], cs);
  }

  /** The filter splits off the head character. */
  lemma {:induction false} RemoveCharsHead(s: string, cs: set<char>)
    requires |s| > 0
    ensures RemoveChars(s, cs) == (if s[0] in cs then "" else [s[0]]) + RemoveChars(s[1..], cs)
  {
  }

  /** The step that drops a run of `#` and its marker keeps the content. */
  lemma {:induction false} StripDropStep(s: string, mark: char, singles: set<char>)
    requires mark != '#' && '#' !in singles && |s| > 0
    requires HashRun(s) < |s| && s[HashRun(s)] == mark
    requires RemoveChars(StripMarked(s[HashRun(s) + 1..], mark, singles), {'#'})
          == RemoveChars(s[HashRun(s) + 1..], {'#', mark} + singles)
    ensures RemoveChars(StripMarked(s, mark, singles), {'#'}) == RemoveChars(s, {'#', mark} + singles)
  {
    var cs := {'#', mark} + singles;
    assert '#' in cs && mark in cs;
    DroppedMarkContent(s, HashRun(s), cs);
  }

  /** The step that keeps or drops the head character keeps the content. */
  lemma {:induction false} StripHeadStep(s: string, mark: char, singles: set<char>)
    requires mark != '#' && '#' !in singles && |s| > 0
    requires !(HashRun(s) < |s| && s[HashRun(s)] == mark)
    requires RemoveChars(StripMarked(s[1..], mark, singles), {'#'}) == RemoveChars(s[1..], {'#', mark} + singles)
    ensures RemoveChars(StripMarked(s, mark, singles), {'#'}) == RemoveChars(s, {'#', mark} + singles)
  {
    var rest := StripMarked(s[1..], mark, singles);
    RemoveCharsHead(s, {'#', mark} + singles);
    if s[0] !in singles {
      assert StripMarked(s, mark, singles) == [s[0]] + rest;
      RemoveCharsHead([s[0]] + rest, {'#'});
      assert ([s[0]] + rest)[1..] == rest;
    }
  }

  /** What the pass reads next: the text after a dropped `#`-run and marker, or after the head character. */
  function StripRest(s: string, mark: char): (r: string)
    requires |s| > 0
    ensures |r| < |s|
  {
    if HashRun(s) < |s| && s[HashRun(s)] == mark then s[HashRun(s) + 1..] else s[1..]
  }

  /** One step of the pass keeps the content, whichever way it goes. */
  lemma {:induction false} StripStep(s: string, mark: char, singles: set<char>)
    requires mark != '#' && '#' !in singles && |s| > 0
    requires RemoveChars(StripMarked(StripRest(s, mark), mark, singles), {'#'})
          == RemoveChars(StripRest(s, mark), {'#', mark} + singles)
    ensures RemoveChars(StripMarked(s, mark, singles), {'#'}) == RemoveChars(s, {'#', mark} + singles)
  {
    if HashRun(s) < |s| && s[HashRun(s)] == mark {
      StripDropStep(s, mark, singles);
    } else {
      StripHeadStep(s, mark, singles);
    }
  }

  /**
   Apart from `#`, the pass removes exactly the markers and the single characters:
   with every `#` filtered out of both sides, the result is the input without
   `#`, markers and single characters.
   */
  lemma {:induction false} StripMarkedContent(s: string, mark: char, singles: set<char>)
    requires mark != '#' && '#' !in singles
    ensures RemoveChars(StripMarked(s, mark, singles), {'#'}) == RemoveChars(s, {'#', mark} + singles)
    decreases |s|
  {
    if |s| > 0 {
      StripMarkedContent(StripRest(s, mark), mark, singles);
      StripStep(s, mark, singles);
    }
  }

  /** A string without markers or single characters passes through unchanged. */
  lemma {:induction false} StripMarkedAbsent(s: string, mark: char, singles: set<char>)
    requires mark != '#' && '#' !in singles
    requires forall i :: 0 <= i < |s| ==> s[i] != mark && s[i] !in singles
    ensures StripMarked(s, mark, singles) == s
    decreases |s|
  {
    if |s| > 0 {
      var m := HashRun(s);
      assert !(m < |s| && s[m] == mark);
      StripMarkedAbsent(s[1..], mark, singles);
      assert [s[0]] + s[1..] == s;
    }
  }

  // ---------------------------------------------------------------------
  // The two clean-up passes.

  /** `MarkdownTocTools.cleanUpTitle`: links unwrapped, comments out, `#*_` out, trimmed. */
  function ToolsCleanUpTitle(dirty: string): (r: string)
    ensures Avoids(r, '_')
    ensures IsTrimmed(r)
    ensures |r| <= |dirty|
  {
    var stripped := StripMarked(StripComments(ReplaceLinks(dirty)), '_', {});
    TrimKeeps(stripped, c => c != '_');
    Trim(stripped)
  }

  /** `Header.cleanUpTitle`: links unwrapped, comments out, `#*` + backtick, `(` and `)` out, trimmed. */
  function HeaderCleanUpTitle(dirty: string): (r: string)
    ensures Avoids(r, '`') && Avoids(r, '(') && Avoids(r, ')')
    ensures IsTrimmed(r)
    ensures |r| <= |dirty|
  {
    var stripped := StripMarked(StripComments(ReplaceLinks(dirty)), '`', {'(', ')'});
    TrimKeeps(stripped, c => c != '`' && c != '(' && c != ')');
    Trim(stripped)
  }

  /** A title with no link, comment or underscore is only trimmed by the tools clean-up. */
  lemma {:induction false} ToolsCleanUpPlain(dirty: string)
    requires Avoids(dirty, '[') && Avoids(dirty, '<') && Avoids(dirty, '_')
    ensures ToolsCleanUpTitle(dirty) == Trim(dirty)
  {
    StripMarkedAbsent(dirty, '_', {});
  }

  /** A title with no link, comment, backtick or parenthesis is only trimmed by the header clean-up. */
  lemma {:induction false} HeaderCleanUpPlain(dirty: string)
    requires Avoids(dirty, '[') && Avoids(dirty, '<')
    requires Avoids(dirty, '`') && Avoids(dirty, '(') && Avoids(dirty, ')')
    ensures HeaderCleanUpTitle(dirty) == Trim(dirty)
  {
    StripMarkedAbsent(dirty, '`', {'(', ')'});
  }

  // ---------------------------------------------------------------------
  // `title.replace(/^(?:\d+\.)+/, "").trim()`

  /** The length of the run of decimal digits at the head of `s`. */
  function DigitRun(s: string): (n: nat)
    ensures n <= |s|
    ensures forall i :: 0 <= i < n ==> IsDigit(s[i])
    ensures n < |s| ==> !IsDigit(s[n])
    decreases |s|
  {
    if |s| > 0 && IsDigit(s[0]) then 1 + DigitRun(s[1..]) else 0
  }

  /** The length of the match of `^(?:\d+\.)+`, zero when there is none. */
  function NumberingPrefixLen(s: string): (n: nat)
    ensures n <= |s|
    ensures n > 0 ==> IsDigit(s[0]) && s[n - 1] == '.'
    decreases |s|
  {
    var d := DigitRun(s);
    if 0 < d < |s| && s[d] == '.' then d + 1 + NumberingPrefixLen(s[d + 1..]) else 0
  }

  /** The title without its leading section number, trimmed. */
  function BaseTitle(title: string): (r: string)
    ensures IsTrimmed(r)
    ensures NumberingPrefixLen(title) == 0 ==> r == Trim(title)
  {
    Trim(title[NumberingPrefixLen(title)..])
  }

  /** A digit string followed by anything else extends the digit run by nothing. */
  lemma {:induction false} DigitRunAppend(d: string, x: string)
    requires AllDigits(d)
    ensures DigitRun(d + x) == |d| + DigitRun(x)
    decreases |d|
  {
    if |d| > 0 {
      assert (d + x)[1..] == d[1..] + x;
      DigitRunAppend(d[1..], x);
    } else {
      assert d + x == x;
    }
  }

  /** A section number: each count in decimal followed by `.`. */
  function Numbering(counts: seq<nat>): (r: string)
    ensures |r| >= |counts|
    ensures |counts| > 0 ==> IsDigit(r[0]) && r[|r| - 1] == '.'
    decreases |counts|
  {
    if |counts| == 0 then "" else NatToString(counts[0]) + "." + Numbering(counts[1..])
  }

  /** One count and its `.` are one step of the section-number pattern. */
  lemma {:induction false} NumberingPrefixStep(head: string, tail: string)
    requires |head| > 0 && AllDigits(head)
    ensures NumberingPrefixLen(head + ("." + tail)) == |head| + 1 + NumberingPrefixLen(tail)
  {
    var s := head + ("." + tail);
    DigitRunAppend(head, "." + tail);
    assert DigitRun("." + tail) == 0;
    assert s[|head|] == '.' && s[|head| + 1..] == tail;
  }

  lemma {:induction false} NumberingHead(counts: seq<nat>)
    requires |counts| > 0
    ensures Numbering(counts) == NatToString(counts[0]) + "." + Numbering(counts[1..])
  {
  }

  /** The inductive step: one more count in front of a numbering the pattern consumes. */
  lemma {:induction false} NumberingPrefixCons(counts: seq<nat>, rest: string)
    requires |counts| > 0
    requires NumberingPrefixLen(Numbering(counts[1..]) + rest) == |Numbering(counts[1..])| + NumberingPrefixLen(rest)
    ensures NumberingPrefixLen(Numbering(counts) + rest) == |Numbering(counts)| + NumberingPrefixLen(rest)
  {
    var head := NatToString(counts[0]);
    var tail := Numbering(counts[1..]) + rest;
    NumberingHead(counts);
    AppendAssoc(head, ".", Numbering(counts[1..]));
    AppendAssoc(head + ".", Numbering(counts[1..]), rest);
    AppendAssoc(head, ".", tail);
    AppendAssoc(".", Numbering(counts[1..]), rest);
    NumberingPrefixStep(head, tail);
  }

  /** The section-number pattern consumes exactly a numbering and then continues on what follows. */
  lemma {:induction false} NumberingPrefixOfNumbering(counts: seq<nat>, rest: string)
    ensures NumberingPrefixLen(Numbering(counts) + rest) == |Numbering(counts)| + NumberingPrefixLen(rest)
    decreases |counts|
  {
    if |counts| == 0 {
      assert Numbering(counts) + rest == rest;
    } else {
      NumberingPrefixOfNumbering(counts[1..], rest);
      NumberingPrefixCons(counts, rest);
    }
  }

  /** A numbering followed by a space is exactly the section-number match. */
  lemma {:induction false} NumberingThenSpace(counts: seq<nat>, title: string)
    ensures NumberingPrefixLen(Numbering(counts) + " " + title) == |Numbering(counts)|
  {
    NumberingPrefixOfNumbering(counts, " " + title);
    assert DigitRun(" " + title) == 0;
    assert Numbering(counts) + " " + title == Numbering(counts) + (" " + title);
  }

  /** A title written after a numbering and a space comes back as the base title. */
  lemma {:induction false} BaseTitleOfNumbered(counts: seq<nat>, title: string)
    requires IsTrimmed(title)
    ensures BaseTitle(Numbering(counts) + " " + title) == title
  {
    var s := Numbering(counts) + " " + title;
    NumberingThenSpace(counts, title);
    assert s[|Numbering(counts)|..] == [' '] + title;
    TrimSkipsLeading([' '], title);
    TrimOfTrimmed(title);
  }
}

=== FILE: document.dfy ===
/** Positions and ranges in a document of lines, as the editor reports them. */
module Doc {

  /** A zero-based line number and a column within that line. */
  datatype Position = Position(line: nat, character: nat)

  /** The span between two positions. */
  datatype Range = Range(start: Position, end: Position)
}

=== FILE: extraction.dfy ===
/**
 `getHeaderList`: one pass over the document lines with a code-fence state, a
 counter per depth and a count per cleaned title, producing the header records
 the TOC is built from.
 */
module HeaderExtraction {
  import opened Wrappers
  import opened Text
  import opened Doc
  import opened TitleCleanup

  /** Outside any code block, inside a block opened by the first fence pattern, or by the second. */
  datatype Fence = Outside | InBlock1 | InBlock2

  /**
   The configured patterns, which live in a configuration manager this model does
   not include: the two code-fence patterns, the header pattern (its first group,
   the run of `#`, when it matches), the ignore pattern, and `getHash` for the
   configured anchor mode.
   */
  datatype Patterns = Patterns(
    codeBlock1: string -> bool,
    codeBlock2: string -> bool,
    header: string -> Option<string>,
    ignoreTitle: string -> bool,
    hash: (string, nat) -> string)

  /** The `depthFrom` and `depthTo` options. */
  datatype DepthRange = DepthRange(depthFrom: nat, depthTo: nat)

  /** Depths run from 1 to 6: six counters plus the one the reset writes at depth 6. */
  predicate ValidRange(r: DepthRange) {
    1 <= r.depthFrom && r.depthTo <= 6
  }

  /**
   The eight values `getHeaderList` passes to `new Header(...)` for every
   accepted header line, kept as a record: the fields its callers read. The
   `Header` class's constructor takes only an anchor mode, so this record is the
   evident intent of that call rather than what it builds. The section number is
   kept as its list of counts; `OrderedList` spells it as the string the source
   passes.
   */
  datatype TocHeader = TocHeader(
    line: nat,
    depth: nat,
    title: string,
    hash: string,
    range: Range,
    header: string,
    orderedCounts: seq<nat>,
    baseTitle: string)

  datatype ExtractState = ExtractState(
    fence: Fence,
    counters: seq<nat>,
    seen: TitleMap,
    headers: seq<TocHeader>)

  /**
   The `hashMap` object from title to its last repetition, as a list of entries
   in insertion order where a later entry for a title overrides an earlier one.
   */
  type TitleMap = seq<(string, nat)>

  /** The value stored for `t`, if any. */
  function Lookup(seen: TitleMap, t: string): Option<nat>
    decreases |seen|
  {
    if |seen| == 0 then None
    else if seen[|seen| - 1].0 == t then Some(seen[|seen| - 1].1)
    else Lookup(seen[..|seen| - 1], t)
  }

  /** Storing a value for `t` makes it the value looked up for `t` and changes no other title. */
  lemma {:induction false} LookupStore(seen: TitleMap, t: string, v: nat, u: string)
    ensures Lookup(seen + [(t, v)], u) == if u == t then Some(v) else Lookup(seen, u)
  {
    assert (seen + [(t, v)])[..|seen|] == seen;
  }

  const CounterCount: nat := 7

  function InitialState(): (st: ExtractState)
    ensures |st.counters| == CounterCount && forall j :: 0 <= j < CounterCount ==> st.counters[j] == 0
    ensures st.fence == Outside && st.seen == [] && st.headers == []
  {
    ExtractState(Outside, seq(CounterCount, _ => 0), [], [])
  }

  /**
   The fence machine: outside, the first pattern opens a type-1 block and
   otherwise the second a type-2 block; inside, only the pattern that opened the
   block closes it.
   */
  function NextFence(f: Fence, line: string, pats: Patterns): (g: Fence)
    ensures f == Outside ==> (g == InBlock1 <==> pats.codeBlock1(line))
    ensures f == Outside ==> (g == InBlock2 <==> !pats.codeBlock1(line) && pats.codeBlock2(line))
    ensures f == InBlock1 ==> g != InBlock2 && (g == Outside <==> pats.codeBlock1(line))
    ensures f == InBlock2 ==> g != InBlock1 && (g == Outside <==> pats.codeBlock2(line))
  {
    match f
    case Outside => if pats.codeBlock1(line) then InBlock1 else if pats.codeBlock2(line) then InBlock2 else Outside
    case InBlock1 => if pats.codeBlock1(line) then Outside else InBlock1
    case InBlock2 => if pats.codeBlock2(line) then Outside else InBlock2
  }

  /** The loop at lines 267-269: it writes 0 to the counter of the next depth once per pass. */
  function ResetLoop(counters: seq<nat>, depth: nat, i: nat, depthTo: nat): (r: seq<nat>)
    requires depth < |counters|
    ensures |r| == |counters|
    ensures i <= depthTo ==> r == counters[depth := 0]
    ensures i > depthTo ==> r == counters
    decreases depthTo + 1 - i
  {
    if i > depthTo then counters else ResetLoop(counters[depth := 0], depth, i + 1, depthTo)
  }

  /**
   Accepting a header at `depth`: the counter of the next depth becomes 0, the
   counter of `depth` goes up by one, and every other counter, deeper ones
   included, keeps its value.
   */
  function Bump(counters: seq<nat>, depth: nat, depthTo: nat): (r: seq<nat>)
    requires |counters| == CounterCount && 1 <= depth <= depthTo <= 6
    ensures |r| == CounterCount
    ensures r[depth - 1] == counters[depth - 1] + 1 && r[depth] == 0
    ensures forall j :: 0 <= j < CounterCount && j != depth - 1 && j != depth ==> r[j] == counters[j]
  {
    var reset := ResetLoop(counters, depth, depth, depthTo);
    reset[depth - 1 := reset[depth - 1] + 1]
  }

  /** The number of `c` in `s`. */
  function CountChar(s: string, c: char): nat
    decreases |s|
  {
    if |s| == 0 then 0 else (if s[0] == c then 1 else 0) + CountChar(s[1..], c)
  }

  lemma {:induction false} CountCharAppend(a: string, b: string, c: char)
    ensures CountChar(a + b, c) == CountChar(a, c) + CountChar(b, c)
    decreases |a|
  {
    if |a| == 0 {
      assert a + b == b;
    } else {
      assert (a + b)[1..] == a[1..] + b;
      CountCharAppend(a[1..], b, c);
    }
  }

  lemma {:induction false} CountCharDigits(s: string, c: char)
    requires AllDigits(s) && !IsDigit(c)
    ensures CountChar(s, c) == 0
    decreases |s|
  {
    if |s| > 0 {
      CountCharDigits(s[1..], c);
    }
  }

  /** A run of digits, a `.` and more text has one `.` more than that text. */
  lemma {:induction false} DotsAfterDigits(head: string, tail: string)
    requires AllDigits(head)
    ensures CountChar(head + ("." + tail), '.') == CountChar(tail, '.') + 1
  {
    CountCharAppend(head, "." + tail, '.');
    CountCharDigits(head, '.');
    assert ("." + tail)[1..] == tail;
  }

  lemma {:induction false} NumberingDotsCons(counts: seq<nat>)
    requires |counts| > 0 && CountChar(Numbering(counts[1..]), '.') == |counts| - 1
    ensures CountChar(Numbering(counts), '.') == |counts|
  {
    var head := NatToString(counts[0]);
    var tail := Numbering(counts[1..]);
    NumberingHead(counts);
    AppendAssoc(head, ".", tail);
    DotsAfterDigits(head, tail);
  }

  /** A section number has one `.` per component. */
  lemma {:induction false} NumberingDots(counts: seq<nat>)
    ensures CountChar(Numbering(counts), '.') == |counts|
    decreases |counts|
  {
    if |counts| > 0 {
      NumberingDots(counts[1..]);
      NumberingDotsCons(counts);
    }
  }

  /** A section number has one `.` per component, and the section-number pattern reads all of it. */
  lemma {:induction false} NumberingComponents(counts: seq<nat>)
    ensures CountChar(Numbering(counts), '.') == |counts|
    ensures NumberingPrefixLen(Numbering(counts)) == |Numbering(counts)|
  {
    NumberingDots(counts);
    NumberingPrefixOfNumbering(counts, "");
    assert Numbering(counts) + "" == Numbering(counts);
  }

  /** The line passes the header pattern, the depth bounds and the ignore pattern. */
  predicate IsHeaderLine(line: string, pats: Patterns, range: DepthRange) {
    && pats.header(line).Some?
    && range.depthFrom <= |pats.header(line).value| <= range.depthTo
    && !pats.ignoreTitle(line)
  }

  /** The repetition of a title: 0 the first time, one more than the last one after that. */
  function Repetition(seen: TitleMap, t: string): (r: nat)
    ensures Lookup(seen, t).None? ==> r == 0
    ensures Lookup(seen, t).Some? ==> r == Lookup(seen, t).value + 1
  {
    match Lookup(seen, t)
    case None => 0
    case Some(v) => v + 1
  }

  /** The title of a header line: the text after the mark, trimmed and cleaned. */
  function HeaderTitle(line: string, mark: string): (t: string)
    ensures Avoids(t, '_') && IsTrimmed(t)
  {
    ToolsCleanUpTitle(Trim(Substr(line, |mark|)))
  }

  /** The base title of a header line: the text after the mark, trimmed, without its section number. */
  function HeaderBaseTitle(line: string, mark: string): (t: string)
    ensures IsTrimmed(t)
  {
    BaseTitle(Trim(Substr(line, |mark|)))
  }

  /**
   Accepting a line with mark `mark` whose cleaned title is `title` and whose
   base title is `baseTitle`: the counters are bumped, the title is recorded with
   its repetition, and the header is appended with the hash of that repetition,
   the counters from `depthFrom` to its depth, and a range spanning the line.
   */
  function AcceptLine(st: ExtractState, index: nat, line: string, mark: string, title: string, baseTitle: string,
                      pats: Patterns, range: DepthRange): (r: ExtractState)
    requires ValidRange(range) && |st.counters| == CounterCount && range.depthFrom <= |mark| <= range.depthTo
    ensures r.fence == Outside && |r.headers| == |st.headers| + 1 && r.headers[..|st.headers|] == st.headers
    ensures r.counters == Bump(st.counters, |mark|, range.depthTo)
    ensures r.seen == st.seen + [(title, Repetition(st.seen, title))]
    ensures var h := r.headers[|st.headers|];
      && h.line == index && h.depth == |mark| && h.header == mark
      && h.title == title && h.baseTitle == baseTitle
      && h.hash == pats.hash(title, Repetition(st.seen, title))
      && h.orderedCounts == r.counters[range.depthFrom - 1..|mark|]
      && h.range == Range(Position(index, 0), Position(index, |line|))
  {
    var counters := Bump(st.counters, |mark|, range.depthTo);
    var rep := Repetition(st.seen, title);
    var h := TocHeader(
      index, |mark|, title, pats.hash(title, rep),
      Range(Position(index, 0), Position(index, |line|)),
      mark, counters[range.depthFrom - 1..|mark|], baseTitle);
    ExtractState(Outside, counters, st.seen + [(title, rep)], st.headers + [h])
  }

  /** One iteration of the loop in `getHeaderList`, for the line at `index`. */
  function Step(st: ExtractState, index: nat, line: string, pats: Patterns, range: DepthRange): (r: ExtractState)
    requires ValidRange(range) && |st.counters| == CounterCount
    ensures r.fence == NextFence(st.fence, line, pats)
    ensures |r.counters| == CounterCount
  {
    var fence := NextFence(st.fence, line, pats);
    if fence == Outside && IsHeaderLine(line, pats, range) then
      var mark := pats.header(line).value;
      AcceptLine(st, index, line, mark, HeaderTitle(line, mark), HeaderBaseTitle(line, mark), pats, range)
    else st.(fence := fence)
  }

  /** A line that yields no header only moves the fence state. */
  lemma {:induction false} StepRejected(st: ExtractState, index: nat, line: string, pats: Patterns, range: DepthRange)
    requires ValidRange(range) && |st.counters| == CounterCount
    requires !(NextFence(st.fence, line, pats) == Outside && IsHeaderLine(line, pats, range))
    ensures Step(st, index, line, pats, range) == st.(fence := NextFence(st.fence, line, pats))
  {
  }

  /** A line that yields a header is accepted with the title and base title read from it. */
  lemma {:induction false} StepAccepted(st: ExtractState, index: nat, line: string, pats: Patterns, range: DepthRange)
    requires ValidRange(range) && |st.counters| == CounterCount
    requires NextFence(st.fence, line, pats) == Outside && IsHeaderLine(line, pats, range)
    ensures var mark := pats.header(line).value;
      Step(st, index, line, pats, range)
        == AcceptLine(st, index, line, mark, HeaderTitle(line, mark), HeaderBaseTitle(line, mark), pats, range)
  {
  }

  // ---------------------------------------------------------------------
  // Reference definitions.

  /** The fence state after the first `n` lines. */
  function FenceAfter(lines: seq<string>, n: nat, pats: Patterns): Fence
    requires n <= |lines|
    decreases n
  {
    if n == 0 then Outside else NextFence(FenceAfter(lines, n - 1, pats), lines[n - 1], pats)
  }

  /** Line `i` yields a header: outside any code block once the line is read, and a header line. */
  predicate IsAccepted(lines: seq<string>, i: nat, pats: Patterns, range: DepthRange)
    requires i < |lines|
  {
    FenceAfter(lines, i + 1, pats) == Outside && IsHeaderLine(lines[i], pats, range)
  }

  /** The indices of the accepted lines among the first `n`, in order. */
  function AcceptedLines(lines: seq<string>, n: nat, pats: Patterns, range: DepthRange): seq<nat>
    requires n <= |lines|
    decreases n
  {
    if n == 0 then []
    else AcceptedLines(lines, n - 1, pats, range) + (if IsAccepted(lines, n - 1, pats, range) then [n - 1] else [])
  }

  function LineNumbers(hs: seq<TocHeader>): (r: seq<nat>)
    ensures |r| == |hs| && forall k :: 0 <= k < |hs| ==> r[k] == hs[k].line
  {
    seq(|hs|, k requires 0 <= k < |hs| => hs[k].line)
  }

  function Depths(hs: seq<TocHeader>): (r: seq<nat>)
    ensures |r| == |hs| && forall k :: 0 <= k < |hs| ==> r[k] == hs[k].depth
  {
    seq(|hs|, k requires 0 <= k < |hs| => hs[k].depth)
  }

  /** The number of headers with the cleaned title `t`. */
  function CountTitle(hs: seq<TocHeader>, t: string): nat
    decreases |hs|
  {
    if |hs| == 0 then 0 else CountTitle(hs[..|hs| - 1], t) + (if hs[|hs| - 1].title == t then 1 else 0)
  }

  /**
   The number of depth-`d` headers since the last header of depth `d - 1`: a
   header of depth `d - 1` is the only one that restarts the count.
   */
  function CountSince(depths: seq<nat>, d: int): nat
    decreases |depths|
  {
    if |depths| == 0 then 0
    else
      var last := depths[|depths| - 1];
      if last + 1 == d then 0
      else if last == d then CountSince(depths[..|depths| - 1], d) + 1
      else CountSince(depths[..|depths| - 1], d)
  }

  /** The section number the reference counts give a header at `depth`. */
  function ExpectedNumbering(depths: seq<nat>, from: nat, depth: nat): (r: seq<nat>)
    requires from <= depth + 1
    ensures |r| == depth + 1 - from
    ensures forall i :: 0 <= i < |r| ==> r[i] == CountSince(depths, from + i)
  {
    seq<nat>(depth + 1 - from, i => CountSince(depths, from + i))
  }

  // ---------------------------------------------------------------------
  // What the pass computes.

  /** The title map holds 0 for a title not seen yet and, for a title seen, the number of headers with it. */
  ghost predicate SeenMatches(st: ExtractState) {
    forall t :: Repetition(st.seen, t) == CountTitle(st.headers, t)
  }

  /** Every header's hash is computed with the number of earlier headers with the same title. */
  predicate HashesMatch(hs: seq<TocHeader>, pats: Patterns) {
    forall k :: 0 <= k < |hs| ==> hs[k].hash == pats.hash(hs[k].title, CountTitle(hs[..k], hs[k].title))
  }

  /** Counter `j` holds the reference count for depth `j + 1`. */
  predicate CountersMatch(counters: seq<nat>, depths: seq<nat>) {
    |counters| == CounterCount && forall j :: 0 <= j < CounterCount ==> counters[j] == CountSince(depths, j + 1)
  }

  /** A header's section number as the reference counts spell it when the header is read. */
  predicate NumberedAsExpected(hs: seq<TocHeader>, k: nat, from: nat)
    requires k < |hs|
  {
    from <= hs[k].depth + 1 && hs[k].orderedCounts == ExpectedNumbering(Depths(hs[..k + 1]), from, hs[k].depth)
  }

  /** Every header is numbered as expected, stated prefix by prefix. */
  predicate AllNumberedAsExpected(hs: seq<TocHeader>, from: nat)
    decreases |hs|
  {
    |hs| == 0 || (AllNumberedAsExpected(hs[..|hs| - 1], from) && NumberedAsExpected(hs, |hs| - 1, from))
  }

  /** The prefix-by-prefix statement holds header by header. */
  lemma {:induction false} NumberedAt(hs: seq<TocHeader>, from: nat, k: nat)
    requires AllNumberedAsExpected(hs, from) && k < |hs|
    ensures NumberedAsExpected(hs, k, from)
    decreases |hs|
  {
    if k < |hs| - 1 {
      var p := hs[..|hs| - 1];
      NumberedAt(p, from, k);
      assert p[..k + 1] == hs[..k + 1];
    }
  }

  /**
   A header describes a line of the document: its depth is inside the range and
   is the length of its mark, its title is cleaned and trimmed, and its range
   spans the line.
   */
  predicate HeaderOfLine(lines: seq<string>, h: TocHeader, range: DepthRange) {
    && h.line < |lines|
    && range.depthFrom <= h.depth <= range.depthTo
    && h.depth == |h.header|
    && Avoids(h.title, '_') && IsTrimmed(h.title) && IsTrimmed(h.baseTitle)
    && h.range == Range(Position(h.line, 0), Position(h.line, |lines[h.line]|))
  }

  predicate HeadersFromLines(lines: seq<string>, hs: seq<TocHeader>, range: DepthRange) {
    forall k :: 0 <= k < |hs| ==> HeaderOfLine(lines, hs[k], range)
  }

  /** The mark, title and base title of a header are what its line holds. */
  predicate ReadFromLine(lines: seq<string>, h: TocHeader, pats: Patterns) {
    && h.line < |lines|
    && pats.header(lines[h.line]) == Some(h.header)
    && h.title == HeaderTitle(lines[h.line], h.header)
    && h.baseTitle == HeaderBaseTitle(lines[h.line], h.header)
  }

  predicate AllReadFromLines(lines: seq<string>, hs: seq<TocHeader>, pats: Patterns) {
    forall k :: 0 <= k < |hs| ==> ReadFromLine(lines, hs[k], pats)
  }

  lemma {:induction false} ReadAppend(lines: seq<string>, hs: seq<TocHeader>, h: TocHeader, pats: Patterns)
    requires AllReadFromLines(lines, hs, pats) && ReadFromLine(lines, h, pats)
    ensures forall k :: 0 <= k < |hs| + 1 ==> ReadFromLine(lines, (hs + [h])[k], pats)
  {
  }

  /** What holds after the first `i` lines. */
  ghost predicate Invariant(lines: seq<string>, i: nat, st: ExtractState, pats: Patterns, range: DepthRange)
    requires i <= |lines|
  {
    && |st.counters| == CounterCount
    && st.fence == FenceAfter(lines, i, pats)
    && LineNumbers(st.headers) == AcceptedLines(lines, i, pats, range)
    && SeenMatches(st)
    && HashesMatch(st.headers, pats)
    && CountersMatch(st.counters, Depths(st.headers))
    && AllNumberedAsExpected(st.headers, range.depthFrom)
    && HeadersFromLines(lines, st.headers, range)
  }

  lemma {:induction false} DepthsAppend(hs: seq<TocHeader>, h: TocHeader)
    ensures Depths(hs + [h]) == Depths(hs) + [h.depth]
    ensures LineNumbers(hs + [h]) == LineNumbers(hs) + [h.line]
  {
  }

  lemma {:induction false} CountTitleAppend(hs: seq<TocHeader>, h: TocHeader, t: string)
    ensures CountTitle(hs + [h], t) == CountTitle(hs, t) + (if h.title == t then 1 else 0)
  {
    assert (hs + [h])[..|hs|] == hs;
  }

  lemma {:induction false} CountSinceAppend(ds: seq<nat>, d: nat, e: int)
    ensures CountSince(ds + [d], e) == if d + 1 == e then 0 else if d == e then CountSince(ds, e) + 1 else CountSince(ds, e)
  {
    assert (ds + [d])[..|ds|] == ds;
  }

  /** Recording a title with its repetition keeps the title map in step with the headers. */
  lemma {:induction false} SeenAppend(seen: TitleMap, hs: seq<TocHeader>, h: TocHeader)
    requires forall t :: Repetition(seen, t) == CountTitle(hs, t)
    ensures forall t :: Repetition(seen + [(h.title, Repetition(seen, h.title))], t) == CountTitle(hs + [h], t)
  {
    forall t ensures Repetition(seen + [(h.title, Repetition(seen, h.title))], t) == CountTitle(hs + [h], t) {
      CountTitleAppend(hs, h, t);
      LookupStore(seen, h.title, Repetition(seen, h.title), t);
    }
  }

  /** A header hashed with the number of earlier headers of its title keeps every hash right. */
  lemma {:induction false} HashAppend(hs: seq<TocHeader>, h: TocHeader, pats: Patterns)
    requires HashesMatch(hs, pats)
    requires h.hash == pats.hash(h.title, CountTitle(hs, h.title))
    ensures HashesMatch(hs + [h], pats)
  {
    var r := hs + [h];
    forall k | 0 <= k < |r| ensures r[k].hash == pats.hash(r[k].title, CountTitle(r[..k], r[k].title)) {
      if k < |hs| {
        assert r[..k] == hs[..k];
      } else {
        assert r[..k] == hs;
      }
    }
  }

  /** The bump for a header at depth `d` turns the reference counts for `ds` into those for `ds + [d]`. */
  lemma {:induction false} CounterAppend(counters: seq<nat>, ds: seq<nat>, d: nat, to: nat)
    requires 1 <= d <= to <= 6
    requires CountersMatch(counters, ds)
    ensures CountersMatch(Bump(counters, d, to), ds + [d])
  {
    var r := Bump(counters, d, to);
    forall j | 0 <= j < CounterCount ensures r[j] == CountSince(ds + [d], j + 1) {
      CountSinceAppend(ds, d, j + 1);
    }
  }

  /** A header numbered from counters that match the reference counts is numbered as expected. */
  lemma {:induction false} NumberingAppend(hs: seq<TocHeader>, h: TocHeader, counters: seq<nat>, from: nat)
    requires 1 <= from <= h.depth < CounterCount
    requires AllNumberedAsExpected(hs, from)
    requires CountersMatch(counters, Depths(hs + [h]))
    requires h.orderedCounts == counters[from - 1..h.depth]
    ensures AllNumberedAsExpected(hs + [h], from)
  {
    var r := hs + [h];
    assert r[..|hs| + 1] == r && r[..|hs|] == hs;
    assert counters[from - 1..h.depth] == ExpectedNumbering(Depths(r), from, h.depth);
  }

  /** The same, from the counters before the bump. */
  lemma {:induction false} NumberingBump(hs: seq<TocHeader>, h: TocHeader, counters: seq<nat>, from: nat, to: nat)
    requires 1 <= from <= h.depth <= to <= 6
    requires CountersMatch(counters, Depths(hs))
    requires AllNumberedAsExpected(hs, from)
    requires h.orderedCounts == Bump(counters, h.depth, to)[from - 1..h.depth]
    ensures AllNumberedAsExpected(hs + [h], from)
  {
    DepthsAppend(hs, h);
    CounterAppend(counters, Depths(hs), h.depth, to);
    NumberingAppend(hs, h, Bump(counters, h.depth, to), from);
  }

  lemma {:induction false} LinesAppend(lines: seq<string>, hs: seq<TocHeader>, h: TocHeader, range: DepthRange)
    requires HeadersFromLines(lines, hs, range) && HeaderOfLine(lines, h, range)
    ensures HeadersFromLines(lines, hs + [h], range)
  {
    forall k | 0 <= k < |hs| + 1 ensures HeaderOfLine(lines, (hs + [h])[k], range) {
      if k < |hs| {
        assert (hs + [h])[k] == hs[k];
      }
    }
  }

  /** The accepted header sits at the end of the headers read so far. */
  lemma {:induction false} AcceptedHeaders(st: ExtractState, index: nat, line: string, mark: string, title: string, baseTitle: string,
                        pats: Patterns, range: DepthRange)
    requires ValidRange(range) && |st.counters| == CounterCount && range.depthFrom <= |mark| <= range.depthTo
    ensures var r := AcceptLine(st, index, line, mark, title, baseTitle, pats, range);
      r.headers == st.headers + [r.headers[|st.headers|]]
  {
    var r := AcceptLine(st, index, line, mark, title, baseTitle, pats, range);
    assert r.headers == r.headers[..|st.headers|] + [r.headers[|st.headers|]];
  }

  /** Accepting line `i` keeps every part of the invariant. */
  lemma {:induction false} AcceptPreserves(lines: seq<string>, i: nat, st: ExtractState, mark: string, title: string, baseTitle: string,
                        pats: Patterns, range: DepthRange)
    requires ValidRange(range) && i < |lines|
    requires Invariant(lines, i, st, pats, range)
    requires IsAccepted(lines, i, pats, range) && mark == pats.header(lines[i]).value
    requires Avoids(title, '_') && IsTrimmed(title) && IsTrimmed(baseTitle)
    ensures Invariant(lines, i + 1, AcceptLine(st, i, lines[i], mark, title, baseTitle, pats, range), pats, range)
  {
    var r := AcceptLine(st, i, lines[i], mark, title, baseTitle, pats, range);
    var h := r.headers[|st.headers|];
    AcceptedHeaders(st, i, lines[i], mark, title, baseTitle, pats, range);
    DepthsAppend(st.headers, h);
    SeenAppend(st.seen, st.headers, h);
    assert Repetition(st.seen, h.title) == CountTitle(st.headers, h.title);
    HashAppend(st.headers, h, pats);
    CounterAppend(st.counters, Depths(st.headers), h.depth, range.depthTo);
    NumberingBump(st.headers, h, st.counters, range.depthFrom, range.depthTo);
    LinesAppend(lines, st.headers, h, range);
  }

  /** Reading a line that yields no header keeps the invariant. */
  lemma {:induction false} RejectPreserves(lines: seq<string>, i: nat, st: ExtractState, pats: Patterns, range: DepthRange)
    requires ValidRange(range) && i < |lines|
    requires Invariant(lines, i, st, pats, range)
    requires !IsAccepted(lines, i, pats, range)
    ensures Invariant(lines, i + 1, st.(fence := NextFence(st.fence, lines[i], pats)), pats, range)
  {
  }

  lemma {:induction false} InitialInvariant(lines: seq<string>, pats: Patterns, range: DepthRange)
    ensures Invariant(lines, 0, InitialState(), pats, range)
  {
  }

  lemma {:induction false} StepPreserves(lines: seq<string>, i: nat, st: ExtractState, pats: Patterns, range: DepthRange)
    requires ValidRange(range) && i < |lines|
    requires Invariant(lines, i, st, pats, range)
    ensures Invariant(lines, i + 1, Step(st, i, lines[i], pats, range), pats, range)
  {
    if IsAccepted(lines, i, pats, range) {
      var mark := pats.header(lines[i]).value;
      StepAccepted(st, i, lines[i], pats, range);
      AcceptPreserves(lines, i, st, mark, HeaderTitle(lines[i], mark), HeaderBaseTitle(lines[i], mark), pats, range);
    } else {
      StepRejected(st, i, lines[i], pats, range);
      RejectPreserves(lines, i, st, pats, range);
    }
  }

  /** Each step adds only headers read from the line it reads. */
  lemma {:induction false} StepReads(lines: seq<string>, i: nat, st: ExtractState, pats: Patterns, range: DepthRange)
    requires ValidRange(range) && i < |lines| && |st.counters| == CounterCount
    requires AllReadFromLines(lines, st.headers, pats)
    ensures AllReadFromLines(lines, Step(st, i, lines[i], pats, range).headers, pats)
  {
    if NextFence(st.fence, lines[i], pats) == Outside && IsHeaderLine(lines[i], pats, range) {
      var mark := pats.header(lines[i]).value;
      var title := HeaderTitle(lines[i], mark);
      var baseTitle := HeaderBaseTitle(lines[i], mark);
      StepAccepted(st, i, lines[i], pats, range);
      AcceptedHeaders(st, i, lines[i], mark, title, baseTitle, pats, range);
      var r := AcceptLine(st, i, lines[i], mark, title, baseTitle, pats, range);
      ReadAppend(lines, st.headers, r.headers[|st.headers|], pats);
    } else {
      StepRejected(st, i, lines[i], pats, range);
    }
  }

  /** The state after reading the first `n` lines. */
  function Run(lines: seq<string>, n: nat, pats: Patterns, range: DepthRange): (st: ExtractState)
    requires ValidRange(range) && n <= |lines|
    ensures |st.counters| == CounterCount
    decreases n
  {
    if n == 0 then InitialState() else Step(Run(lines, n - 1, pats, range), n - 1, lines[n - 1], pats, range)
  }

  /** The invariant holds after every prefix of the document. */
  lemma {:induction false} RunInvariant(lines: seq<string>, n: nat, pats: Patterns, range: DepthRange)
    requires ValidRange(range) && n <= |lines|
    ensures Invariant(lines, n, Run(lines, n, pats, range), pats, range)
    decreases n
  {
    if n == 0 {
      InitialInvariant(lines, pats, range);
    } else {
      RunInvariant(lines, n - 1, pats, range);
      RunStepPreserves(lines, n - 1, pats, range);
    }
  }

  /** Reading one more line of the document preserves the invariant. */
  lemma {:induction false} RunStepPreserves(lines: seq<string>, i: nat, pats: Patterns, range: DepthRange)
    requires ValidRange(range) && i < |lines|
    requires Invariant(lines, i, Run(lines, i, pats, range), pats, range)
    ensures Invariant(lines, i + 1, Run(lines, i + 1, pats, range), pats, range)
  {
    StepPreserves(lines, i, Run(lines, i, pats, range), pats, range);
  }

  lemma {:induction false} RunReads(lines: seq<string>, n: nat, pats: Patterns, range: DepthRange)
    requires ValidRange(range) && n <= |lines|
    ensures AllReadFromLines(lines, Run(lines, n, pats, range).headers, pats)
    decreases n
  {
    if n > 0 {
      RunReads(lines, n - 1, pats, range);
      RunStepReads(lines, n - 1, pats, range);
    }
  }

  /** Reading one more line adds only headers read from that line. */
  lemma {:induction false} RunStepReads(lines: seq<string>, i: nat, pats: Patterns, range: DepthRange)
    requires ValidRange(range) && i < |lines|
    requires AllReadFromLines(lines, Run(lines, i, pats, range).headers, pats)
    ensures AllReadFromLines(lines, Run(lines, i + 1, pats, range).headers, pats)
  {
    StepReads(lines, i, Run(lines, i, pats, range), pats, range);
  }

  /**
   `getHeaderList`: the headers of the document, one for each line that is read
   outside any code block, matches the header pattern at a depth inside the
   range and does not match the ignore pattern, in document order. Each
   header's hash uses the number of earlier headers with the same cleaned
   title, and its section number lists the counters for depths `depthFrom` to
   its own.
   */
  method GetHeaderList(lines: seq<string>, pats: Patterns, range: DepthRange) returns (hs: seq<TocHeader>)
    requires ValidRange(range)
    ensures LineNumbers(hs) == AcceptedLines(lines, |lines|, pats, range)
    ensures HeadersFromLines(lines, hs, range)
    ensures hs == Run(lines, |lines|, pats, range).headers
    ensures HashesMatch(hs, pats)
    ensures AllNumberedAsExpected(hs, range.depthFrom)
  {
    var st := InitialState();
    var i := 0;
    while i < |lines|
      invariant i <= |lines|
      invariant st == Run(lines, i, pats, range)
    {
      st := Step(st, i, lines[i], pats, range);
      i := i + 1;
    }
    RunInvariant(lines, |lines|, pats, range);
    hs := st.headers;
  }

  /** The `orderedList` string: the section number spelled from its counts, such as `1.2.`. */
  function OrderedList(h: TocHeader): (r: string)
    ensures CountChar(r, '.') == |h.orderedCounts|
    ensures NumberingPrefixLen(r) == |r|
  {
    NumberingComponents(h.orderedCounts);
    Numbering(h.orderedCounts)
  }

  /**
   A header's section number has one component, and one `.`, per depth from
   `depthFrom` to its own.
   */
  lemma {:induction false} SectionNumberShape(hs: seq<TocHeader>, k: nat, from: nat)
    requires k < |hs| && NumberedAsExpected(hs, k, from)
    ensures |hs[k].orderedCounts| == hs[k].depth + 1 - from
    ensures CountChar(OrderedList(hs[k]), '.') == hs[k].depth + 1 - from
  {
  }

  /**
   Depths 1, 2, 3, 1, 3: the last header is numbered 2, 0, 2, because the
   second header of depth 1 clears only the depth-2 counter and the depth-3
   counter still holds its earlier value.
   */
  lemma {:induction false} StaleDeeperCounter()
    ensures ExpectedNumbering([1, 2, 3, 1, 3], 1, 3) == [2, 0, 2]
  {
    var d1: seq<nat> := [1];
    var d2 := d1 + [2];
    var d3 := d2 + [3];
    var d4 := d3 + [1];
    var d5 := d4 + [3];
    assert d1 == [] + [1];
    assert d5 == [1, 2, 3, 1, 3];
    forall e | 1 <= e <= 3
      ensures CountSince(d5, e) == [2, 0, 2][e - 1]
    {
      CountSinceAppend([], 1, e);
      CountSinceAppend(d1, 2, e);
      CountSinceAppend(d2, 3, e);
      CountSinceAppend(d3, 1, e);
      CountSinceAppend(d4, 3, e);
    }
  }

  /** The section number spelled from those counts. */
  lemma {:induction false} StaleDeeperNumbering()
    ensures Numbering([2, 0, 2]) == "2.0.2."
  {
    var two: seq<nat> := [2];
    var zeroTwo: seq<nat> := [0, 2];
    var all: seq<nat> := [2, 0, 2];
    assert NatToString(2) == "2" && NatToString(0) == "0";
    assert two[1..] == [] && zeroTwo[1..] == two && all[1..] == zeroTwo;
    NumberingHead(two);
    NumberingHead(zeroTwo);
    NumberingHead(all);
  }

  /** That header's `orderedList` string is `2.0.2.`. */
  lemma {:induction false} StaleDeeperCounterText(h: TocHeader)
    requires h.orderedCounts == [2, 0, 2]
    ensures OrderedList(h) == "2.0.2."
  {
    StaleDeeperNumbering();
  }
}

=== FILE: header.dfy ===
/**
 The `Header` model class: a header mark, a section number and a title, with the
 getters that spell them out again and the TOC row that links to the anchor.
 */
module HeaderModel {
  import opened Wrappers
  import opened Text
  import opened Doc
  import opened AnchorModel
  import opened TitleCleanup
  import Slug = AnchorMarkdownHeader

  /** The anchor mode is carried as the mode string `anchorMarkdownHeader` receives. */
  datatype Header = Header(
    headerMark: string,
    orderedListString: string,
    dirtyTitle: string,
    range: Range,
    isIgnored: bool,
    orderArray: seq<nat>,
    anchorMode: string,
    anchor: Anchor)

  /** The constructor: every text field empty, a zero range and an anchor for the empty text. */
  function NewHeader(anchorMode: string): (h: Header)
    ensures h.anchorMode == anchorMode
    ensures h.headerMark == "" && h.orderedListString == "" && h.dirtyTitle == "" && h.orderArray == []
    ensures !h.isIgnored
    ensures h.range == Range(Position(0, 0), Position(0, 0))
    ensures h.anchor.name == "" && h.anchor.id == IdPrefix
  {
    Header("", "", "", Range(Position(0, 0), Position(0, 0)), false, [], anchorMode, NewAnchor(""))
  }

  /** The depth is the number of `#` characters in the mark. */
  function Depth(h: Header): (d: nat)
    ensures d == 0 <==> h.headerMark == ""
  {
    |h.headerMark|
  }

  /** `isHeader`: the model was filled from a header line, so it has a mark. */
  function IsHeader(h: Header): (b: bool)
    ensures b <==> Depth(h) > 0
  {
    h.headerMark != ""
  }

  /** A freshly constructed header is not a header yet. */
  lemma {:induction false} NewHeaderIsNotHeader(anchorMode: string)
    ensures !IsHeader(NewHeader(anchorMode)) && Depth(NewHeader(anchorMode)) == 0
  {
  }

  function TocWithoutOrder(h: Header): (r: string)
    ensures r == h.dirtyTitle
  {
    h.dirtyTitle
  }

  /** The decimal spelling of every number, in order. */
  function NumberStrings(ns: seq<nat>): (r: seq<string>)
    ensures |r| == |ns|
    ensures forall i :: 0 <= i < |ns| ==> r[i] == NatToString(ns[i])
  {
    seq(|ns|, i requires 0 <= i < |ns| => NatToString(ns[i]))
  }

  /** The numbers joined by `.`, then `. ` and the title. */
  function TocWithOrder(h: Header): (r: string)
    ensures h.orderArray == [] ==> r == ". " + h.dirtyTitle
    ensures |r| >= |TocWithoutOrder(h)| + 2
    ensures r[|r| - |TocWithoutOrder(h)|..] == TocWithoutOrder(h)
  {
    var r := Join(NumberStrings(h.orderArray), ".") + ". " + TocWithoutOrder(h);
    assert r[|r| - |TocWithoutOrder(h)|..] == TocWithoutOrder(h);
    r
  }

  /** Joining counts with `.` and closing with `.` spells their section number. */
  lemma {:induction false} JoinedNumbering(ns: seq<nat>)
    requires |ns| > 0
    ensures Join(NumberStrings(ns), ".") + "." == Numbering(ns)
    decreases |ns|
  {
    if |ns| == 1 {
      assert Numbering(ns[1..]) == "";
    } else {
      JoinedNumbering(ns[1..]);
      assert NumberStrings(ns)[1..] == NumberStrings(ns[1..]);
    }
  }

  /** The numbered TOC text is the section number, a space and the title. */
  lemma {:induction false} TocWithOrderIsNumbered(h: Header)
    requires |h.orderArray| > 0
    ensures TocWithOrder(h) == Numbering(h.orderArray) + " " + h.dirtyTitle
  {
    JoinedNumbering(h.orderArray);
  }

  /** Stripping the section number from the numbered TOC text gives back a trimmed title. */
  lemma {:induction false} TocWithOrderBaseTitle(h: Header)
    requires |h.orderArray| > 0 && IsTrimmed(h.dirtyTitle)
    ensures BaseTitle(TocWithOrder(h)) == h.dirtyTitle
  {
    TocWithOrderIsNumbered(h);
    BaseTitleOfNumbered(h.orderArray, h.dirtyTitle);
  }

  /** The mark, a space and the numbered title. */
  function FullHeaderWithOrder(h: Header): (r: string)
    ensures |r| == |h.headerMark| + 1 + |TocWithOrder(h)|
    ensures r[..Depth(h)] == h.headerMark && r[Depth(h)] == ' ' && r[Depth(h) + 1..] == TocWithOrder(h)
  {
    var r := h.headerMark + " " + TocWithOrder(h);
    assert r[..Depth(h)] == h.headerMark && r[Depth(h) + 1..] == TocWithOrder(h);
    r
  }

  /** The mark, a space and the title. */
  function FullHeaderWithoutOrder(h: Header): (r: string)
    ensures |r| == |h.headerMark| + 1 + |TocWithoutOrder(h)|
    ensures r[..Depth(h)] == h.headerMark && r[Depth(h)] == ' ' && r[Depth(h) + 1..] == TocWithoutOrder(h)
  {
    var r := h.headerMark + " " + TocWithoutOrder(h);
    assert r[..Depth(h)] == h.headerMark && r[Depth(h) + 1..] == TocWithoutOrder(h);
    r
  }

  /** `getAnchorId`: the anchor of the cleaned title, always for the first occurrence and without a module name. */
  function GetAnchorId(h: Header, tocString: string, ext: Slug.Externals): (r: Result<string, Slug.AnchorError>)
    ensures r.Success? ==> Slug.IsAnchorText(r.value)
    ensures r.Failure? <==> (h.anchorMode != "" && !Slug.IsKnownMode(h.anchorMode)) || h.anchorMode == Slug.NodejsMode
  {
    Slug.AnchorMarkdownHeader(HeaderCleanUpTitle(tocString), h.anchorMode, 0, "", ext)
  }

  /** The anchor is always the first occurrence's: on GitHub, the k-th repetition's anchor is it with `-k` appended. */
  lemma {:induction false} GetAnchorIdIsFirstOccurrence(h: Header, tocString: string, k: nat, ext: Slug.Externals)
    requires h.anchorMode == Slug.GithubMode && Slug.EmojiSparesAscii(ext)
    ensures GetAnchorId(h, tocString, ext).Success?
    ensures Slug.AnchorMarkdownHeader(HeaderCleanUpTitle(tocString), Slug.GithubMode, k, "", ext).value
         == GetAnchorId(h, tocString, ext).value + Slug.Suffix('-', k)
  {
    Slug.GithubRepetitionSuffix(HeaderCleanUpTitle(tocString), k, "", ext);
  }

  /** `tocRowWithAnchor`: a Markdown link from the cleaned title to the anchor of the title cleaned again. */
  function TocRowWithAnchor(h: Header, tocString: string, ext: Slug.Externals): (r: Result<string, Slug.AnchorError>)
    ensures r.Failure? <==> GetAnchorId(h, HeaderCleanUpTitle(tocString), ext).Failure?
  {
    var title := HeaderCleanUpTitle(tocString);
    match GetAnchorId(h, title, ext)
    case Failure(e) => Failure(e)
    case Success(href) => Success("[" + title + "](#" + href + ")")
  }

  /** Splits a TOC row `[title](#href)` whose title holds no `(`. */
  function ParseTocRow(row: string): (r: Option<(string, string)>)
    ensures r.Some? ==> |row| == |r.value.0| + |r.value.1| + 5
  {
    match FirstIndexOf(row, '(', 0)
    case None => None
    case Some(j) =>
      if 2 <= j && |row| >= j + 3 && row[0] == '[' && row[j - 1] == ']' && row[j + 1] == '#' && row[|row| - 1] == ')'
      then Some((row[1..j - 1], row[j + 2..|row| - 1]))
      else None
  }

  /** A link row whose title holds no `(` splits back into its title and target. */
  lemma {:induction false} ParseLinkRow(title: string, href: string)
    requires Avoids(title, '(')
    ensures ParseTocRow("[" + title + "](#" + href + ")") == Some((title, href))
  {
    var row := "[" + title + "](#" + href + ")";
    assert forall k :: 1 <= k < |title| + 1 ==> row[k] == title[k - 1];
    assert row[|title| + 2] == '(';
    assert FirstIndexOf(row, '(', 0) == Some(|title| + 2);
    assert row[1..|title| + 1] == title;
    assert row[|title| + 4..|row| - 1] == href;
  }

  /** A TOC row splits back into the cleaned title and the anchor it links to. */
  lemma {:induction false} TocRowRoundTrip(h: Header, tocString: string, ext: Slug.Externals)
    requires TocRowWithAnchor(h, tocString, ext).Success?
    ensures ParseTocRow(TocRowWithAnchor(h, tocString, ext).value)
         == Some((HeaderCleanUpTitle(tocString), GetAnchorId(h, HeaderCleanUpTitle(tocString), ext).value))
  {
    ParseLinkRow(HeaderCleanUpTitle(tocString), GetAnchorId(h, HeaderCleanUpTitle(tocString), ext).value);
  }

  /** The clean-up is idempotent on titles it leaves without `<`. */
  lemma {:induction false} HeaderCleanUpIdempotent(dirty: string)
    requires Avoids(HeaderCleanUpTitle(dirty), '<')
    ensures HeaderCleanUpTitle(HeaderCleanUpTitle(dirty)) == HeaderCleanUpTitle(dirty)
  {
    var once := HeaderCleanUpTitle(dirty);
    StripMarkedAbsent(once, '`', {'(', ')'});
    TrimOfTrimmed(once);
  }

  /** When cleaning twice changes nothing, the row links exactly to the anchor of the title it shows. */
  lemma {:induction false} TocRowLinksShownTitle(h: Header, tocString: string, ext: Slug.Externals)
    requires Avoids(HeaderCleanUpTitle(tocString), '<')
    ensures GetAnchorId(h, HeaderCleanUpTitle(tocString), ext) == GetAnchorId(h, tocString, ext)
  {
    HeaderCleanUpIdempotent(tocString);
  }

  /** A header model in node.js mode never has an anchor, since no module name is passed. */
  lemma {:induction false} NodejsHeaderHasNoAnchor(h: Header, tocString: string, ext: Slug.Externals)
    requires h.anchorMode == Slug.NodejsMode
    ensures GetAnchorId(h, tocString, ext) == Failure(Slug.MissingModuleName(Slug.NodejsMode))
  {
  }
}

=== FILE: slug.dfy ===
/**
 The header-to-anchor algorithms of `AnchorMarkdownHeader`: one string transform
 per platform and the dispatcher that lower-cases ASCII letters, runs the
 transform, URI-encodes the result and normalises it.
 */
module AnchorMarkdownHeader {
  import opened Wrappers
  import opened Text
  import opened UriEncoding

  /**
   Library behaviour the algorithms call but this model does not define:
   the characters the `emoji-regex` pattern deletes, and the GitLab pre-pass of
   HTML-tag and image markup (two regular expressions with a backreference and
   greedy matching).
   */
  datatype Externals = Externals(emoji: set<char>, gitlabMarkup: string -> string)

  /** The emoji pattern never deletes a bare ASCII character. */
  predicate EmojiSparesAscii(ext: Externals) {
    forall c :: c in ext.emoji ==> !IsAscii(c)
  }

  datatype AnchorError = UnknownMode(mode: string) | MissingModuleName(mode: string)

  const GithubMode: string := "github.com"
  const BitbucketMode: string := "bitbucket.org"
  const GitlabMode: string := "gitlab.com"
  const NodejsMode: string := "nodejs.org"
  const GhostMode: string := "ghost.org"


  /** Single characters the GitHub and Bitbucket ids remove. */
  const GithubPunctuation: set<char> := {
    '/', '?', '!', ':', '[', ']', '`', '.', ',', '(', ')', '*', '"', '\'', ';', '{', '}',
    '+', '=', '<', '>', '~', '$', '|', '#', '@', '&', '\U{2013}', '\U{2014}'}

  /** CJK punctuation the GitHub, Bitbucket and GitLab ids remove (the class also holds a plain space). */
  const CjkPunctuation: set<char> := {
    '\U{3002}', '\U{FF1F}', '\U{FF01}', '\U{FF0C}', '\U{3001}', '\U{FF1B}', '\U{FF1A}', '\U{201C}',
    '\U{201D}', '\U{3010}', '\U{3011}', '\U{FF08}', '\U{FF09}', '\U{3014}', '\U{3015}', '\U{FF3B}',
    '\U{FF3D}', '\U{FE43}', '\U{FE44}', ' ', '\U{2018}', '\U{2019}', '\U{FE41}', '\U{FE42}',
    '\U{2014}', '\U{2026}', '\U{FF0D}', '\U{FF5E}', '\U{300A}', '\U{300B}', '\U{3008}', '\U{3009}',
    '\U{300C}', '\U{300D}'}

  /** Single characters the Ghost id removes. */
  const GhostPunctuation: set<char> := {
    '/', '?', ':', '[', ']', '`', '.', ',', '(', ')', '*', '"', '\'', ';', '{', '}', '-',
    '+', '=', '<', '>', '!', '@', '#', '%', '^', '&', '\\', '|'}

  /** Single characters the GitLab id removes. */
  const GitlabPunctuation: set<char> := {
    '/', '?', '!', ':', '[', ']', '`', '.', ',', '(', ')', '*', '"', '\'', ';', '{', '}',
    '+', '=', '<', '>', '~', '$', '|', '#', '@'}

  /** `t` is a separator followed by the decimal spelling of `k`. */
  predicate IsCountSuffix(t: string, sep: char, k: nat) {
    |t| >= 2 && t[0] == sep && AllDigits(t[1..]) && ParseDecimal(t[1..]) == k
  }

  /** `r` is `base` itself for the first occurrence and `base` plus a count suffix for a later one. */
  predicate ExtendsWithCount(r: string, base: string, sep: char, k: nat) {
    |base| <= |r| && r[..|base|] == base
    && (k == 0 ==> r == base)
    && (k != 0 ==> IsCountSuffix(r[|base|..], sep, k))
  }

  /** The repetition suffix: nothing for the first occurrence, else `sep` and the decimal count. */
  function Suffix(sep: char, repetition: nat): (r: string)
    ensures repetition == 0 <==> r == ""
    ensures repetition != 0 ==> IsCountSuffix(r, sep, repetition)
  {
    if repetition == 0 then ""
    else
      NatToStringRoundTrip(repetition);
      var r := [sep] + NatToString(repetition);
      assert r[1..] == NatToString(repetition);
      r
  }

  /** Appending the suffix extends the base with its count. */
  lemma {:induction false} SuffixExtends(base: string, sep: char, k: nat)
    ensures ExtendsWithCount(base + Suffix(sep, k), base, sep, k)
  {
    var r := base + Suffix(sep, k);
    assert r[..|base|] == base;
    assert r[|base|..] == Suffix(sep, k);
  }

  /** The inner `asciiOnlyToLowerCase`: `A`..`Z` lower-cased, every other character kept. */
  function AsciiOnlyToLowerCase(s: string): (r: string)
    ensures |r| == |s|
    ensures forall i :: 0 <= i < |s| && IsAsciiUpper(s[i]) ==> r[i] as int == s[i] as int + 32
    ensures forall i :: 0 <= i < |s| && !IsAsciiUpper(s[i]) ==> r[i] == s[i]
    decreases |s|
  {
    if |s| == 0 then "" else [AsciiLower(s[0])] + AsciiOnlyToLowerCase(s[1..])
  }

  /** Lower-casing leaves no ASCII capital, and a second pass changes nothing. */
  lemma {:induction false} AsciiOnlyToLowerCaseIdempotent(s: string)
    ensures forall i :: 0 <= i < |s| ==> !IsAsciiUpper(AsciiOnlyToLowerCase(s)[i])
    ensures AsciiOnlyToLowerCase(AsciiOnlyToLowerCase(s)) == AsciiOnlyToLowerCase(s)
  {
  }

  // ---------------------------------------------------------------------
  // nodejs.org

  predicate IsNodeKept(c: char) { IsAsciiLower(c) || IsDigit(c) }

  /** `replace(/[^a-z0-9]+/g, '_')`: every maximal run of other characters becomes one `_`. */
  function CollapseNonAlnum(s: string): (r: string)
    ensures forall i :: 0 <= i < |r| ==> IsNodeKept(r[i]) || r[i] == '_'
    ensures NoDoubled(r, '_')
    ensures |r| == 0 <==> |s| == 0
    ensures |s| > 0 ==> r[0] == (if IsNodeKept(s[0]) then s[0] else '_')
    ensures |s| > 0 ==> r[|r| - 1] == (if IsNodeKept(s[|s| - 1]) then s[|s| - 1] else '_')
    decreases |s|
  {
    if |s| == 0 then ""
    else if IsNodeKept(s[0]) then [s[0]] + CollapseNonAlnum(s[1..])
    else if |s| > 1 && !IsNodeKept(s[1]) then CollapseNonAlnum(s[1..])
    else "_" + CollapseNonAlnum(s[1..])
  }

  /** Letters and digits are copied unchanged, in order. */
  lemma {:induction false} CollapseNonAlnumCopies(p: string, x: string)
    requires forall i :: 0 <= i < |p| ==> IsNodeKept(p[i])
    ensures CollapseNonAlnum(p + x) == p + CollapseNonAlnum(x)
    decreases |p|
  {
    var s := p + x;
    if |p| == 0 {
      assert s == x;
    } else {
      assert s[0] == p[0] && s[1..] == p[1..] + x;
      CollapseNonAlnumCopies(p[1..], x);
      AppendAssoc([p[0]], p[1..], CollapseNonAlnum(x));
      assert [p[0]] + p[1..] == p;
    }
  }

  /** A whole run of other characters, up to a letter, a digit or the end, becomes one `_`. */
  lemma {:induction false} CollapseNonAlnumRun(w: string, x: string)
    requires |w| > 0 && forall i :: 0 <= i < |w| ==> !IsNodeKept(w[i])
    requires |x| == 0 || IsNodeKept(x[0])
    ensures CollapseNonAlnum(w + x) == "_" + CollapseNonAlnum(x)
    decreases |w|
  {
    var s := w + x;
    assert s[0] == w[0] && s[1..] == w[1..] + x;
    if |w| > 1 {
      assert s[1] == w[1];
      CollapseNonAlnumRun(w[1..], x);
    } else {
      assert w[1..] + x == x;
      if |x| > 0 {
        assert s[1] == x[0];
      }
    }
  }

  /** Characters of a node id: lower-case letters, digits and `_`. */
  predicate IsNodeIdText(s: string) {
    (forall i :: 0 <= i < |s| ==> IsNodeKept(s[i]) || s[i] == '_') && NoDoubled(s, '_')
  }

  /** A slice of node-id text is node-id text. */
  lemma {:induction false} NodeIdTextSlice(s: string, a: nat, b: nat)
    requires a <= b <= |s|
    ensures IsNodeIdText(s) ==> IsNodeIdText(s[a..b])
  {
    var t := s[a..b];
    assert forall i :: 0 <= i < |t| ==> t[i] == s[a + i];
    if IsNodeIdText(s) {
      forall i | 0 <= i < |t| - 1 ensures !(t[i] == '_' && t[i + 1] == '_') {
        assert t[i] == s[a + i] && t[i + 1] == s[a + i + 1];
      }
    }
  }

  /** `s` without its leading run of `_`. */
  function DropLeadingUnderscores(s: string): (r: string)
    ensures |r| <= |s| && r == s[|s| - |r|..]
    ensures |r| == 0 || r[0] != '_'
    decreases |s|
  {
    if |s| > 0 && s[0] == '_' then DropLeadingUnderscores(s[1..]) else s
  }

  /** `s` without its trailing run of `_`. */
  function DropTrailingUnderscores(s: string): (r: string)
    ensures |r| <= |s| && r == s[..|r|]
    ensures |r| == 0 || r[|r| - 1] != '_'
    decreases |s|
  {
    if |s| > 0 && s[|s| - 1] == '_' then DropTrailingUnderscores(s[..|s| - 1]) else s
  }

  /**
   `replace(/^_+|_+$/, '')` without the global flag: only the leftmost match goes,
   so a leading run is removed when there is one, and otherwise the trailing run.
   */
  function TrimUnderscoresOnce(s: string): (r: string)
    ensures |r| <= |s|
    ensures |r| == 0 || r[0] != '_'
    ensures |s| > 0 && s[0] != '_' ==> r == s[..|r|] && (|r| == 0 || r[|r| - 1] != '_')
    ensures |s| > 0 && s[0] == '_' ==> r == s[|s| - |r|..]
    ensures IsNodeIdText(s) ==> IsNodeIdText(r)
  {
    if |s| > 0 && s[0] == '_' then
      var r := DropLeadingUnderscores(s);
      NodeIdTextSlice(s, |s| - |r|, |s|);
      r
    else
      var r := DropTrailingUnderscores(s);
      NodeIdTextSlice(s, 0, |r|);
      r
  }

  /** `replace(/^([^a-z])/, '_$1')`: a first character that is not a lower-case letter gets a `_` before it. */
  function PrefixNonLetter(s: string): (r: string)
    requires IsNodeIdText(s) && (|s| == 0 || s[0] != '_')
    ensures IsNodeIdText(r)
    ensures |r| > 0 ==> IsAsciiLower(r[0]) || (r[0] == '_' && |r| > 1 && IsDigit(r[1]))
    ensures |s| > 0 && !IsAsciiLower(s[0]) ==> r == "_" + s
    ensures !(|s| > 0 && !IsAsciiLower(s[0])) ==> r == s
  {
    if |s| > 0 && !IsAsciiLower(s[0]) then "_" + s else s
  }

  /** The node id before its repetition suffix. */
  function NodejsBase(text: string): (r: string)
    ensures IsNodeIdText(r)
    ensures |r| > 0 ==> IsAsciiLower(r[0]) || (r[0] == '_' && |r| > 1 && IsDigit(r[1]))
  {
    PrefixNonLetter(TrimUnderscoresOnce(CollapseNonAlnum(text)))
  }

  /**
   A text that starts with a lower-case letter and ends with a letter or digit
   loses nothing to the trimming and prefixing steps: its node id base is its
   collapsed form.
   */
  lemma {:induction false} NodejsBaseOfLetterStart(s: string)
    requires |s| > 0 && IsAsciiLower(s[0]) && IsNodeKept(s[|s| - 1])
    ensures NodejsBase(s) == CollapseNonAlnum(s)
  {
    var c := CollapseNonAlnum(s);
    assert c[0] == s[0] && c[|c| - 1] == s[|s| - 1];
    assert TrimUnderscoresOnce(c) == c;
  }

  /** A lower-case word of letters and digits is its own node id base. */
  lemma {:induction false} NodejsBaseOfWord(s: string)
    requires |s| > 0 && IsAsciiLower(s[0])
    requires forall i :: 0 <= i < |s| ==> IsNodeKept(s[i])
    ensures NodejsBase(s) == s
  {
    NodejsBaseOfLetterStart(s);
    CollapseNonAlnumCopies(s, "");
    assert s + "" == s;
  }

  /**
   Two words joined by a run of other characters, as a module name, `.` and a
   title word are: the run becomes one `_` and both words are kept.
   */
  lemma {:induction false} NodejsBaseJoin(a: string, w: string, b: string)
    requires |a| > 0 && IsAsciiLower(a[0]) && forall i :: 0 <= i < |a| ==> IsNodeKept(a[i])
    requires |w| > 0 && forall i :: 0 <= i < |w| ==> !IsNodeKept(w[i])
    requires |b| > 0 && forall i :: 0 <= i < |b| ==> IsNodeKept(b[i])
    ensures NodejsBase(a + w + b) == a + "_" + b
  {
    var s := a + w + b;
    assert s == a + (w + b);
    assert s[0] == a[0] && s[|s| - 1] == b[|b| - 1];
    NodejsBaseOfLetterStart(s);
    CollapseNonAlnumCopies(a, w + b);
    CollapseNonAlnumRun(w, b);
    CollapseNonAlnumCopies(b, "");
    assert b + "" == b;
    AppendAssoc(a, "_", b);
  }

  /** `getNodejsId`: the node id and, for a repeated header, `_` and the repetition count. */
  function GetNodejsId(text: string, repetition: nat): (r: string)
    ensures ExtendsWithCount(r, NodejsBase(text), '_', repetition)
  {
    SuffixExtends(NodejsBase(text), '_', repetition);
    NodejsBase(text) + Suffix('_', repetition)
  }

  // ---------------------------------------------------------------------
  // github.com and bitbucket.org

  predicate IsHexLetterOrDigit(c: char) { IsDigit(c) || ('a' <= c <= 'f') || ('A' <= c <= 'F') }

  /** `replace(/%([abcdef]|\d){2,2}/ig, '')`: every `%` followed by two hexadecimal digits goes, left to right. */
  function StripEscapeCodes(s: string): (r: string)
    ensures |r| <= |s|
    ensures forall i :: 0 <= i < |r| ==> r[i] in s
    ensures Avoids(s, '%') ==> r == s
    decreases |s|
  {
    if |s| >= 3 && s[0] == '%' && IsHexLetterOrDigit(s[1]) && IsHexLetterOrDigit(s[2]) then
      StripEscapeCodes(s[3..])
    else if |s| == 0 then ""
    else [s[0]] + StripEscapeCodes(s[1..])
  }

  /** Text without `%` is copied, and a `%` with two hexadecimal digits after it is removed with them. */
  lemma {:induction false} StripEscapeCodesRemoves(p: string, a: char, b: char, x: string)
    requires Avoids(p, '%') && IsHexLetterOrDigit(a) && IsHexLetterOrDigit(b)
    ensures StripEscapeCodes(p + (['%', a, b] + x)) == p + StripEscapeCodes(x)
    decreases |p|
  {
    var e := ['%', a, b] + x;
    var s := p + e;
    if |p| == 0 {
      assert s == e && e[3..] == x;
    } else {
      assert s[0] == p[0] && s[1..] == p[1..] + e;
      StripEscapeCodesRemoves(p[1..], a, b, x);
      AppendAssoc([p[0]], p[1..], StripEscapeCodes(x));
      assert [p[0]] + p[1..] == p;
    }
  }

  /** Turning spaces into `-` before stripping escape codes is the same as doing it after: neither character is `%` or a hexadecimal digit. */
  lemma {:induction false} StripEscapeCodesSpaces(s: string)
    ensures StripEscapeCodes(ReplaceChar(s, ' ', '-')) == ReplaceChar(StripEscapeCodes(s), ' ', '-')
    decreases |s|
  {
    var t := ReplaceChar(s, ' ', '-');
    if |s| >= 3 && s[0] == '%' && IsHexLetterOrDigit(s[1]) && IsHexLetterOrDigit(s[2]) {
      assert t[0] == '%' && t[1] == s[1] && t[2] == s[2];
      assert t[3..] == ReplaceChar(s[3..], ' ', '-');
      StripEscapeCodesSpaces(s[3..]);
    } else if |s| > 0 {
      assert |t| >= 3 ==>
        (t[0] == '%' <==> s[0] == '%') && (IsHexLetterOrDigit(t[1]) <==> IsHexLetterOrDigit(s[1]))
        && (IsHexLetterOrDigit(t[2]) <==> IsHexLetterOrDigit(s[2]));
      assert t[1..] == ReplaceChar(s[1..], ' ', '-');
      StripEscapeCodesSpaces(s[1..]);
      ReplaceCharAppend([s[0]], StripEscapeCodes(s[1..]), ' ', '-');
    }
  }

  /** What one character becomes in the GitHub id once escape codes are gone: a space `-`, listed punctuation nothing, anything else itself. */
  function GithubImage(c: char): string {
    if c == ' ' then "-"
    else if c in GithubPunctuation || c in CjkPunctuation then ""
    else [c]
  }

  /** The replacement and removal steps of the GitHub id, on one character. */
  lemma {:induction false} GithubImageOne(c: char)
    ensures RemoveChars(RemoveChars(ReplaceChar([c], ' ', '-'), GithubPunctuation), CjkPunctuation) == GithubImage(c)
  {
    var d := if c == ' ' then '-' else c;
    assert ReplaceChar([c], ' ', '-') == [d];
    RemoveCharsOne(d, GithubPunctuation);
    if d !in GithubPunctuation {
      RemoveCharsOne(d, CjkPunctuation);
    }
  }

  /** The replacement and removal steps of the GitHub id rewrite each character on its own. */
  lemma {:induction false} GithubStepsPerChar(t: string)
    ensures RemoveChars(RemoveChars(ReplaceChar(t, ' ', '-'), GithubPunctuation), CjkPunctuation) == MapChars(t, GithubImage)
    decreases |t|
  {
    if |t| > 0 {
      var c, u := t[0], t[1..];
      assert t == [c] + u;
      var cr, ur := ReplaceChar([c], ' ', '-'), ReplaceChar(u, ' ', '-');
      ReplaceCharAppend([c], u, ' ', '-');
      RemoveCharsAppend(cr, ur, GithubPunctuation);
      RemoveCharsAppend(RemoveChars(cr, GithubPunctuation), RemoveChars(ur, GithubPunctuation), CjkPunctuation);
      GithubImageOne(c);
      GithubStepsPerChar(u);
      MapCharsCons(c, u, GithubImage);
    }
  }

  /** A character the GitHub id keeps as it is. */
  predicate IsGithubKept(c: char) {
    c != ' ' && c != '%' && c !in GithubPunctuation && c !in CjkPunctuation
  }

  /** Text made of kept characters is its own per-character rewrite. */
  lemma {:induction false} GithubKeptFixes(text: string)
    ensures (forall i :: 0 <= i < |text| ==> IsGithubKept(text[i])) ==> MapChars(text, GithubImage) == text
  {
    if forall i :: 0 <= i < |text| ==> IsGithubKept(text[i]) {
      MapCharsFixes(text, GithubImage);
    }
  }

  /**
   `getBasicGithubId`: spaces to `-`, escape codes out, ASCII and CJK punctuation out.
   Once escape codes are gone, every character is rewritten on its own by `GithubImage`.
   */
  function GetBasicGithubId(text: string): (r: string)
    ensures |r| <= |text|
    ensures forall i :: 0 <= i < |r| ==> r[i] != ' ' && r[i] !in GithubPunctuation && r[i] !in CjkPunctuation
    ensures r == MapChars(StripEscapeCodes(text), GithubImage)
    ensures Avoids(text, '%') ==> r == MapChars(text, GithubImage)
    ensures (forall i :: 0 <= i < |text| ==> IsGithubKept(text[i])) ==> r == text
  {
    StripEscapeCodesSpaces(text);
    GithubStepsPerChar(StripEscapeCodes(text));
    GithubKeptFixes(text);
    RemoveChars(RemoveChars(StripEscapeCodes(ReplaceChar(text, ' ', '-')), GithubPunctuation), CjkPunctuation)
  }

  /** `getGithubId`: the basic id, the `-` repetition suffix, then every emoji character deleted. */
  function GetGithubId(text: string, repetition: nat, ext: Externals): (r: string)
    ensures forall i :: 0 <= i < |r| ==> r[i] !in ext.emoji
  {
    RemoveChars(GetBasicGithubId(text) + Suffix('-', repetition), ext.emoji)
  }

  /** Deleting emoji after appending the suffix equals appending it after deleting them. */
  lemma {:induction false} GithubSuffixSurvivesEmoji(text: string, repetition: nat, ext: Externals)
    requires EmojiSparesAscii(ext)
    ensures GetGithubId(text, repetition, ext) ==
      RemoveChars(GetBasicGithubId(text), ext.emoji) + Suffix('-', repetition)
  {
    var suffix := Suffix('-', repetition);
    RemoveCharsAppend(GetBasicGithubId(text), suffix, ext.emoji);
    RemoveCharsAbsent(suffix, ext.emoji);
  }

  /** `replace(/--+/g, '-')`: every run of hyphens becomes one. */
  function CollapseHyphens(s: string): (r: string)
    ensures |r| <= |s|
    ensures NoDoubled(r, '-')
    ensures forall i :: 0 <= i < |r| ==> r[i] in s
    ensures |s| > 0 ==> |r| > 0 && r[0] == s[0]
    ensures |s| > 0 ==> r[|r| - 1] == s[|s| - 1]
    decreases |s|
  {
    if |s| >= 2 && s[0] == '-' && s[1] == '-' then CollapseHyphens(s[1..])
    else if |s| == 0 then ""
    else [s[0]] + CollapseHyphens(s[1..])
  }

  /** A slice of text without `--` has none either. */
  lemma {:induction false} NoDoubledTail(p: string, c: char)
    requires |p| > 0 && NoDoubled(p, c)
    ensures NoDoubled(p[1..], c)
  {
    var t := p[1..];
    forall i | 0 <= i < |t| - 1 ensures !(t[i] == c && t[i + 1] == c) {
      assert t[i] == p[i + 1] && t[i + 1] == p[i + 2];
    }
  }

  /** A text without `--` that does not end with `-` is copied unchanged, and collapsing continues after it. */
  lemma {:induction false} CollapseHyphensCopies(p: string, x: string)
    requires NoDoubled(p, '-') && (|p| == 0 || p[|p| - 1] != '-')
    ensures CollapseHyphens(p + x) == p + CollapseHyphens(x)
    decreases |p|
  {
    var s := p + x;
    if |p| == 0 {
      assert s == x;
    } else {
      assert s[0] == p[0] && s[1..] == p[1..] + x;
      if |p| > 1 {
        assert s[1] == p[1];
      }
      NoDoubledTail(p, '-');
      CollapseHyphensCopies(p[1..], x);
      AppendAssoc([p[0]], p[1..], CollapseHyphens(x));
      assert [p[0]] + p[1..] == p;
    }
  }

  /** A whole run of hyphens, up to another character or the end, becomes one `-`. */
  lemma {:induction false} CollapseHyphensRun(w: string, x: string)
    requires |w| > 0 && forall i :: 0 <= i < |w| ==> w[i] == '-'
    requires |x| == 0 || x[0] != '-'
    ensures CollapseHyphens(w + x) == "-" + CollapseHyphens(x)
    decreases |w|
  {
    var s := w + x;
    assert s[0] == '-' && s[1..] == w[1..] + x;
    if |w| > 1 {
      assert s[1] == w[1];
      CollapseHyphensRun(w[1..], x);
    } else {
      assert w[1..] + x == x;
      if |x| > 0 {
        assert s[1] == x[0];
      }
    }
  }

  /** Text without `--` is left unchanged. */
  lemma {:induction false} CollapseHyphensFixes(s: string)
    requires NoDoubled(s, '-')
    ensures CollapseHyphens(s) == s
    decreases |s|
  {
    if |s| > 0 {
      NoDoubledTail(s, '-');
      CollapseHyphensFixes(s[1..]);
      assert [s[0]] + s[1..] == s;
    }
  }

  /** Every character that survives collapsing already held whatever property all of `s` held. */
  lemma {:induction false} CollapseHyphensKeeps(s: string, p: char -> bool)
    requires forall i :: 0 <= i < |s| ==> p(s[i])
    ensures forall i :: 0 <= i < |CollapseHyphens(s)| ==> p(CollapseHyphens(s)[i])
  {
    var r := CollapseHyphens(s);
    forall i | 0 <= i < |r| ensures p(r[i]) {
      var j :| 0 <= j < |s| && s[j] == r[i];
    }
  }

  /** Collapsing keeps any prefix that has no `--` of its own. */
  lemma {:induction false} CollapseHyphensKeepsPrefix(p: string, x: string)
    requires NoDoubled(p, '-')
    ensures |p| <= |CollapseHyphens(p + x)| && CollapseHyphens(p + x)[..|p|] == p
    decreases |p|
  {
    if |p| > 0 {
      var s := p + x;
      if |p| == 1 {
        assert CollapseHyphens(s)[0] == s[0];
      } else {
        assert !(s[0] == '-' && s[1] == '-');
        assert s[1..] == p[1..] + x;
        CollapseHyphensKeepsPrefix(p[1..], x);
      }
    }
  }

  const BitbucketPrefix: string := "markdown-header-"

  /** The Bitbucket prefix without its final `-`. */
  const BitbucketHead: string := "markdown-header"

  /** The prefix is its head and one `-`; the head has no `--` and does not end with `-`. */
  lemma {:induction false} BitbucketHeadFacts()
    ensures BitbucketPrefix == BitbucketHead + "-"
    ensures NoDoubled(BitbucketHead, '-') && BitbucketHead[|BitbucketHead| - 1] != '-'
  {
    assert forall i :: 0 <= i < |BitbucketHead| && BitbucketHead[i] == '-' ==> i == 8;
  }

  /** The Bitbucket id before its repetition suffix. */
  function BitbucketBase(text: string): (r: string)
    ensures |BitbucketPrefix| <= |r| && r[..|BitbucketPrefix|] == BitbucketPrefix
    ensures NoDoubled(r, '-')
  {
    CollapseHyphensKeepsPrefix(BitbucketPrefix, GetBasicGithubId(text));
    CollapseHyphens(BitbucketPrefix + GetBasicGithubId(text))
  }

  /**
   The Bitbucket base is `markdown-header` followed by the collapsed `-` and basic
   GitHub id: the hyphen of the prefix merges with a leading hyphen run of the id,
   and otherwise the prefix is followed by the collapsed id.
   */
  lemma {:induction false} BitbucketBaseIs(text: string)
    ensures BitbucketBase(text) == BitbucketHead + CollapseHyphens("-" + GetBasicGithubId(text))
    ensures var id := GetBasicGithubId(text);
      (|id| == 0 || id[0] != '-') ==> BitbucketBase(text) == BitbucketPrefix + CollapseHyphens(id)
  {
    var id := GetBasicGithubId(text);
    BitbucketHeadFacts();
    AppendAssoc(BitbucketHead, "-", id);
    CollapseHyphensCopies(BitbucketHead, "-" + id);
    if |id| == 0 || id[0] != '-' {
      CollapseHyphensRun("-", id);
      AppendAssoc(BitbucketHead, "-", CollapseHyphens(id));
    }
  }

  /** `getBitbucketId`: `markdown-header-` and the basic id, hyphen runs collapsed, then the `_` suffix. */
  function GetBitbucketId(text: string, repetition: nat): (r: string)
    ensures ExtendsWithCount(r, BitbucketBase(text), '_', repetition)
  {
    SuffixExtends(BitbucketBase(text), '_', repetition);
    BitbucketBase(text) + Suffix('_', repetition)
  }

  // ---------------------------------------------------------------------
  // ghost.org

  /**
   What one character becomes in the Ghost id: a space turns into `-`, which is
   itself removed, so spaces vanish with the punctuation; `$` becomes `d`, `~`
   becomes `t`, and anything else stays.
   */
  function GhostImage(c: char): string {
    if c == ' ' || c in GhostPunctuation then ""
    else if c == '$' then "d"
    else if c == '~' then "t"
    else [c]
  }

  /** The four steps of the Ghost id, on one character. */
  lemma {:induction false} GhostImageOne(c: char)
    ensures ReplaceChar(ReplaceChar(RemoveChars(ReplaceChar([c], ' ', '-'), GhostPunctuation), '$', 'd'), '~', 't') == GhostImage(c)
  {
    var d := if c == ' ' then '-' else c;
    assert ReplaceChar([c], ' ', '-') == [d];
    RemoveCharsOne(d, GhostPunctuation);
    if d !in GhostPunctuation {
      var e := if d == '$' then 'd' else d;
      assert ReplaceChar([d], '$', 'd') == [e];
      assert ReplaceChar([e], '~', 't') == [if e == '~' then 't' else e];
    }
  }

  /** The four steps of the Ghost id rewrite each character on its own. */
  lemma {:induction false} GhostStepsPerChar(t: string)
    ensures ReplaceChar(ReplaceChar(RemoveChars(ReplaceChar(t, ' ', '-'), GhostPunctuation), '$', 'd'), '~', 't') == MapChars(t, GhostImage)
    decreases |t|
  {
    if |t| > 0 {
      var c, u := t[0], t[1..];
      assert t == [c] + u;
      var cr, ur := ReplaceChar([c], ' ', '-'), ReplaceChar(u, ' ', '-');
      ReplaceCharAppend([c], u, ' ', '-');
      var cp, up := RemoveChars(cr, GhostPunctuation), RemoveChars(ur, GhostPunctuation);
      RemoveCharsAppend(cr, ur, GhostPunctuation);
      ReplaceCharAppend(cp, up, '$', 'd');
      ReplaceCharAppend(ReplaceChar(cp, '$', 'd'), ReplaceChar(up, '$', 'd'), '~', 't');
      GhostImageOne(c);
      GhostStepsPerChar(u);
      MapCharsCons(c, u, GhostImage);
    }
  }

  /** `basicGhostId`: spaces to `-`, Ghost punctuation (including `-`) out, `$` to `d`, `~` to `t`. */
  function BasicGhostId(text: string): (r: string)
    ensures |r| <= |text|
    ensures forall i :: 0 <= i < |r| ==> r[i] !in {' ', '-', '%', '$', '~'}
    ensures r == MapChars(text, GhostImage)
  {
    GhostStepsPerChar(text);
    ReplaceChar(ReplaceChar(RemoveChars(ReplaceChar(text, ' ', '-'), GhostPunctuation), '$', 'd'), '~', 't')
  }

  /** `getGhostId`: the repetition is not representable and is ignored. */
  function GetGhostId(text: string, repetition: nat): (r: string)
    ensures |r| <= |text|
    ensures forall i :: 0 <= i < |r| ==> r[i] !in {' ', '-', '%', '$', '~'}
    ensures r == MapChars(text, GhostImage)
  {
    BasicGhostId(text)
  }

  // ---------------------------------------------------------------------
  // gitlab.com

  /**
   The match of `\[(.*)\]\(.*\)` at the head of `s`, as the index `j` of the `](`
   that closes the link text and the index `k` of the final `)`. Both `.*` are
   greedy and stop at a line terminator: `k` is the last `)` the match can reach
   and `j` the last `](` before it.
   */
  function LinkAtHead(s: string): (r: Option<(nat, nat)>)
    ensures r.Some? ==> 1 <= r.value.0 && r.value.0 + 2 <= r.value.1 < |s|
    ensures r.Some? ==> s[0] == '[' && s[r.value.0] == ']' && s[r.value.0 + 1] == '(' && s[r.value.1] == ')'
    ensures r.Some? ==> forall i :: 1 <= i < r.value.1 ==> !IsLineTerminator(s[i])
  {
    if |s| == 0 || s[0] != '[' then None
    else
      var seg := SegmentEnd(s, 1);
      match LastIndexOf(s, ')', 3, seg)
      case None => None
      case Some(k) =>
        match LastOccurrence(s, "](", 1, k - 1)
        case None => None
        case Some(j) =>
          assert s[j..j + 2] == "](";
          assert s[j] == s[j..j + 2][0] && s[j + 1] == s[j..j + 2][1];
          Some((j, k))
  }

  /** `replace(/\[(.*)\]\(.*\)/, "$1")` without the global flag: only the leftmost link is unwrapped. */
  function UnwrapFirstLink(s: string): (r: string)
    ensures |r| <= |s|
    ensures (forall i :: 0 <= i < |s| ==> s[i] != '[') ==> r == s
    decreases |s|
  {
    if |s| == 0 then ""
    else match LinkAtHead(s)
      case Some((j, k)) => s[1..j] + s[k + 1..]
      case None => [s[0]] + UnwrapFirstLink(s[1..])
  }

  /** Text before the first `[` is copied unchanged. */
  lemma {:induction false} UnwrapFirstLinkPrefix(p: string, x: string)
    requires Avoids(p, '[')
    ensures UnwrapFirstLink(p + x) == p + UnwrapFirstLink(x)
    decreases |p|
  {
    var s := p + x;
    if |p| > 0 {
      assert s[0] == p[0] && s[1..] == p[1..] + x;
      assert LinkAtHead(s) == None;
      assert UnwrapFirstLink(s) == [s[0]] + UnwrapFirstLink(s[1..]);
      UnwrapFirstLinkPrefix(p[1..], x);
      AppendAssoc([p[0]], p[1..], UnwrapFirstLink(x));
      assert [p[0]] + p[1..] == p;
    } else {
      assert s == x;
    }
  }

  /** The shape of a link that is the whole line: `[`, text, `](`, a target without `]` or `)`, `)`. */
  lemma {:induction false} LinkAtHeadWholeLink(s: string, j: nat)
    requires 1 <= j && j + 2 < |s|
    requires s[0] == '[' && s[j] == ']' && s[j + 1] == '(' && s[|s| - 1] == ')'
    requires forall i :: 1 <= i < |s| ==> !IsLineTerminator(s[i])
    requires forall i :: j + 2 <= i < |s| - 1 ==> s[i] != ']' && s[i] != ')'
    ensures LinkAtHead(s) == Some((j, |s| - 1))
  {
    var k := |s| - 1;
    SegmentEndPast(s, 1, k);
    LastIndexOfIs(s, ')', 3, |s|, k);
    OccursAtOf(s, "](", j);
    NoOccurrenceWithoutHead(s, "](", j + 1, k - 1);
    LastOccurrenceIs(s, "](", 1, k - 1, j);
  }

  /**
   A link `[t](u)` on one line, after text without `[`, is replaced by its
   text `t`, which may be empty.
   */
  lemma {:induction false} UnwrapFirstLinkUnwraps(p: string, t: string, u: string)
    requires Avoids(p, '[')
    requires forall i :: 0 <= i < |t| ==> !IsLineTerminator(t[i])
    requires forall i :: 0 <= i < |u| ==> !IsLineTerminator(u[i])
    requires Avoids(u, ']') && Avoids(u, ')')
    ensures UnwrapFirstLink(p + ("[" + t + "](" + u + ")")) == p + t
  {
    var s := "[" + t + "](" + u + ")";
    var j := |t| + 1;
    LinkChars(t, u);
    assert s[j] == ']' && s[j + 1] == '(';
    LinkAtHeadWholeLink(s, j);
    assert UnwrapFirstLink(s) == s[1..j] + s[|s|..];
    UnwrapFirstLinkPrefix(p, s);
  }

  /** `replace(/\s+/g, '-')`: every maximal whitespace run becomes one `-`. */
  function WhitespaceRunsToHyphen(s: string): (r: string)
    ensures forall i :: 0 <= i < |r| ==> !IsWhitespace(r[i])
    ensures forall i :: 0 <= i < |r| ==> r[i] == '-' || r[i] in s
    decreases |s|
  {
    if |s| == 0 then ""
    else if IsWhitespace(s[0]) then
      (if |s| > 1 && IsWhitespace(s[1]) then WhitespaceRunsToHyphen(s[1..]) else "-" + WhitespaceRunsToHyphen(s[1..]))
    else [s[0]] + WhitespaceRunsToHyphen(s[1..])
  }

  /** Text without whitespace is copied unchanged, and the replacement continues after it. */
  lemma {:induction false} WhitespaceRunsCopies(p: string, x: string)
    requires forall i :: 0 <= i < |p| ==> !IsWhitespace(p[i])
    ensures WhitespaceRunsToHyphen(p + x) == p + WhitespaceRunsToHyphen(x)
    decreases |p|
  {
    var s := p + x;
    if |p| == 0 {
      assert s == x;
    } else {
      assert s[0] == p[0] && s[1..] == p[1..] + x;
      WhitespaceRunsCopies(p[1..], x);
      AppendAssoc([p[0]], p[1..], WhitespaceRunsToHyphen(x));
      assert [p[0]] + p[1..] == p;
    }
  }

  /** A whole whitespace run, up to another character or the end, becomes exactly one `-`. */
  lemma {:induction false} WhitespaceRunsRun(w: string, x: string)
    requires |w| > 0 && forall i :: 0 <= i < |w| ==> IsWhitespace(w[i])
    requires |x| == 0 || !IsWhitespace(x[0])
    ensures WhitespaceRunsToHyphen(w + x) == "-" + WhitespaceRunsToHyphen(x)
    decreases |w|
  {
    var s := w + x;
    assert s[0] == w[0] && s[1..] == w[1..] + x;
    if |w| > 1 {
      assert s[1] == w[1];
      WhitespaceRunsRun(w[1..], x);
    } else {
      assert w[1..] + x == x;
      if |x| > 0 {
        assert s[1] == x[0];
      }
    }
  }

  /** A character the GitLab id keeps once punctuation and whitespace are gone. */
  predicate IsGitlabClean(c: char) {
    !IsWhitespace(c) && c !in GitlabPunctuation && c !in CjkPunctuation
  }

  /** Markup pre-pass, link unwrapping, whitespace runs to `-`, punctuation out. */
  function GitlabCleaned(text: string, ext: Externals): (r: string)
    ensures forall i :: 0 <= i < |r| ==> IsGitlabClean(r[i])
  {
    var spaced := WhitespaceRunsToHyphen(UnwrapFirstLink(ext.gitlabMarkup(text)));
    var punct := RemoveChars(spaced, GitlabPunctuation);
    RemoveCharsKeeps(spaced, GitlabPunctuation, c => !IsWhitespace(c));
    RemoveCharsKeeps(punct, CjkPunctuation, c => !IsWhitespace(c) && c !in GitlabPunctuation);
    RemoveChars(punct, CjkPunctuation)
  }

  /** `replace(/^-/, '')`. */
  function DropLeadingHyphen(s: string): (r: string)
    ensures |s| > 0 && s[0] == '-' ==> r == s[1..]
    ensures !(|s| > 0 && s[0] == '-') ==> r == s
  {
    if |s| > 0 && s[0] == '-' then s[1..] else s
  }

  /** `replace(/-$/, '')`. */
  function DropTrailingHyphen(s: string): (r: string)
    ensures |s| > 0 && s[|s| - 1] == '-' ==> r == s[..|s| - 1]
    ensures !(|s| > 0 && s[|s| - 1] == '-') ==> r == s
  {
    if |s| > 0 && s[|s| - 1] == '-' then s[..|s| - 1] else s
  }

  /** Dropping a hyphen at each end keeps whatever property every character had. */
  lemma {:induction false} HyphenEndsKeep(s: string, p: char -> bool)
    requires forall i :: 0 <= i < |s| ==> p(s[i])
    ensures var r := DropTrailingHyphen(DropLeadingHyphen(s));
      forall i :: 0 <= i < |r| ==> p(r[i])
  {
    var left := DropLeadingHyphen(s);
    assert forall i :: 0 <= i < |left| ==> p(left[i]) by {
      if |s| > 0 && s[0] == '-' {
        assert forall i :: 0 <= i < |left| ==> left[i] == s[i + 1];
      }
    }
    var r := DropTrailingHyphen(left);
    assert forall i :: 0 <= i < |r| ==> r[i] == left[i];
  }

  /** With no `--` inside, dropping one hyphen at each end leaves none at either end. */
  lemma {:induction false} HyphenEnds(s: string)
    requires NoDoubled(s, '-')
    ensures var r := DropTrailingHyphen(DropLeadingHyphen(s));
      NoDoubled(r, '-') && (|r| > 0 ==> r[0] != '-' && r[|r| - 1] != '-')
  {
    var left := DropLeadingHyphen(s);
    assert NoDoubled(left, '-') && (|left| > 0 ==> left[0] != '-') by {
      if |s| > 0 && s[0] == '-' {
        assert forall i :: 0 <= i < |left| ==> left[i] == s[i + 1];
      }
    }
    var r := DropTrailingHyphen(left);
    assert forall i :: 0 <= i < |r| ==> r[i] == left[i];
  }

  /** The GitLab id before its repetition suffix. */
  function GitlabBase(text: string, ext: Externals): (r: string)
    ensures forall i :: 0 <= i < |r| ==> IsGitlabClean(r[i])
    ensures NoDoubled(r, '-')
    ensures |r| > 0 ==> r[0] != '-' && r[|r| - 1] != '-'
  {
    var collapsed := CollapseHyphens(GitlabCleaned(text, ext));
    CollapseHyphensKeeps(GitlabCleaned(text, ext), IsGitlabClean);
    HyphenEnds(collapsed);
    HyphenEndsKeep(collapsed, IsGitlabClean);
    DropTrailingHyphen(DropLeadingHyphen(collapsed))
  }

  /** A GitLab id shape: kept characters only, no `--`, no hyphen at either end. */
  predicate IsGitlabWord(s: string) {
    (forall i :: 0 <= i < |s| ==> IsGitlabClean(s[i]))
    && NoDoubled(s, '-') && (|s| > 0 ==> s[0] != '-' && s[|s| - 1] != '-')
  }

  /** When the markup pre-pass, link unwrapping and whitespace step give a GitLab word, the remaining steps keep it. */
  lemma {:induction false} GitlabBaseFrom(text: string, ext: Externals, m: string)
    requires WhitespaceRunsToHyphen(UnwrapFirstLink(ext.gitlabMarkup(text))) == m
    requires IsGitlabWord(m)
    ensures GitlabBase(text, ext) == m
  {
    RemoveCharsAbsent(m, GitlabPunctuation);
    RemoveCharsAbsent(m, CjkPunctuation);
    CollapseHyphensFixes(m);
  }

  /** A GitLab word that the markup pre-pass leaves alone is its own GitLab base. */
  lemma {:induction false} GitlabBaseOfWord(s: string, ext: Externals)
    requires ext.gitlabMarkup(s) == s
    requires IsGitlabWord(s)
    ensures GitlabBase(s, ext) == s
  {
    assert forall i :: 0 <= i < |s| ==> s[i] != '[';
    WhitespaceRunsCopies(s, "");
    assert s + "" == s;
    GitlabBaseFrom(s, ext, s);
  }

  /** Two hyphen-free words of kept characters joined by one `-` form a GitLab word. */
  lemma {:induction false} HyphenJoinIsGitlabWord(a: string, b: string)
    requires |a| > 0 && forall i :: 0 <= i < |a| ==> IsGitlabClean(a[i]) && a[i] != '-'
    requires |b| > 0 && forall i :: 0 <= i < |b| ==> IsGitlabClean(b[i]) && b[i] != '-'
    ensures IsGitlabWord(a + "-" + b)
  {
    var m := a + "-" + b;
    assert forall i :: 0 <= i < |m| ==> m[i] == (if i < |a| then a[i] else if i == |a| then '-' else b[i - |a| - 1]);
  }

  /** Text made of whitespace and characters other than `[` has no link to unwrap. */
  lemma {:induction false} NoLinkInWords(a: string, w: string, b: string)
    requires forall i :: 0 <= i < |a| ==> a[i] != '['
    requires forall i :: 0 <= i < |w| ==> IsWhitespace(w[i])
    requires forall i :: 0 <= i < |b| ==> b[i] != '['
    ensures UnwrapFirstLink(a + w + b) == a + w + b
  {
    var s := a + w + b;
    forall i | 0 <= i < |s| ensures s[i] != '[' {
      if i < |a| { assert s[i] == a[i]; }
      else if i < |a| + |w| { assert s[i] == w[i - |a|]; }
      else { assert s[i] == b[i - |a| - |w|]; }
    }
  }

  /**
   Two words separated by a whitespace run: the run becomes one `-` and both
   words are kept, as for a title `Setup  Guide` giving `setup-guide` once lower-cased.
   */
  lemma {:induction false} GitlabBaseOfWords(a: string, w: string, b: string, ext: Externals)
    requires ext.gitlabMarkup(a + w + b) == a + w + b
    requires |a| > 0 && forall i :: 0 <= i < |a| ==> IsGitlabClean(a[i]) && a[i] != '-'
    requires |w| > 0 && forall i :: 0 <= i < |w| ==> IsWhitespace(w[i])
    requires |b| > 0 && forall i :: 0 <= i < |b| ==> IsGitlabClean(b[i]) && b[i] != '-'
    ensures GitlabBase(a + w + b, ext) == a + "-" + b
  {
    NoLinkInWords(a, w, b);
    assert a + w + b == a + (w + b);
    WhitespaceRunsCopies(a, w + b);
    WhitespaceRunsRun(w, b);
    WhitespaceRunsCopies(b, "");
    assert b + "" == b;
    AppendAssoc(a, "-", b);
    HyphenJoinIsGitlabWord(a, b);
    GitlabBaseFrom(a + w + b, ext, a + "-" + b);
  }

  /** `getGitlabId`: the GitLab id and, for a repeated header, `-` and the repetition count. */
  function GetGitlabId(text: string, repetition: nat, ext: Externals): (r: string)
    ensures ExtendsWithCount(r, GitlabBase(text, ext), '-', repetition)
  {
    SuffixExtends(GitlabBase(text, ext), '-', repetition);
    GitlabBase(text, ext) + Suffix('-', repetition)
  }

  // ---------------------------------------------------------------------
  // The dispatcher.

  predicate IsKnownMode(mode: string) {
    mode == GithubMode || mode == BitbucketMode || mode == GitlabMode || mode == NodejsMode || mode == GhostMode
  }

  /** The characters an anchor may hold once it is encoded and normalised. */
  predicate IsAnchorChar(c: char) {
    (IsUriKept(c) && !IsAsciiUpper(c)) || c == ZeroWidthJoiner
  }

  predicate IsAnchorText(s: string) {
    forall i :: 0 <= i < |s| ==> IsAnchorChar(s[i])
  }

  /** An anchor character is neither `%` nor whitespace. */
  lemma {:induction false} AnchorCharFacts(c: char)
    requires IsAnchorChar(c)
    ensures c != '%' && !IsWhitespace(c)
  {
  }

  /** The GitHub encoding: `encodeURI` with joiners restored, then lower case, whitespace to `-`, `%` out. */
  function GithubEncode(id: string): (r: string)
    ensures IsAnchorText(r)
  {
    GithubEncodingChars(id);
    FinalNormalize(RestoreJoiners(EncodeUri(id)))
  }

  /** The encoding of every other mode: `encodeURI`, then lower case, whitespace to `-`, `%` out. */
  function PlainEncode(id: string): (r: string)
    ensures IsAnchorText(r)
  {
    FinalNormalize(EncodeUri(id))
  }

  /** `anchorMarkdownHeader`: the anchor of `header` for `mode`, or the error `anchorMarkdownHeader` throws. */
  function AnchorMarkdownHeader(header: string, mode: string, repetition: nat, moduleName: string, ext: Externals): (r: Result<string, AnchorError>)
    ensures r.Failure? <==> (mode != "" && !IsKnownMode(mode)) || (mode == NodejsMode && moduleName == "")
    ensures r.Failure? && mode != NodejsMode ==> r.error == UnknownMode(mode)
    ensures r.Failure? && mode == NodejsMode ==> r.error == MissingModuleName(mode)
    ensures r.Success? ==> IsAnchorText(r.value)
  {
    var m := if mode == "" then GithubMode else mode;
    var text := AsciiOnlyToLowerCase(Trim(header));
    if m == GithubMode then Success(GithubEncode(GetGithubId(text, repetition, ext)))
    else if m == BitbucketMode then Success(PlainEncode(GetBitbucketId(text, repetition)))
    else if m == GitlabMode then Success(PlainEncode(GetGitlabId(text, repetition, ext)))
    else if m == NodejsMode then
      if moduleName == "" then Failure(MissingModuleName(m))
      else Success(PlainEncode(GetNodejsId(moduleName + "." + text, repetition)))
    else if m == GhostMode then Success(PlainEncode(GetGhostId(text, repetition)))
    else Failure(UnknownMode(m))
  }

  /** An empty mode means GitHub. */
  lemma {:induction false} EmptyModeIsGithub(header: string, repetition: nat, moduleName: string, ext: Externals)
    ensures AnchorMarkdownHeader(header, "", repetition, moduleName, ext)
         == AnchorMarkdownHeader(header, GithubMode, repetition, moduleName, ext)
  {
  }

  /** Surrounding whitespace of the header never changes the anchor. */
  lemma {:induction false} AnchorIgnoresSurroundingWhitespace(header: string, mode: string, repetition: nat, moduleName: string, ext: Externals)
    ensures AnchorMarkdownHeader(header, mode, repetition, moduleName, ext)
         == AnchorMarkdownHeader(Trim(header), mode, repetition, moduleName, ext)
  {
    TrimOfTrimmed(Trim(header));
  }

  /** The Ghost anchor is the same for every repetition. */
  lemma {:induction false} GhostIgnoresRepetition(header: string, k: nat, moduleName: string, ext: Externals)
    ensures AnchorMarkdownHeader(header, GhostMode, k, moduleName, ext)
         == AnchorMarkdownHeader(header, GhostMode, 0, moduleName, ext)
  {
  }

  /** The characters of a repetition suffix: the separator first, then digits. */
  lemma {:induction false} SuffixChars(sep: char, k: nat)
    ensures var t := Suffix(sep, k);
      (k != 0 ==> |t| > 0 && t[0] == sep) && forall i :: 0 <= i < |t| ==> t[i] == sep || IsDigit(t[i])
  {
    var t := Suffix(sep, k);
    if k != 0 {
      forall i | 1 <= i < |t| ensures IsDigit(t[i]) {
        assert t[i] == t[1..][i - 1];
      }
    }
  }

  /** A suffix made of a separator and digits passes through the plain encoding unchanged. */
  lemma {:induction false} PlainEncodeSuffix(base: string, sep: char, k: nat)
    requires sep == '-' || sep == '_'
    ensures PlainEncode(base + Suffix(sep, k)) == PlainEncode(base) + Suffix(sep, k)
  {
    var suffix := Suffix(sep, k);
    assert forall i :: 0 <= i < |suffix| ==> IsUriKept(suffix[i]);
    EncodeUriAppend(base, suffix);
    assert EncodeUri(suffix) == suffix;
    FinalNormalizeAppend(EncodeUri(base), suffix);
    FinalNormalizeFixes(suffix);
  }

  /** A suffix made of `-` and digits comes through `encodeURI` and the joiner restoration unchanged. */
  lemma {:induction false} RestoreJoinersSuffix(base: string, k: nat)
    ensures RestoreJoiners(EncodeUri(base + Suffix('-', k))) == RestoreJoiners(EncodeUri(base)) + Suffix('-', k)
  {
    var suffix := Suffix('-', k);
    EncodeUriAppend(base, suffix);
    SuffixChars('-', k);
    assert forall i :: 0 <= i < |suffix| ==> IsUriKept(suffix[i]) && suffix[i] != '%';
    assert EncodeUri(suffix) == suffix;
    if k != 0 {
      RestoreJoinersTail(EncodeUri(base), suffix);
    } else {
      assert EncodeUri(base) + suffix == EncodeUri(base);
    }
  }

  /** A suffix made of `-` and digits passes through the GitHub encoding unchanged. */
  lemma {:induction false} GithubEncodeSuffix(base: string, k: nat)
    ensures GithubEncode(base + Suffix('-', k)) == GithubEncode(base) + Suffix('-', k)
  {
    var suffix := Suffix('-', k);
    var restored := RestoreJoiners(EncodeUri(base));
    RestoreJoinersSuffix(base, k);
    GithubEncodingChars(base);
    assert forall i :: 0 <= i < |suffix| ==> IsUriKept(suffix[i]);
    FinalNormalizeAppend(restored, suffix);
    FinalNormalizeFixes(suffix);
  }

  /** On GitHub the k-th repetition of a header appends `-k` to the first occurrence's anchor. */
  lemma {:induction false} GithubRepetitionSuffix(header: string, k: nat, moduleName: string, ext: Externals)
    requires EmojiSparesAscii(ext)
    ensures AnchorMarkdownHeader(header, GithubMode, k, moduleName, ext).Success?
    ensures AnchorMarkdownHeader(header, GithubMode, k, moduleName, ext).value
         == AnchorMarkdownHeader(header, GithubMode, 0, moduleName, ext).value + Suffix('-', k)
  {
    var text := AsciiOnlyToLowerCase(Trim(header));
    var base := RemoveChars(GetBasicGithubId(text), ext.emoji);
    GithubSuffixSurvivesEmoji(text, k, ext);
    GithubSuffixSurvivesEmoji(text, 0, ext);
    assert base + Suffix('-', 0) == base;
    GithubEncodeSuffix(base, k);
  }

  /** The header text `Setup` is already trimmed and lower-cases to `setup`. */
  lemma {:induction false} SetupText(header: string)
    requires header == "Setup"
    ensures AsciiOnlyToLowerCase(Trim(header)) == "setup"
  {
    assert IsTrimmed(header);
    TrimOfTrimmed(header);
    var r := AsciiOnlyToLowerCase(header);
    assert r[0] as int == 'S' as int + 32;
    assert r[1] == 'e' && r[2] == 't' && r[3] == 'u' && r[4] == 'p';
  }

  /** Lower-case letters and digits: text every GitHub step keeps as it is. */
  predicate IsPlainWord(w: string) {
    forall i :: 0 <= i < |w| ==> IsAsciiLower(w[i]) || IsDigit(w[i])
  }

  /** The GitHub id of a plain word, first occurrence, is the word. */
  lemma {:induction false} PlainWordGithubId(w: string, ext: Externals)
    requires IsPlainWord(w) && EmojiSparesAscii(ext)
    ensures GetGithubId(w, 0, ext) == w
  {
    assert forall i :: 0 <= i < |w| ==> IsGithubKept(w[i]) && IsAscii(w[i]);
    RemoveCharsAbsent(w, ext.emoji);
    GithubSuffixSurvivesEmoji(w, 0, ext);
    assert w + Suffix('-', 0) == w;
  }

  /** A plain word passes the GitHub encoding unchanged. */
  lemma {:induction false} PlainWordGithubEncode(w: string)
    requires IsPlainWord(w)
    ensures GithubEncode(w) == w
  {
    assert forall i :: 0 <= i < |w| ==> IsUriKept(w[i]) && w[i] != '%';
    assert EncodeUri(w) == w;
    RestoreJoinersSkips(w, "");
    assert w + "" == w;
    FinalNormalizeFixes(w);
  }

  /**
   A header that trims and lower-cases to a plain word has that word as its
   GitHub anchor, and its k-th repetition has the word followed by `-k`: the
   title `Setup` gives `setup`, then `setup-1`.
   */
  lemma {:induction false} GithubPlainWordAnchors(header: string, w: string, k: nat, ext: Externals)
    requires AsciiOnlyToLowerCase(Trim(header)) == w && IsPlainWord(w)
    requires EmojiSparesAscii(ext)
    ensures AnchorMarkdownHeader(header, GithubMode, 0, "", ext) == Success(w)
    ensures AnchorMarkdownHeader(header, GithubMode, k, "", ext) == Success(w + Suffix('-', k))
  {
    PlainWordGithubId(w, ext);
    PlainWordGithubEncode(w);
    GithubAnchorIs(header, 0, "", ext);
    GithubRepetitionSuffix(header, k, "", ext);
  }

  /** Two headers titled `Setup` get the GitHub anchors `setup` and `setup-1`. */
  lemma {:induction false} GithubSetupAnchors(header: string, ext: Externals)
    requires header == "Setup" && EmojiSparesAscii(ext)
    ensures AnchorMarkdownHeader(header, GithubMode, 0, "", ext) == Success("setup")
    ensures AnchorMarkdownHeader(header, GithubMode, 1, "", ext) == Success("setup-1")
  {
    SetupText(header);
    GithubPlainWordAnchors(header, "setup", 1, ext);
    SetupSecond();
  }

  /** The second occurrence of `setup` is spelled `setup-1`. */
  lemma {:induction false} SetupSecond()
    ensures "setup" + Suffix('-', 1) == "setup-1"
  {
    assert NatToString(1) == "1";
  }

  /** The GitHub branch of the dispatcher. */
  lemma {:induction false} GithubAnchorIs(header: string, k: nat, moduleName: string, ext: Externals)
    ensures AnchorMarkdownHeader(header, GithubMode, k, moduleName, ext)
         == Success(GithubEncode(GetGithubId(AsciiOnlyToLowerCase(Trim(header)), k, ext)))
  {
  }

  /** The Bitbucket id of the k-th repetition, encoded, is the first one's with `_k` appended. */
  lemma {:induction false} BitbucketIdSuffix(text: string, k: nat)
    ensures PlainEncode(GetBitbucketId(text, k)) == PlainEncode(GetBitbucketId(text, 0)) + Suffix('_', k)
  {
    var base := BitbucketBase(text);
    PlainEncodeSuffix(base, '_', k);
    assert base + Suffix('_', 0) == base;
  }

  /** On Bitbucket the k-th repetition of a header appends `_k` to the first occurrence's anchor. */
  lemma {:induction false} BitbucketRepetitionSuffix(header: string, k: nat, moduleName: string, ext: Externals)
    ensures AnchorMarkdownHeader(header, BitbucketMode, k, moduleName, ext).Success?
    ensures AnchorMarkdownHeader(header, BitbucketMode, k, moduleName, ext).value
         == AnchorMarkdownHeader(header, BitbucketMode, 0, moduleName, ext).value + Suffix('_', k)
  {
    BitbucketIdSuffix(AsciiOnlyToLowerCase(Trim(header)), k);
  }

  /** The GitLab id of the k-th repetition, encoded, is the first one's with `-k` appended. */
  lemma {:induction false} GitlabIdSuffix(text: string, k: nat, ext: Externals)
    ensures PlainEncode(GetGitlabId(text, k, ext)) == PlainEncode(GetGitlabId(text, 0, ext)) + Suffix('-', k)
  {
    var base := GitlabBase(text, ext);
    PlainEncodeSuffix(base, '-', k);
    assert base + Suffix('-', 0) == base;
  }

  /** On GitLab the k-th repetition of a header appends `-k` to the first occurrence's anchor. */
  lemma {:induction false} GitlabRepetitionSuffix(header: string, k: nat, moduleName: string, ext: Externals)
    ensures AnchorMarkdownHeader(header, GitlabMode, k, moduleName, ext).Success?
    ensures AnchorMarkdownHeader(header, GitlabMode, k, moduleName, ext).value
         == AnchorMarkdownHeader(header, GitlabMode, 0, moduleName, ext).value + Suffix('-', k)
  {
    GitlabIdSuffix(AsciiOnlyToLowerCase(Trim(header)), k, ext);
  }

  /** The node id of the k-th repetition, encoded, is the first one's with `_k` appended. */
  lemma {:induction false} NodejsIdSuffix(text: string, k: nat)
    ensures PlainEncode(GetNodejsId(text, k)) == PlainEncode(GetNodejsId(text, 0)) + Suffix('_', k)
  {
    var base := NodejsBase(text);
    PlainEncodeSuffix(base, '_', k);
    assert base + Suffix('_', 0) == base;
  }

  /** For node.js the k-th repetition of a header appends `_k` to the first occurrence's anchor. */
  lemma {:induction false} NodejsRepetitionSuffix(header: string, k: nat, moduleName: string, ext: Externals)
    requires moduleName != ""
    ensures AnchorMarkdownHeader(header, NodejsMode, k, moduleName, ext).Success?
    ensures AnchorMarkdownHeader(header, NodejsMode, k, moduleName, ext).value
         == AnchorMarkdownHeader(header, NodejsMode, 0, moduleName, ext).value + Suffix('_', k)
  {
    NodejsAnchorIs(header, k, moduleName, ext);
    NodejsAnchorIs(header, 0, moduleName, ext);
    NodejsIdSuffix(moduleName + "." + AsciiOnlyToLowerCase(Trim(header)), k);
  }

  /** The node.js branch of the dispatcher, given a module name. */
  lemma {:induction false} NodejsAnchorIs(header: string, k: nat, moduleName: string, ext: Externals)
    requires moduleName != ""
    ensures AnchorMarkdownHeader(header, NodejsMode, k, moduleName, ext)
         == Success(PlainEncode(GetNodejsId(moduleName + "." + AsciiOnlyToLowerCase(Trim(header)), k)))
  {
    assert NodejsMode != GithubMode by { assert NodejsMode[0] != GithubMode[0]; }
    assert NodejsMode != BitbucketMode by { assert NodejsMode[0] != BitbucketMode[0]; }
    assert NodejsMode != GitlabMode by { assert NodejsMode[0] != GitlabMode[0]; }
  }
}

=== FILE: text.dfy ===
/**
 Character classes and string helpers with the meaning JavaScript gives them:
 the `\s` class and `String.prototype.trim`, `Number.prototype.toString` on
 non-negative integers, `Array.prototype.join`, `String.prototype.repeat`.
 Strings are sequences of Unicode scalar values.
 */
module Text {
  import opened Wrappers

  /** JavaScript WhiteSpace and LineTerminator code points: what `\s` matches and `trim` removes. */
  predicate IsWhitespace(c: char) {
    || c == '\t' || c == '\n' || c == '\U{000B}' || c == '\U{000C}' || c == '\r' || c == ' '
    || c == '\U{00A0}' || c == '\U{1680}' || ('\U{2000}' <= c <= '\U{200A}')
    || c == '\U{2028}' || c == '\U{2029}' || c == '\U{202F}' || c == '\U{205F}'
    || c == '\U{3000}' || c == '\U{FEFF}'
  }

  /** The characters `.` does not match in a JavaScript regular expression. */
  predicate IsLineTerminator(c: char) {
    c == '\n' || c == '\r' || c == '\U{2028}' || c == '\U{2029}'
  }

  predicate IsAsciiUpper(c: char) { 'A' <= c <= 'Z' }

  predicate IsAsciiLower(c: char) { 'a' <= c <= 'z' }

  predicate IsDigit(c: char) { '0' <= c <= '9' }

  /** True when `c` occurs nowhere in `s`. */
  predicate Avoids(s: string, c: char) {
    forall i :: 0 <= i < |s| ==> s[i] != c
  }

  /** True when no two adjacent characters of `s` are both `c` (no `--` for `c == '-'`). */
  predicate NoDoubled(s: string, c: char) {
    forall i {:trigger s[i]} :: 0 <= i < |s| - 1 ==> !(s[i] == c && s[i + 1] == c)
  }

  /** True when `s` neither starts nor ends with a whitespace character. */
  predicate IsTrimmed(s: string) {
    |s| == 0 || (!IsWhitespace(s[0]) && !IsWhitespace(s[|s| - 1]))
  }

  /** The result of `trimStart`: the suffix left after dropping leading whitespace. */
  function TrimStart(s: string): (r: string)
    ensures |r| <= |s|
    ensures |r| == |s| ==> r == s
    ensures |r| < |s| ==> r == s[|s| - |r|..]
    ensures forall i :: 0 <= i < |s| - |r| ==> IsWhitespace(s[i])
    ensures |r| == 0 || !IsWhitespace(r[0])
    decreases |s|
  {
    if |s| > 0 && IsWhitespace(s[0]) then TrimStart(s[1..]) else s
  }

  /** The result of `trimEnd`: the prefix left after dropping trailing whitespace. */
  function TrimEnd(s: string): (r: string)
    ensures |r| <= |s| && r == s[..|r|]
    ensures forall i :: |r| <= i < |s| ==> IsWhitespace(s[i])
    ensures |r| == 0 || !IsWhitespace(r[|r| - 1])
    decreases |s|
  {
    if |s| > 0 && IsWhitespace(s[|s| - 1]) then TrimEnd(s[..|s| - 1]) else s
  }

  /** How many leading whitespace characters `trim` drops from `s`. */
  function TrimOffset(s: string): (k: nat)
    ensures k <= |s|
  {
    |s| - |TrimStart(s)|
  }

  /** `String.prototype.trim`: the part of `s` between its leading and trailing whitespace. */
  function Trim(s: string): (r: string)
    ensures IsTrimmed(r)
    ensures |r| <= |s| - TrimOffset(s)
    ensures TrimOffset(s) == 0 ==> r == s[..|r|]
    ensures TrimOffset(s) > 0 ==> r == s[TrimOffset(s)..TrimOffset(s) + |r|]
    ensures forall i :: 0 <= i < TrimOffset(s) ==> IsWhitespace(s[i])
    ensures forall i :: TrimOffset(s) + |r| <= i < |s| ==> IsWhitespace(s[i])
  {
    TrimEnd(TrimStart(s))
  }

  /** The i-th character of the trimmed string, read in the original. */
  lemma {:induction false} TrimAt(s: string, i: nat)
    requires i < |Trim(s)|
    ensures Trim(s)[i] == s[TrimOffset(s) + i]
  {
  }

  /** Every character a trim keeps already held whatever property all of `s` held. */
  lemma {:induction false} TrimKeeps(s: string, p: char -> bool)
    requires forall i :: 0 <= i < |s| ==> p(s[i])
    ensures forall i :: 0 <= i < |Trim(s)| ==> p(Trim(s)[i])
  {
    forall i | 0 <= i < |Trim(s)| ensures p(Trim(s)[i]) {
      TrimAt(s, i);
    }
  }

  /** Trimming a string that is already trimmed changes nothing. */
  lemma {:induction false} TrimOfTrimmed(s: string)
    requires IsTrimmed(s)
    ensures Trim(s) == s
  {
  }

  /** Leading whitespace does not survive a trim. */
  lemma {:induction false} TrimSkipsLeading(w: string, s: string)
    requires forall i :: 0 <= i < |w| ==> IsWhitespace(w[i])
    ensures Trim(w + s) == Trim(s)
    decreases |w|
  {
    if |w| > 0 {
      assert (w + s)[1..] == w[1..] + s;
      assert TrimStart(w + s) == TrimStart(w[1..] + s);
      TrimSkipsLeading(w[1..], s);
    } else {
      assert w + s == s;
    }
  }

  /** One trailing whitespace character after a trimmed, non-empty string does not survive a trim. */
  lemma {:induction false} TrimSkipsOneTrailing(s: string, c: char)
    requires |s| > 0 && IsTrimmed(s) && IsWhitespace(c)
    ensures Trim(s + [c]) == s
  {
    assert TrimStart(s + [c]) == s + [c];
    assert (s + [c])[..|s + [c]| - 1] == s;
  }

  /** True when every character of `s` is a decimal digit. */
  predicate AllDigits(s: string) {
    forall i :: 0 <= i < |s| ==> IsDigit(s[i])
  }

  /** The decimal digit for `d < 10`. */
  function DigitChar(d: nat): (c: char)
    requires d < 10
    ensures IsDigit(c)
  {
    "0123456789"[d]
  }

  /** The value of a decimal digit character. */
  function DigitValue(c: char): (d: nat)
    requires IsDigit(c)
    ensures d < 10
  {
    c as int - '0' as int
  }

  /** `Number.prototype.toString()` on a non-negative integer: its shortest decimal spelling. */
  function NatToString(n: nat): (r: string)
    ensures 1 <= |r|
    ensures forall i :: 0 <= i < |r| ==> IsDigit(r[i])
    ensures r[0] == '0' ==> n == 0
    decreases n
  {
    if n < 10 then [DigitChar(n)] else NatToString(n / 10) + [DigitChar(n % 10)]
  }

  /** The value of a string of decimal digits. */
  function ParseDecimal(s: string): nat
    requires forall i :: 0 <= i < |s| ==> IsDigit(s[i])
    decreases |s|
  {
    if |s| == 0 then 0 else ParseDecimal(s[..|s| - 1]) * 10 + DigitValue(s[|s| - 1])
  }

  /** Reading back the decimal spelling of `n` gives `n`. */
  lemma {:induction false} NatToStringRoundTrip(n: nat)
    ensures ParseDecimal(NatToString(n)) == n
    decreases n
  {
    if n < 10 {
    } else {
      var s := NatToString(n);
      assert s[..|s| - 1] == NatToString(n / 10);
      NatToStringRoundTrip(n / 10);
    }
  }

  /** Different numbers have different decimal spellings. */
  lemma {:induction false} NatToStringInjective(m: nat, n: nat)
    requires NatToString(m) == NatToString(n)
    ensures m == n
  {
    NatToStringRoundTrip(m);
    NatToStringRoundTrip(n);
  }

  lemma {:induction false} AppendAssoc<T>(a: seq<T>, b: seq<T>, c: seq<T>)
    ensures a + (b + c) == (a + b) + c
  {
  }

  /** `Array.prototype.join(sep)`. */
  function Join(parts: seq<string>, sep: string): string
    decreases |parts|
  {
    if |parts| == 0 then "" else if |parts| == 1 then parts[0] else parts[0] + sep + Join(parts[1..], sep)
  }

  /** Joining two non-empty lists is joining each and putting one separator between them. */
  lemma {:induction false} JoinAppend(a: seq<string>, b: seq<string>, sep: string)
    requires |a| > 0 && |b| > 0
    ensures Join(a + b, sep) == Join(a, sep) + sep + Join(b, sep)
    decreases |a|
  {
    if |a| == 1 {
      assert (a + b)[1..] == b;
    } else {
      assert (a + b)[1..] == a[1..] + b;
      JoinAppend(a[1..], b, sep);
    }
  }

  /** Joining a first part, a list and a last part: the list's own join sits between two separators. */
  lemma {:induction false} JoinFramed(a: string, xs: seq<string>, z: string, sep: string)
    ensures |xs| == 0 ==> Join([a] + xs + [z], sep) == a + sep + z
    ensures |xs| > 0 ==> Join([a] + xs + [z], sep) == a + sep + Join(xs, sep) + sep + z
  {
    if |xs| == 0 {
      assert [a] + xs + [z] == [a] + [z];
      JoinAppend([a], [z], sep);
    } else {
      JoinAppend([a] + xs, [z], sep);
      JoinAppend([a], xs, sep);
    }
  }

  /** Concatenation of a list of strings (`join('')`). */
  function Concat(parts: seq<string>): string
    decreases |parts|
  {
    if |parts| == 0 then "" else parts[0] + Concat(parts[1..])
  }

  /** `String.prototype.repeat(n)`: `n` copies of `s`. */
  function Repeat(s: string, n: nat): (r: string)
    ensures |r| == n * |s|
    decreases n
  {
    if n == 0 then "" else s + Repeat(s, n - 1)
  }

  /** `s` with `JavaScript substr(k)` semantics: the suffix from `k`, empty when `k` is past the end. */
  function Substr(s: string, k: nat): (r: string)
    ensures k <= |s| ==> r == s[k..]
    ensures k > |s| ==> r == ""
  {
    if k <= |s| then s[k..] else ""
  }

  /** A global replacement of every character of `cs` by nothing. */
  function RemoveChars(s: string, cs: set<char>): (r: string)
    ensures |r| <= |s|
    ensures forall i :: 0 <= i < |r| ==> r[i] !in cs
    ensures forall i :: 0 <= i < |r| ==> r[i] in s
    decreases |s|
  {
    if |s| == 0 then "" else (if s[0] in cs then "" else [s[0]]) + RemoveChars(s[1..], cs)
  }

  /** Removing characters distributes over concatenation. */
  lemma {:induction false} RemoveCharsAppend(a: string, b: string, cs: set<char>)
    ensures RemoveChars(a + b, cs) == RemoveChars(a, cs) + RemoveChars(b, cs)
    decreases |a|
  {
    if |a| > 0 {
      assert (a + b)[1..] == a[1..] + b;
      RemoveCharsAppend(a[1..], b, cs);
    } else {
      assert a + b == b;
    }
  }

  /** Removing characters from a one-character text. */
  lemma {:induction false} RemoveCharsOne(c: char, cs: set<char>)
    ensures RemoveChars([c], cs) == if c in cs then "" else [c]
  {
    assert [c][1..] == "";
  }

  /** Removing characters that do not occur changes nothing. */
  lemma {:induction false} RemoveCharsAbsent(s: string, cs: set<char>)
    requires forall i :: 0 <= i < |s| ==> s[i] !in cs
    ensures RemoveChars(s, cs) == s
    decreases |s|
  {
    if |s| > 0 {
      RemoveCharsAbsent(s[1..], cs);
      assert [s[0]] + s[1..] == s;
    }
  }

  /** Every character that survives a removal already held whatever property all of `s` held. */
  lemma {:induction false} RemoveCharsKeeps(s: string, cs: set<char>, p: char -> bool)
    requires forall i :: 0 <= i < |s| ==> p(s[i])
    ensures forall i :: 0 <= i < |RemoveChars(s, cs)| ==> p(RemoveChars(s, cs)[i])
  {
    var r := RemoveChars(s, cs);
    forall i | 0 <= i < |r| ensures p(r[i]) {
      var j :| 0 <= j < |s| && s[j] == r[i];
    }
  }

  /** A global replacement of the character `a` by the character `b`. */
  function ReplaceChar(s: string, a: char, b: char): (r: string)
    ensures |r| == |s|
    ensures forall i :: 0 <= i < |s| ==> r[i] == (if s[i] == a then b else s[i])
  {
    seq(|s|, i requires 0 <= i < |s| => if s[i] == a then b else s[i])
  }

  /** A global replacement distributes over concatenation. */
  lemma {:induction false} ReplaceCharAppend(x: string, y: string, a: char, b: char)
    ensures ReplaceChar(x + y, a, b) == ReplaceChar(x, a, b) + ReplaceChar(y, a, b)
  {
  }

  /** Replacing a character that does not occur changes nothing. */
  lemma {:induction false} ReplaceCharAbsent(s: string, a: char, b: char)
    requires Avoids(s, a)
    ensures ReplaceChar(s, a, b) == s
  {
  }

  /** `f` applied to every character of `s`, the pieces concatenated: a per-character rewrite that may drop or expand characters. */
  function MapChars(s: string, f: char -> string): string
    decreases |s|
  {
    if |s| == 0 then "" else f(s[0]) + MapChars(s[1..], f)
  }

  /** A per-character rewrite of one character followed by text. */
  lemma {:induction false} MapCharsCons(c: char, s: string, f: char -> string)
    ensures MapChars([c] + s, f) == f(c) + MapChars(s, f)
  {
    assert ([c] + s)[1..] == s;
  }

  /** A per-character rewrite that maps every character of `s` to itself leaves `s` unchanged. */
  lemma {:induction false} MapCharsFixes(s: string, f: char -> string)
    requires forall i :: 0 <= i < |s| ==> f(s[i]) == [s[i]]
    ensures MapChars(s, f) == s
    decreases |s|
  {
    if |s| > 0 {
      MapCharsFixes(s[1..], f);
      assert [s[0]] + s[1..] == s;
    }
  }

  /** The ASCII-only lower-casing of one character. */
  function AsciiLower(c: char): (d: char)
    ensures IsAsciiUpper(c) ==> d as int == c as int + 32
    ensures !IsAsciiUpper(c) ==> d == c
  {
    if IsAsciiUpper(c) then (c as int + 32) as char else c
  }

  // ---------------------------------------------------------------------
  // Searches used by the regular-expression models.

  /** The first line terminator at or after `from`, or `|s|`: how far `.` can reach from `from`. */
  function SegmentEnd(s: string, from: nat): (e: nat)
    requires from <= |s|
    ensures from <= e <= |s|
    ensures forall i :: from <= i < e ==> !IsLineTerminator(s[i])
    ensures e < |s| ==> IsLineTerminator(s[e])
    decreases |s| - from
  {
    if from == |s| || IsLineTerminator(s[from]) then from else SegmentEnd(s, from + 1)
  }

  /** The last index in `[lo, hi)` holding `c`. */
  function LastIndexOf(s: string, c: char, lo: nat, hi: nat): (r: Option<nat>)
    requires hi <= |s|
    ensures r.Some? ==> lo <= r.value < hi && s[r.value] == c
    ensures r.Some? ==> forall k :: r.value < k < hi ==> s[k] != c
    ensures r.None? ==> forall k :: lo <= k < hi ==> s[k] != c
    decreases hi
  {
    if hi <= lo then None else if s[hi - 1] == c then Some(hi - 1) else LastIndexOf(s, c, lo, hi - 1)
  }

  /** The first index at or after `lo` holding `c`. */
  function FirstIndexOf(s: string, c: char, lo: nat): (r: Option<nat>)
    ensures r.Some? ==> lo <= r.value < |s| && s[r.value] == c
    ensures r.Some? ==> forall k :: lo <= k < r.value ==> s[k] != c
    ensures r.None? ==> forall k :: lo <= k < |s| ==> s[k] != c
    decreases |s| - lo
  {
    if lo >= |s| then None else if s[lo] == c then Some(lo) else FirstIndexOf(s, c, lo + 1)
  }

  /** True when `p` occurs in `s` at index `j`. */
  predicate OccursAt(s: string, p: string, j: nat) {
    j + |p| <= |s| && s[j..j + |p|] == p
  }

  /** The last index in `[lo, hi)` where `p` occurs. */
  function LastOccurrence(s: string, p: string, lo: nat, hi: nat): (r: Option<nat>)
    ensures r.Some? ==> lo <= r.value < hi && OccursAt(s, p, r.value)
    ensures r.Some? ==> forall k :: r.value < k < hi ==> !OccursAt(s, p, k)
    ensures r.None? ==> forall k :: lo <= k < hi ==> !OccursAt(s, p, k)
    decreases hi
  {
    if hi <= lo then None else if OccursAt(s, p, hi - 1) then Some(hi - 1) else LastOccurrence(s, p, lo, hi - 1)
  }

  // The searches above, pinned down by where the hits are.

  /** A segment with no line terminator up to `j` reaches past `j`. */
  lemma {:induction false} SegmentEndPast(s: string, from: nat, j: nat)
    requires from <= j < |s|
    requires forall i :: from <= i <= j ==> !IsLineTerminator(s[i])
    ensures SegmentEnd(s, from) > j
  {
  }

  /** One hit at `k` and none after it up to `hi`. */
  lemma {:induction false} LastIndexOfIs(s: string, c: char, lo: nat, hi: nat, k: nat)
    requires lo <= k < hi <= |s| && s[k] == c
    requires forall v :: k < v < hi ==> s[v] != c
    ensures LastIndexOf(s, c, lo, hi) == Some(k)
  {
  }

  /** One hit at `k` and none before it from `lo`. */
  lemma {:induction false} FirstIndexOfIs(s: string, c: char, lo: nat, k: nat)
    requires lo <= k < |s| && s[k] == c
    requires forall v :: lo <= v < k ==> s[v] != c
    ensures FirstIndexOf(s, c, lo) == Some(k)
  {
  }

  /** `p` occurs wherever its characters do. */
  lemma {:induction false} OccursAtOf(s: string, p: string, j: nat)
    requires j + |p| <= |s|
    requires forall i :: 0 <= i < |p| ==> s[j + i] == p[i]
    ensures OccursAt(s, p, j)
  {
    assert s[j..j + |p|] == p;
  }

  /** An occurrence of a non-empty `p` starts with the first character of `p`. */
  lemma {:induction false} OccursAtHead(s: string, p: string, j: nat)
    ensures OccursAt(s, p, j) && |p| > 0 ==> s[j] == p[0]
  {
    if j + |p| <= |s| && |p| > 0 {
      assert s[j..j + |p|][0] == s[j];
    }
  }

  /** Where the first character of `p` is absent, `p` does not occur. */
  lemma {:induction false} NoOccurrenceWithoutHead(s: string, p: string, lo: nat, hi: nat)
    requires |p| > 0 && hi <= |s|
    requires forall v :: lo <= v < hi ==> s[v] != p[0]
    ensures forall v :: lo <= v < hi ==> !OccursAt(s, p, v)
  {
    forall v | lo <= v < hi
      ensures !OccursAt(s, p, v)
    {
      OccursAtHead(s, p, v);
    }
  }

  /** One occurrence at `j` and none after it up to `hi`. */
  lemma {:induction false} LastOccurrenceIs(s: string, p: string, lo: nat, hi: nat, j: nat)
    requires lo <= j < hi && OccursAt(s, p, j)
    requires forall v :: j < v < hi ==> !OccursAt(s, p, v)
    ensures LastOccurrence(s, p, lo, hi) == Some(j)
  {
  }

  /** The characters of the Markdown link `[t](u)`. */
  lemma {:induction false} LinkChars(t: string, u: string)
    ensures var s := "[" + t + "](" + u + ")";
      && |s| == |t| + |u| + 4
      && s[0] == '[' && s[|t| + 1] == ']' && s[|t| + 2] == '(' && s[|s| - 1] == ')'
      && s[1..|t| + 1] == t && s[|s|..] == ""
      && (forall i :: 1 <= i <= |t| ==> s[i] == t[i - 1])
      && (forall i :: |t| + 3 <= i < |s| - 1 ==> s[i] == u[i - |t| - 3])
  {
    var s := "[" + t + "](" + u + ")";
    assert s == ['['] + t + [']', '('] + u + [')'];
  }
}

=== FILE: toc_document.dfy ===
/**
 The document-level pieces of the TOC commands. They locate an existing TOC
 between its markers, build the anchor tags placed above the headers and
 delete them again, and spell the header lines the two section commands write.
 */
module TocDocument {
  import opened Wrappers
  import opened Text
  import opened Doc
  import opened TitleCleanup
  import opened HeaderExtraction

  // ---------------------------------------------------------------------
  // `getTocRange`

  /**
   Lines `s` and `e` frame the TOC. Line `s` is the first start-marker line.
   Line `e` is a stop-marker line after it. No other stop-marker line comes
   before `e`, except line `s` itself, which is read as the start.
   */
  predicate Framed(lines: seq<string>, s: nat, e: nat, isStart: string -> bool, isStop: string -> bool) {
    && s < e < |lines|
    && isStart(lines[s]) && isStop(lines[e])
    && (forall j :: 0 <= j < s ==> !isStart(lines[j]))
    && (forall j :: 0 <= j < e && j != s ==> !isStop(lines[j]))
  }

  /** Two framings of the same lines are the same framing. */
  lemma {:induction false} FramedUnique(lines: seq<string>, s: nat, e: nat, s': nat, e': nat, isStart: string -> bool, isStop: string -> bool)
    requires Framed(lines, s, e, isStart, isStop) && Framed(lines, s', e', isStart, isStop)
    ensures s == s' && e == e'
  {
  }

  /**
   `getTocRange`: the scan stops at the first line, other than the first
   start-marker line, that matches the stop marker. There is a range only when
   a start marker came before that line. The range runs from column 0 of the
   start line to the end of the stop line.
   */
  method GetTocRange(lines: seq<string>, isStart: string -> bool, isStop: string -> bool) returns (r: Option<Range>)
    ensures r.Some? ==> Framed(lines, r.value.start.line, r.value.end.line, isStart, isStop)
    ensures r.Some? ==> r.value.start.character == 0 && r.value.end.character == |lines[r.value.end.line]|
    ensures r.None? ==> forall s: nat, e: nat :: !Framed(lines, s, e, isStart, isStop)
  {
    var start: Option<nat> := None;
    var stop: Option<nat> := None;
    var index := 0;
    while index < |lines|
      invariant index <= |lines|
      invariant start.None? ==> forall j :: 0 <= j < index ==> !isStart(lines[j])
      invariant start.Some? ==> start.value < index && isStart(lines[start.value])
      invariant start.Some? ==> forall j :: 0 <= j < start.value ==> !isStart(lines[j])
      invariant forall j :: 0 <= j < index && (start.None? || j != start.value) ==> !isStop(lines[j])
    {
      if start.None? && isStart(lines[index]) {
        start := Some(index);
      } else if isStop(lines[index]) {
        stop := Some(index);
        break;
      }
      index := index + 1;
    }
    if start.Some? && stop.Some? {
      r := Some(Range(Position(start.value, 0), Position(stop.value, |lines[stop.value]|)));
    } else {
      r := None;
      forall s: nat, e: nat
        ensures !Framed(lines, s, e, isStart, isStop)
      {
      }
    }
  }

  // ---------------------------------------------------------------------
  // `insertAnchor` and `deleteAnchor`

  const AnchorOpen: string := "<a id=\"markdown-"

  /** The anchor tag placed on its own line above a header. */
  function AnchorTag(name: string): (r: string)
    ensures |r| == 2 * |name| + 30
  {
    AnchorOpen + name + "\" name=\"" + name + "\"></a>"
  }

  /** The text inserted at the start of the header's line: the tag and a line feed. */
  function AnchorText(name: string): (r: string)
    ensures |r| == |AnchorTag(name)| + 1
    ensures r[..|r| - 1] == AnchorTag(name) && r[|r| - 1] == '\n'
  {
    var r := AnchorTag(name) + "\n";
    assert r[..|r| - 1] == AnchorTag(name);
    r
  }

  /** Reads an anchor tag back: the name runs from after the opening text to the first `"`. */
  function ParseAnchorTag(line: string): (r: Option<string>)
    ensures r.Some? ==> line == AnchorTag(r.value)
  {
    if |line| < |AnchorOpen| || line[..|AnchorOpen|] != AnchorOpen then None
    else
      match FirstIndexOf(line, '"', |AnchorOpen|)
      case None => None
      case Some(q) =>
        var name := line[|AnchorOpen|..q];
        if line == AnchorTag(name) then Some(name) else None
  }

  /** A tag for a name without `"` reads back as that name. */
  lemma {:induction false} AnchorTagRoundTrip(name: string)
    requires Avoids(name, '"')
    ensures ParseAnchorTag(AnchorTag(name)) == Some(name)
  {
    var line := AnchorTag(name);
    var q := |AnchorOpen| + |name|;
    assert line[..|AnchorOpen|] == AnchorOpen;
    assert forall k :: |AnchorOpen| <= k < q ==> line[k] == name[k - |AnchorOpen|];
    assert line[q] == '"';
    assert FirstIndexOf(line, '"', |AnchorOpen|) == Some(q);
    assert line[|AnchorOpen|..q] == name;
  }

  datatype AnchorError = NoAnchorName(hash: string)

  /**
   `insertAnchor`: for each header in order, the line it goes above and the
   anchor name the anchor pattern takes from the header's hash. Nothing is
   inserted when anchors are off. A hash the pattern does not match throws.
   */
  function AnchorInsertions(hs: seq<TocHeader>, insertAnchor: bool, anchorName: string -> Option<string>): (r: Result<seq<(nat, string)>, AnchorError>)
    ensures !insertAnchor ==> r == Success([])
    ensures insertAnchor ==> (r.Failure? <==> exists k :: 0 <= k < |hs| && anchorName(hs[k].hash).None?)
    ensures insertAnchor && r.Success? ==>
      |r.value| == |hs| && forall k :: 0 <= k < |hs| ==> r.value[k] == (hs[k].line, anchorName(hs[k].hash).value)
    decreases |hs|
  {
    if !insertAnchor || |hs| == 0 then Success([])
    else
      match anchorName(hs[0].hash)
      case None => Failure(NoAnchorName(hs[0].hash))
      case Some(name) =>
        match AnchorInsertions(hs[1..], insertAnchor, anchorName)
        case Failure(e) => Failure(e)
        case Success(rest) => Success([(hs[0].line, name)] + rest)
  }

  /** The tags inserted above line `i`, in insertion order. */
  function TagsAt(ins: seq<(nat, string)>, i: nat): (r: seq<string>)
    ensures |r| <= |ins|
    ensures forall k :: 0 <= k < |r| ==> exists j :: 0 <= j < |ins| && ins[j].0 == i && r[k] == AnchorTag(ins[j].1)
    decreases |ins|
  {
    if |ins| == 0 then []
    else
      var p := ins[..|ins| - 1];
      var last := ins[|ins| - 1];
      var r := TagsAt(p, i);
      assert forall j :: 0 <= j < |p| ==> p[j] == ins[j];
      r + (if last.0 == i then [AnchorTag(last.1)] else [])
  }

  /** The document after the insertions: every line preceded by the tags inserted at its start. */
  function WithAnchors(lines: seq<string>, ins: seq<(nat, string)>): (r: seq<string>)
    ensures |r| >= |lines|
    ensures |lines| > 0 ==> r[|r| - 1] == lines[|lines| - 1]
    decreases |lines|
  {
    if |lines| == 0 then []
    else WithAnchors(lines[..|lines| - 1], ins) + TagsAt(ins, |lines| - 1) + [lines[|lines| - 1]]
  }

  /** The lines the anchor pattern does not match, in order. */
  function KeepNonAnchors(lines: seq<string>, isAnchor: string -> bool): (r: seq<string>)
    ensures |r| <= |lines|
    decreases |lines|
  {
    if |lines| == 0 then []
    else
      var last := lines[|lines| - 1];
      KeepNonAnchors(lines[..|lines| - 1], isAnchor) + (if isAnchor(last) then [] else [last])
  }

  /** The kept lines are exactly the lines the anchor pattern does not match. */
  lemma {:induction false} KeepMembers(lines: seq<string>, isAnchor: string -> bool)
    ensures forall k :: 0 <= k < |KeepNonAnchors(lines, isAnchor)| ==>
      !isAnchor(KeepNonAnchors(lines, isAnchor)[k]) && KeepNonAnchors(lines, isAnchor)[k] in lines
    ensures forall k :: 0 <= k < |lines| && !isAnchor(lines[k]) ==> lines[k] in KeepNonAnchors(lines, isAnchor)
    decreases |lines|
  {
    if |lines| > 0 {
      var p := lines[..|lines| - 1];
      var last := lines[|lines| - 1];
      KeepMembers(p, isAnchor);
      assert forall k :: 0 <= k < |p| ==> p[k] == lines[k];
      assert lines == p + [last];
    }
  }

  /**
   `deleteAnchor`: every anchor line goes with its line break. The last line
   has no break after it, so deleting it leaves an empty last line.
   */
  function DeleteAnchors(lines: seq<string>, isAnchor: string -> bool): (r: seq<string>)
    ensures |r| <= |lines|
    ensures |lines| > 0 ==> |r| > 0 && r[..|r| - 1] == KeepNonAnchors(lines[..|lines| - 1], isAnchor)
    ensures |lines| > 0 && !isAnchor(lines[|lines| - 1]) ==> r[|r| - 1] == lines[|lines| - 1]
    ensures |lines| > 0 && isAnchor(lines[|lines| - 1]) ==> r[|r| - 1] == ""
  {
    if |lines| == 0 then []
    else
      var last := lines[|lines| - 1];
      var r := KeepNonAnchors(lines[..|lines| - 1], isAnchor) + [if isAnchor(last) then "" else last];
      assert r[..|r| - 1] == KeepNonAnchors(lines[..|lines| - 1], isAnchor);
      r
  }

  lemma {:induction false} KeepAppend(a: seq<string>, b: seq<string>, isAnchor: string -> bool)
    ensures KeepNonAnchors(a + b, isAnchor) == KeepNonAnchors(a, isAnchor) + KeepNonAnchors(b, isAnchor)
    decreases |b|
  {
    if |b| == 0 {
      assert a + b == a;
    } else {
      var p := b[..|b| - 1];
      assert (a + b)[..|a + b| - 1] == a + p;
      KeepAppend(a, p, isAnchor);
    }
  }

  /** A line the anchor pattern does not match is kept. */
  lemma {:induction false} KeepSingle(x: string, isAnchor: string -> bool)
    requires !isAnchor(x)
    ensures KeepNonAnchors([x], isAnchor) == [x]
  {
    assert [x][..0] == [];
  }

  /** Lines the anchor pattern all matches are all dropped. */
  lemma {:induction false} KeepAllAnchors(xs: seq<string>, isAnchor: string -> bool)
    requires forall k :: 0 <= k < |xs| ==> isAnchor(xs[k])
    ensures KeepNonAnchors(xs, isAnchor) == []
    decreases |xs|
  {
    if |xs| > 0 {
      var p := xs[..|xs| - 1];
      assert forall k :: 0 <= k < |p| ==> p[k] == xs[k];
      KeepAllAnchors(p, isAnchor);
    }
  }

  lemma {:induction false} KeepDropsTags(ins: seq<(nat, string)>, i: nat, isAnchor: string -> bool)
    requires forall k :: 0 <= k < |ins| ==> isAnchor(AnchorTag(ins[k].1))
    ensures KeepNonAnchors(TagsAt(ins, i), isAnchor) == []
  {
    KeepAllAnchors(TagsAt(ins, i), isAnchor);
  }

  /** A line the anchor pattern does not match survives at the end. */
  lemma {:induction false} KeepSnoc(front: seq<string>, last: string, isAnchor: string -> bool)
    requires !isAnchor(last)
    ensures KeepNonAnchors(front + [last], isAnchor) == KeepNonAnchors(front, isAnchor) + [last]
  {
    var xs := front + [last];
    assert xs[..|xs| - 1] == front;
  }

  /** Inserting the tags of the last line then the line itself. */
  lemma {:induction false} WithAnchorsSnoc(lines: seq<string>, ins: seq<(nat, string)>)
    requires |lines| > 0
    ensures WithAnchors(lines, ins)
      == (WithAnchors(lines[..|lines| - 1], ins) + TagsAt(ins, |lines| - 1)) + [lines[|lines| - 1]]
  {
  }

  /** Kept lines, then dropped tags, then a kept line. */
  lemma {:induction false} KeepThenTagsThenLine(w: seq<string>, tags: seq<string>, last: string, isAnchor: string -> bool)
    requires KeepNonAnchors(tags, isAnchor) == [] && !isAnchor(last)
    ensures KeepNonAnchors((w + tags) + [last], isAnchor) == KeepNonAnchors(w, isAnchor) + [last]
  {
    var kept := KeepNonAnchors(w, isAnchor);
    KeepSnoc(w + tags, last, isAnchor);
    KeepAppend(w, tags, isAnchor);
    assert kept + [] == kept;
  }

  lemma {:induction false} KeepWithAnchorsStep(lines: seq<string>, ins: seq<(nat, string)>, isAnchor: string -> bool)
    requires |lines| > 0 && !isAnchor(lines[|lines| - 1])
    requires forall k :: 0 <= k < |ins| ==> isAnchor(AnchorTag(ins[k].1))
    requires KeepNonAnchors(WithAnchors(lines[..|lines| - 1], ins), isAnchor) == lines[..|lines| - 1]
    ensures KeepNonAnchors(WithAnchors(lines, ins), isAnchor) == lines
  {
    var p := lines[..|lines| - 1];
    var last := lines[|lines| - 1];
    WithAnchorsSnoc(lines, ins);
    KeepDropsTags(ins, |lines| - 1, isAnchor);
    KeepThenTagsThenLine(WithAnchors(p, ins), TagsAt(ins, |lines| - 1), last, isAnchor);
    assert p + [last] == lines;
  }

  /** Removing the anchor lines from a document with anchors inserted leaves the header lines' document. */
  lemma {:induction false} KeepWithAnchors(lines: seq<string>, ins: seq<(nat, string)>, isAnchor: string -> bool)
    requires forall k :: 0 <= k < |lines| ==> !isAnchor(lines[k])
    requires forall k :: 0 <= k < |ins| ==> isAnchor(AnchorTag(ins[k].1))
    ensures KeepNonAnchors(WithAnchors(lines, ins), isAnchor) == lines
    decreases |lines|
  {
    if |lines| > 0 {
      KeepWithAnchors(lines[..|lines| - 1], ins, isAnchor);
      KeepWithAnchorsStep(lines, ins, isAnchor);
    }
  }

  /** When the last line is no anchor, deleting the anchors keeps exactly the other lines. */
  lemma {:induction false} DeleteIsKeep(xs: seq<string>, isAnchor: string -> bool)
    requires |xs| > 0 && !isAnchor(xs[|xs| - 1])
    ensures DeleteAnchors(xs, isAnchor) == KeepNonAnchors(xs, isAnchor)
  {
  }

  /**
   Deleting the anchors of a document that had none before they were
   inserted gives the document back. So an update that deletes the old
   anchors before inserting new ones never piles them up.
   */
  lemma {:induction false} AnchorsRoundTrip(lines: seq<string>, ins: seq<(nat, string)>, isAnchor: string -> bool)
    requires forall k :: 0 <= k < |lines| ==> !isAnchor(lines[k])
    requires forall k :: 0 <= k < |ins| ==> isAnchor(AnchorTag(ins[k].1))
    ensures DeleteAnchors(WithAnchors(lines, ins), isAnchor) == lines
  {
    if |lines| > 0 {
      DeleteIsKeep(WithAnchors(lines, ins), isAnchor);
      KeepWithAnchors(lines, ins, isAnchor);
    }
  }

  // ---------------------------------------------------------------------
  // The section commands

  /** The header line `updateMarkdownSections` writes: mark, section number and base title. */
  function SectionLine(h: TocHeader): (r: string)
    ensures |r| > |h.header| && r[..|h.header|] == h.header
  {
    var r := h.header + (" " + OrderedList(h) + " " + h.baseTitle);
    assert r[..|h.header|] == h.header;
    r
  }

  /** The header line `deleteMarkdownSections` writes: mark and base title. */
  function PlainSectionLine(h: TocHeader): (r: string)
    ensures |r| > |h.header| && r[..|h.header|] == h.header
  {
    var r := h.header + (" " + h.baseTitle);
    assert r[..|h.header|] == h.header;
    r
  }

  /** Trimming a space, a trimmed word, a space and a trimmed title leaves the word, a space and the title. */
  lemma {:induction false} TrimSpaced(n: string, title: string)
    requires |n| > 0 && IsTrimmed(n) && IsTrimmed(title)
    ensures Trim(" " + n + " " + title) == if |title| == 0 then n else n + " " + title
  {
    assert " " + n + " " + title == [' '] + (n + " " + title);
    TrimSkipsLeading([' '], n + " " + title);
    if |title| == 0 {
      assert n + " " + title == n + [' '];
      TrimSkipsOneTrailing(n, ' ');
    } else {
      var t := n + " " + title;
      assert t[0] == n[0] && t[|t| - 1] == title[|title| - 1];
      TrimOfTrimmed(t);
    }
  }

  /** The text after a prefix is what was appended to it. */
  lemma {:induction false} SubstrAfter(mark: string, rest: string)
    ensures Substr(mark + rest, |mark|) == rest
  {
    assert (mark + rest)[|mark|..] == rest;
  }

  /** What follows the mark in a numbered section line. */
  lemma {:induction false} SectionLineRest(h: TocHeader)
    ensures Substr(SectionLine(h), |h.header|) == " " + Numbering(h.orderedCounts) + " " + h.baseTitle
  {
    SubstrAfter(h.header, " " + OrderedList(h) + " " + h.baseTitle);
  }

  /** A bare section number has an empty base title. */
  lemma {:induction false} BaseTitleOfNumberOnly(counts: seq<nat>)
    requires |counts| > 0
    ensures BaseTitle(Numbering(counts)) == ""
  {
    var n := Numbering(counts);
    NumberingPrefixOfNumbering(counts, "");
    assert n + "" == n;
  }

  /** The base title of the trimmed text after the mark of a numbered section line. */
  lemma {:induction false} NumberedRestBase(counts: seq<nat>, title: string)
    requires |counts| > 0 && IsTrimmed(title)
    ensures BaseTitle(Trim(" " + Numbering(counts) + " " + title)) == title
  {
    var n := Numbering(counts);
    assert IsTrimmed(n);
    TrimSpaced(n, title);
    if |title| == 0 {
      BaseTitleOfNumberOnly(counts);
    } else {
      BaseTitleOfNumbered(counts, title);
    }
  }

  /**
   Reading a numbered section line back gives the same base title, so
   renumbering the sections again writes the same line.
   */
  lemma {:induction false} SectionLineRoundTrip(h: TocHeader)
    requires |h.orderedCounts| > 0 && IsTrimmed(h.baseTitle)
    ensures HeaderBaseTitle(SectionLine(h), h.header) == h.baseTitle
  {
    SectionLineRest(h);
    NumberedRestBase(h.orderedCounts, h.baseTitle);
  }

  /**
   Reading an unnumbered section line back gives the base title again, unless
   the base title itself opens with something shaped like a section number.
   */
  lemma {:induction false} PlainSectionLineRoundTrip(h: TocHeader)
    requires IsTrimmed(h.baseTitle) && NumberingPrefixLen(h.baseTitle) == 0
    ensures HeaderBaseTitle(PlainSectionLine(h), h.header) == h.baseTitle
  {
    SubstrAfter(h.header, " " + h.baseTitle);
    assert " " + h.baseTitle == [' '] + h.baseTitle;
    TrimSkipsLeading([' '], h.baseTitle);
    TrimOfTrimmed(h.baseTitle);
  }
}

=== FILE: toc_render.dfy ===
/**
 `createToc`: the text inserted for a header list. It is a start marker carrying
 the option flags, one row per header, and the stop marker. Rows are joined by
 the line ending, indented by depth and either bulleted or numbered per level.
 */
module TocRender {
  import opened Wrappers
  import opened Text
  import opened HeaderExtraction

  /**
   The options `createToc` reads: the depth bounds, the list style, whether rows
   link to anchors, and the option flags in the order the start marker lists
   them, each with the value text the configuration gives it.
   */
  datatype TocOptions = TocOptions(
    depthFrom: nat,
    depthTo: nat,
    orderedList: bool,
    withLinks: bool,
    flags: seq<(string, string)>)

  /** The editor settings: the line ending (with `auto` already resolved), the tab size and whether tabs are spaces. */
  datatype Layout = Layout(lineEnding: string, tabSize: int, insertSpaces: bool)

  /** The two `RangeError`s the text building can throw: a negative array length and a negative repeat count. */
  datatype TocError = InvalidArrayLength | InvalidRepeatCount

  const TocStart: string := "<!-- TOC "
  const TocStop: string := "<!-- /TOC -->"

  // ---------------------------------------------------------------------
  // Indentation and the start marker.

  lemma {:induction false} RepeatSpaces(n: nat)
    ensures forall i :: 0 <= i < |Repeat(" ", n)| ==> Repeat(" ", n)[i] == ' '
    decreases n
  {
    if n > 0 {
      RepeatSpaces(n - 1);
      assert Repeat(" ", n) == " " + Repeat(" ", n - 1);
    }
  }

  /** One level of indentation: `tabSize` spaces when spaces are asked for and the size is positive, else a tab. */
  function IndentUnit(layout: Layout): (tab: string)
    ensures layout.insertSpaces && layout.tabSize > 0 ==> |tab| == layout.tabSize && forall i :: 0 <= i < |tab| ==> tab[i] == ' '
    ensures !(layout.insertSpaces && layout.tabSize > 0) ==> tab == "\t"
  {
    if layout.insertSpaces && layout.tabSize > 0 then
      RepeatSpaces(layout.tabSize);
      Repeat(" ", layout.tabSize)
    else "\t"
  }

  /** One flag of the start marker: key, `:`, value and a space. */
  function FlagText(flag: (string, string)): string {
    flag.0 + ":" + flag.1 + " "
  }

  function FlagTexts(flags: seq<(string, string)>): (r: seq<string>)
    ensures |r| == |flags| && forall i :: 0 <= i < |flags| ==> r[i] == FlagText(flags[i])
  {
    seq(|flags|, i requires 0 <= i < |flags| => FlagText(flags[i]))
  }

  /**
   The start marker line. Every flag is written: the source keeps a flag when
   the flag list contains it, which every flag taken from that list does.
   */
  function OptionsLine(flags: seq<(string, string)>, lineEnding: string): (r: string)
    ensures |r| >= |TocStart| + 3 + |lineEnding|
    ensures r[..|TocStart|] == TocStart
    ensures r[|r| - 3 - |lineEnding|..] == "-->" + lineEnding
  {
    var r := TocStart + Concat(FlagTexts(flags)) + "-->" + lineEnding;
    assert r[..|TocStart|] == TocStart;
    assert r[|r| - 3 - |lineEnding|..] == "-->" + lineEnding;
    r
  }

  /** Without flags the start marker is `<!-- TOC -->`. */
  lemma {:induction false} OptionsLineWithoutFlags(lineEnding: string)
    ensures OptionsLine([], lineEnding) == "<!-- TOC -->" + lineEnding
  {
    assert FlagTexts([]) == [];
  }

  // ---------------------------------------------------------------------
  // The depth rows start from.

  /** `minDepth`: the smallest header depth, folded from 6. */
  function MinDepth(hs: seq<TocHeader>): (m: nat)
    ensures m <= 6
    ensures forall k :: 0 <= k < |hs| ==> m <= hs[k].depth
    ensures m == 6 || exists k :: 0 <= k < |hs| && hs[k].depth == m
    decreases |hs|
  {
    if |hs| == 0 then 6
    else
      var p := hs[..|hs| - 1];
      var m := MinDepth(p);
      assert forall k :: 0 <= k < |p| ==> p[k] == hs[k];
      if hs[|hs| - 1].depth < m then hs[|hs| - 1].depth else m
  }

  /** `startDepth`: the smallest header depth, but never above `depthFrom`'s floor. */
  function StartDepth(hs: seq<TocHeader>, depthFrom: nat): (s: nat)
    ensures depthFrom <= s && MinDepth(hs) <= s
    ensures s == depthFrom || s == MinDepth(hs)
  {
    if MinDepth(hs) < depthFrom then depthFrom else MinDepth(hs)
  }

  /** A header is below the start depth exactly when it is below `depthFrom`. */
  lemma {:induction false} BelowStartDepth(hs: seq<TocHeader>, depthFrom: nat, k: nat)
    requires k < |hs|
    ensures hs[k].depth < StartDepth(hs, depthFrom) <==> hs[k].depth < depthFrom
  {
  }

  // ---------------------------------------------------------------------
  // The reference rows.

  /** The headers that get a row: those no deeper than `depthTo`, in order. */
  function Listed(hs: seq<TocHeader>, depthTo: nat): (r: seq<TocHeader>)
    ensures |r| <= |hs|
    ensures forall k :: 0 <= k < |r| ==> r[k].depth <= depthTo && r[k] in hs
    ensures forall k :: 0 <= k < |hs| && hs[k].depth <= depthTo ==> hs[k] in r
    decreases |hs|
  {
    if |hs| == 0 then []
    else
      var p := hs[..|hs| - 1];
      var h := hs[|hs| - 1];
      assert forall k :: 0 <= k < |p| ==> p[k] == hs[k];
      assert hs == p + [h];
      Listed(p, depthTo) + (if h.depth <= depthTo then [h] else [])
  }

  /** Headers all within `depthTo` are all listed. */
  lemma {:induction false} ListedAll(hs: seq<TocHeader>, depthTo: nat)
    requires forall k :: 0 <= k < |hs| ==> hs[k].depth <= depthTo
    ensures Listed(hs, depthTo) == hs
    decreases |hs|
  {
    if |hs| > 0 {
      ListedAll(hs[..|hs| - 1], depthTo);
      assert hs[..|hs| - 1] + [hs[|hs| - 1]] == hs;
    }
  }

  /** Listing one more header. */
  lemma {:induction false} ListedStep(hs: seq<TocHeader>, i: nat, depthTo: nat)
    requires i < |hs|
    ensures Listed(hs[..i + 1], depthTo) == Listed(hs[..i], depthTo) + (if hs[i].depth <= depthTo then [hs[i]] else [])
  {
    assert hs[..i + 1][..i] == hs[..i];
  }

  /** The level of each header: its depth less the start depth. */
  function Levels(hs: seq<TocHeader>, start: nat): (r: seq<int>)
    ensures |r| == |hs| && forall k :: 0 <= k < |hs| ==> r[k] == hs[k].depth - start
  {
    seq(|hs|, k requires 0 <= k < |hs| => hs[k].depth - start)
  }

  lemma {:induction false} LevelsAppend(hs: seq<TocHeader>, h: TocHeader, start: nat)
    ensures Levels(hs + [h], start) == Levels(hs, start) + [h.depth - start]
  {
  }

  /**
   The number of rows at `level` since the last row at a shallower level: a
   shallower row is the only thing that restarts a level's numbering.
   */
  function RowsSince(levels: seq<int>, level: int): nat
    decreases |levels|
  {
    if |levels| == 0 then 0
    else
      var last := levels[|levels| - 1];
      if last < level then 0
      else if last == level then RowsSince(levels[..|levels| - 1], level) + 1
      else RowsSince(levels[..|levels| - 1], level)
  }

  lemma {:induction false} RowsSinceAppend(levels: seq<int>, l: int, level: int)
    ensures RowsSince(levels + [l], level)
         == if l < level then 0 else if l == level then RowsSince(levels, level) + 1 else RowsSince(levels, level)
  {
    assert (levels + [l])[..|levels|] == levels;
  }

  /** The text of a header's row: the caption, or the link text when rows link. */
  function Label(h: TocHeader, withLinks: bool): string {
    if withLinks then h.hash else h.title
  }

  /** A row: `level` indentation units, then `n. ` or `- `, then the caption. */
  function RowText(tab: string, level: nat, ordered: bool, number: nat, caption: string): string {
    Repeat(tab, level) + (if ordered then NatToString(number) + ". " else "- ") + caption
  }

  predicate AtOrBelow(hs: seq<TocHeader>, start: nat) {
    forall k :: 0 <= k < |hs| ==> start <= hs[k].depth
  }

  /** The row of the k-th listed header: numbered by the count of its level among the rows so far. */
  function ExpectedRow(listed: seq<TocHeader>, k: nat, start: nat, opts: TocOptions, tab: string): string
    requires k < |listed| && start <= listed[k].depth
  {
    var level := listed[k].depth - start;
    RowText(tab, level, opts.orderedList, RowsSince(Levels(listed[..k + 1], start), level), Label(listed[k], opts.withLinks))
  }

  function ExpectedRows(listed: seq<TocHeader>, start: nat, opts: TocOptions, tab: string): (r: seq<string>)
    requires AtOrBelow(listed, start)
    ensures |r| == |listed|
  {
    seq(|listed|, k requires 0 <= k < |listed| => ExpectedRow(listed, k, start, opts, tab))
  }

  lemma {:induction false} ExpectedRowsAppend(listed: seq<TocHeader>, h: TocHeader, start: nat, opts: TocOptions, tab: string)
    requires AtOrBelow(listed, start) && start <= h.depth
    ensures AtOrBelow(listed + [h], start)
    ensures ExpectedRows(listed + [h], start, opts, tab)
         == ExpectedRows(listed, start, opts, tab)
            + [RowText(tab, h.depth - start, opts.orderedList, RowsSince(Levels(listed, start), h.depth - start) + 1, Label(h, opts.withLinks))]
  {
    var ext := listed + [h];
    forall k | 0 <= k < |listed|
      ensures ExpectedRow(ext, k, start, opts, tab) == ExpectedRow(listed, k, start, opts, tab)
    {
      assert ext[..k + 1] == listed[..k + 1];
    }
    assert ext[..|listed| + 1] == ext;
    LevelsAppend(listed, h, start);
    RowsSinceAppend(Levels(listed, start), h.depth - start, h.depth - start);
  }

  // ---------------------------------------------------------------------
  // The row loop as written: a counter and a wait-for-reset flag per level.

  /** `indicesOfDepth`, `waitResetList` and the rows pushed so far. */
  datatype RowState = RowState(indices: seq<nat>, waiting: seq<bool>, rows: seq<string>)

  /**
   The inner reset loop: every level deeper than `level` whose flag is set has
   its counter zeroed and its flag cleared. Each pass touches only its own
   index, so the loop is written as one update per index.
   */
  function ResetDeeper(st: RowState, level: nat): (r: RowState)
    requires |st.indices| == |st.waiting|
    ensures |r.indices| == |st.indices| && |r.waiting| == |st.waiting| && r.rows == st.rows
  {
    var n := |st.indices|;
    st.(indices := seq(n, j requires 0 <= j < n => if st.waiting[j] && level < j then 0 else st.indices[j]),
        waiting := seq(n, j requires 0 <= j < n => if st.waiting[j] && level < j then false else st.waiting[j]))
  }

  /** One listed header at `level`: reset deeper levels, count this one, push its row and set its flag. */
  function AddRow(st: RowState, level: nat, ordered: bool, tab: string, caption: string): (r: RowState)
    requires |st.indices| == |st.waiting| && level < |st.indices|
    ensures |r.indices| == |st.indices| && |r.waiting| == |st.waiting|
  {
    var s := ResetDeeper(st, level);
    var number := s.indices[level] + 1;
    RowState(
      if ordered then s.indices[level := number] else s.indices,
      s.waiting[level := true],
      s.rows + [RowText(tab, level, ordered, number, caption)])
  }

  /** Counter and flag of every level agree with the reference count over the rows so far. */
  predicate CountsMatch(st: RowState, levels: seq<int>, n: nat, ordered: bool) {
    && |st.indices| == n && |st.waiting| == n
    && forall j :: 0 <= j < n ==>
         && st.waiting[j] == (RowsSince(levels, j) > 0)
         && st.indices[j] == (if ordered then RowsSince(levels, j) else 0)
  }

  lemma {:induction false} CountsStep(st: RowState, levels: seq<int>, level: nat, n: nat, ordered: bool, tab: string, caption: string)
    requires CountsMatch(st, levels, n, ordered) && level < n
    ensures CountsMatch(AddRow(st, level, ordered, tab, caption), levels + [level], n, ordered)
    ensures AddRow(st, level, ordered, tab, caption).rows
         == st.rows + [RowText(tab, level, ordered, RowsSince(levels, level) + 1, caption)]
  {
    var r := AddRow(st, level, ordered, tab, caption);
    forall j | 0 <= j < n
      ensures r.waiting[j] == (RowsSince(levels + [level], j) > 0)
      ensures r.indices[j] == (if ordered then RowsSince(levels + [level], j) else 0)
    {
      RowsSinceAppend(levels, level, j);
    }
  }

  predicate RowInvariant(st: RowState, listed: seq<TocHeader>, start: nat, n: nat, opts: TocOptions, tab: string) {
    && AtOrBelow(listed, start)
    && st.rows == ExpectedRows(listed, start, opts, tab)
    && CountsMatch(st, Levels(listed, start), n, opts.orderedList)
  }

  lemma {:induction false} AddRowPreserves(st: RowState, listed: seq<TocHeader>, h: TocHeader, start: nat, n: nat, opts: TocOptions, tab: string)
    requires RowInvariant(st, listed, start, n, opts, tab) && start <= h.depth && h.depth - start < n
    ensures RowInvariant(AddRow(st, h.depth - start, opts.orderedList, tab, Label(h, opts.withLinks)), listed + [h], start, n, opts, tab)
  {
    var level := h.depth - start;
    var next := AddRow(st, level, opts.orderedList, tab, Label(h, opts.withLinks));
    CountsStep(st, Levels(listed, start), level, n, opts.orderedList, tab, Label(h, opts.withLinks));
    assert CountsMatch(next, Levels(listed + [h], start), n, opts.orderedList) by {
      LevelsAppend(listed, h, start);
    }
    assert AtOrBelow(listed + [h], start) && next.rows == ExpectedRows(listed + [h], start, opts, tab) by {
      ExpectedRowsAppend(listed, h, start, opts, tab);
    }
  }

  /** What the row loop has established after the first `i` headers. */
  predicate LoopInvariant(hs: seq<TocHeader>, i: nat, st: RowState, start: nat, n: nat, opts: TocOptions, tab: string) {
    && i <= |hs|
    && (forall k :: 0 <= k < i && hs[k].depth <= opts.depthTo ==> start <= hs[k].depth)
    && RowInvariant(st, Listed(hs[..i], opts.depthTo), start, n, opts, tab)
  }

  /** A header deeper than `depthTo` passes the row loop without a trace. */
  lemma {:induction false} SkipPreserves(hs: seq<TocHeader>, i: nat, st: RowState, start: nat, n: nat, opts: TocOptions, tab: string)
    requires LoopInvariant(hs, i, st, start, n, opts, tab) && i < |hs| && hs[i].depth > opts.depthTo
    ensures LoopInvariant(hs, i + 1, st, start, n, opts, tab)
  {
    ListedStep(hs, i, opts.depthTo);
    assert Listed(hs[..i], opts.depthTo) + [] == Listed(hs[..i], opts.depthTo);
  }

  /** A listed header at or below the start depth adds its reference row. */
  lemma {:induction false} ListPreserves(hs: seq<TocHeader>, i: nat, st: RowState, start: nat, n: nat, opts: TocOptions, tab: string)
    requires LoopInvariant(hs, i, st, start, n, opts, tab) && i < |hs|
    requires opts.depthFrom <= start && n == opts.depthTo + 1 - opts.depthFrom
    requires start <= hs[i].depth <= opts.depthTo
    ensures |st.indices| == |st.waiting| == n && hs[i].depth - start < n
    ensures LoopInvariant(hs, i + 1, AddRow(st, hs[i].depth - start, opts.orderedList, tab, Label(hs[i], opts.withLinks)), start, n, opts, tab)
  {
    ListedStep(hs, i, opts.depthTo);
    AddRowPreserves(st, Listed(hs[..i], opts.depthTo), hs[i], start, n, opts, tab);
  }

  lemma {:induction false} InitialLoopInvariant(hs: seq<TocHeader>, start: nat, n: nat, opts: TocOptions, tab: string)
    ensures LoopInvariant(hs, 0, RowState(seq(n, _ => 0), seq(n, _ => false), []), start, n, opts, tab)
  {
    assert hs[..0] == [];
  }

  /** After the last header the invariant is the postcondition. */
  lemma {:induction false} LoopDone(hs: seq<TocHeader>, st: RowState, start: nat, n: nat, opts: TocOptions, tab: string)
    requires LoopInvariant(hs, |hs|, st, start, n, opts, tab)
    ensures !exists k :: 0 <= k < |hs| && hs[k].depth <= opts.depthTo && hs[k].depth < start
    ensures AtOrBelow(Listed(hs, opts.depthTo), start)
    ensures st.rows == ExpectedRows(Listed(hs, opts.depthTo), start, opts, tab)
  {
    assert hs[..|hs|] == hs;
  }

  /**
   The rows loop of `createToc`. It fails with the negative repeat count a
   listed header above the start depth causes, and otherwise yields the
   reference rows of the listed headers.
   */
  method BuildRows(hs: seq<TocHeader>, start: nat, opts: TocOptions, tab: string) returns (r: Result<seq<string>, TocError>)
    requires opts.depthFrom <= opts.depthTo + 1 && opts.depthFrom <= start
    ensures r.Failure? <==> exists k :: 0 <= k < |hs| && hs[k].depth <= opts.depthTo && hs[k].depth < start
    ensures r.Failure? ==> r.error == InvalidRepeatCount
    ensures r.Success? ==> AtOrBelow(Listed(hs, opts.depthTo), start)
    ensures r.Success? ==> r.value == ExpectedRows(Listed(hs, opts.depthTo), start, opts, tab)
  {
    var n := opts.depthTo + 1 - opts.depthFrom;
    var st := RowState(seq(n, _ => 0), seq(n, _ => false), []);
    InitialLoopInvariant(hs, start, n, opts, tab);
    var i := 0;
    while i < |hs|
      invariant LoopInvariant(hs, i, st, start, n, opts, tab)
    {
      if hs[i].depth <= opts.depthTo {
        if hs[i].depth < start {
          assert 0 <= i < |hs| && hs[i].depth <= opts.depthTo && hs[i].depth < start;
          return Failure(InvalidRepeatCount);
        }
        ListPreserves(hs, i, st, start, n, opts, tab);
        st := AddRow(st, hs[i].depth - start, opts.orderedList, tab, Label(hs[i], opts.withLinks));
      } else {
        SkipPreserves(hs, i, st, start, n, opts, tab);
      }
      i := i + 1;
    }
    LoopDone(hs, st, start, n, opts, tab);
    r := Success(st.rows);
  }

  // ---------------------------------------------------------------------
  // The whole text.

  /**
   The start marker, the rows and the stop marker after a blank line, joined by
   the line ending. Spelled out, a line ending follows the options line (which
   carries one of its own) and a blank line precedes the stop marker.
   */
  function TocText(optionsLine: string, rows: seq<string>, lineEnding: string): (r: string)
    ensures |rows| == 0 ==> r == optionsLine + lineEnding + lineEnding + TocStop
    ensures |rows| > 0 ==> r == optionsLine + lineEnding + Join(rows, lineEnding) + lineEnding + lineEnding + TocStop
  {
    JoinFramed(optionsLine, rows, lineEnding + TocStop, lineEnding);
    Join([optionsLine] + rows + [lineEnding + TocStop], lineEnding)
  }

  /** The TOC text opens with the start marker and closes with the stop marker. */
  lemma {:induction false} TocTextFraming(flags: seq<(string, string)>, rows: seq<string>, lineEnding: string)
    ensures var t := TocText(OptionsLine(flags, lineEnding), rows, lineEnding);
      |t| >= |TocStart| + |TocStop| && t[..|TocStart|] == TocStart && t[|t| - |TocStop|..] == TocStop
  {
    var o := OptionsLine(flags, lineEnding);
    var t := TocText(o, rows, lineEnding);
    var middle := if |rows| == 0 then lineEnding + lineEnding else lineEnding + Join(rows, lineEnding) + lineEnding + lineEnding;
    assert t == o + middle + TocStop;
    assert t[..|TocStart|] == o[..|TocStart|];
  }

  /**
   `createToc`: it fails where the source throws a `RangeError`, namely a
   negative depth span or a header shallower than `depthFrom`. Otherwise the
   text is the start marker, the reference row of every header no deeper than
   `depthTo`, and the stop marker.
   */
  method CreateToc(hs: seq<TocHeader>, opts: TocOptions, layout: Layout) returns (r: Result<string, TocError>)
    ensures r.Failure? <==> opts.depthTo + 1 < opts.depthFrom || exists k :: 0 <= k < |hs| && hs[k].depth < opts.depthFrom
    ensures r.Success? ==> AtOrBelow(Listed(hs, opts.depthTo), StartDepth(hs, opts.depthFrom))
    ensures r.Success? ==> r.value == TocText(OptionsLine(opts.flags, layout.lineEnding),
                                              ExpectedRows(Listed(hs, opts.depthTo), StartDepth(hs, opts.depthFrom), opts, IndentUnit(layout)),
                                              layout.lineEnding)
  {
    if opts.depthTo + 1 < opts.depthFrom {
      return Failure(InvalidArrayLength);
    }
    var tab := IndentUnit(layout);
    var start := StartDepth(hs, opts.depthFrom);
    var rows := BuildRows(hs, start, opts, tab);
    forall k | 0 <= k < |hs|
      ensures hs[k].depth <= opts.depthTo && hs[k].depth < start <==> hs[k].depth < opts.depthFrom
    {
      BelowStartDepth(hs, opts.depthFrom, k);
    }
    match rows
    case Failure(e) => return Failure(e);
    case Success(rs) => return Success(TocText(OptionsLine(opts.flags, layout.lineEnding), rs, layout.lineEnding));
  }

  // ---------------------------------------------------------------------
  // What the numbering promises.

  /** Rows at deeper levels leave a level's count alone. */
  lemma {:induction false} RowsSinceDeeper(pre: seq<int>, mid: seq<int>, level: int)
    requires forall i :: 0 <= i < |mid| ==> mid[i] > level
    ensures RowsSince(pre + mid, level) == RowsSince(pre, level)
    decreases |mid|
  {
    if |mid| == 0 {
      assert pre + mid == pre;
    } else {
      var m := mid[..|mid| - 1];
      assert pre + mid == (pre + m) + [mid[|mid| - 1]];
      RowsSinceAppend(pre + m, mid[|mid| - 1], level);
      RowsSinceDeeper(pre, m, level);
    }
  }

  /** Once a level's count is zero, rows at other levels keep it zero. */
  lemma {:induction false} RowsSinceStaysZero(pre: seq<int>, mid: seq<int>, level: int)
    requires RowsSince(pre, level) == 0
    requires forall i :: 0 <= i < |mid| ==> mid[i] != level
    ensures RowsSince(pre + mid, level) == 0
    decreases |mid|
  {
    if |mid| == 0 {
      assert pre + mid == pre;
    } else {
      var m := mid[..|mid| - 1];
      assert pre + mid == (pre + m) + [mid[|mid| - 1]];
      RowsSinceAppend(pre + m, mid[|mid| - 1], level);
      RowsSinceStaysZero(pre, m, level);
    }
  }

  /**
   A row continues the numbering of the previous row at its level when only
   deeper rows come between them.
   */
  lemma {:induction false} NumberContinues(levels: seq<int>, j: nat, k: nat)
    requires j < k < |levels| && levels[j] == levels[k]
    requires forall i :: j < i < k ==> levels[i] > levels[k]
    ensures RowsSince(levels[..k + 1], levels[k]) == RowsSince(levels[..j + 1], levels[k]) + 1
  {
    var mid := levels[j + 1..k];
    assert levels[..k] == levels[..j + 1] + mid;
    assert levels[..k + 1] == levels[..k] + [levels[k]];
    RowsSinceDeeper(levels[..j + 1], mid, levels[k]);
    RowsSinceAppend(levels[..k], levels[k], levels[k]);
  }

  /**
   A row is numbered 1 when a shallower row came after every earlier row at its
   level.
   */
  lemma {:induction false} NumberRestarts(levels: seq<int>, s: nat, k: nat)
    requires s < k < |levels| && levels[s] < levels[k]
    requires forall i :: s < i < k ==> levels[i] != levels[k]
    ensures RowsSince(levels[..k + 1], levels[k]) == 1
  {
    var mid := levels[s + 1..k];
    assert levels[..s + 1] == levels[..s] + [levels[s]];
    RowsSinceAppend(levels[..s], levels[s], levels[k]);
    assert levels[..k] == levels[..s + 1] + mid;
    assert levels[..k + 1] == levels[..k] + [levels[k]];
    RowsSinceStaysZero(levels[..s + 1], mid, levels[k]);
    RowsSinceAppend(levels[..k], levels[k], levels[k]);
  }

  /** The first row at a level, with nothing shallower before it, is numbered 1. */
  lemma {:induction false} FirstRowNumberedOne(levels: seq<int>, k: nat)
    requires k < |levels|
    requires forall i :: 0 <= i < k ==> levels[i] > levels[k]
    ensures RowsSince(levels[..k + 1], levels[k]) == 1
  {
    assert levels[..k] == [] + levels[..k];
    assert levels[..k + 1] == levels[..k] + [levels[k]];
    RowsSinceDeeper([], levels[..k], levels[k]);
    RowsSinceAppend(levels[..k], levels[k], levels[k]);
  }
}

=== FILE: uri.dfy ===
/**
 `encodeURI` as ECMAScript 5.1 section 15.1.3.3 defines it, the zero-width-joiner
 restoration the GitHub mode wraps around it, and the final normalisation every
 anchor goes through (lower-case, whitespace to `-`, every `%` dropped).
 */
module UriEncoding {
  import opened Wrappers
  import opened Text

  const ZeroWidthJoiner: char := '\U{200D}'

  /** The escape `encodeURI` produces for U+200D. */
  const EncodedJoiner: string := "%E2%80%8D"

  predicate IsAscii(c: char) { c as int < 0x80 }

  /** The characters `encodeURI` copies unchanged: uriReserved, uriUnescaped and `#`. */
  predicate IsUriKept(c: char) {
    || IsAsciiLower(c) || IsAsciiUpper(c) || IsDigit(c)
    || c in {';', '/', '?', ':', '@', '&', '=', '+', '$', ',', '-', '_', '.', '!', '~', '*', '\'', '(', ')', '#'}
  }

  predicate IsUpperHex(c: char) { IsDigit(c) || ('A' <= c <= 'F') }

  /** The UTF-8 encoding of one scalar value. */
  function Utf8(c: char): (bytes: seq<nat>)
    ensures 1 <= |bytes| <= 4
    ensures forall i :: 0 <= i < |bytes| ==> bytes[i] < 0x100
    ensures forall i :: 1 <= i < |bytes| ==> 0x80 <= bytes[i] < 0xC0
    ensures |bytes| == 1 <==> c as int < 0x80
    ensures |bytes| == 1 ==> bytes[0] == c as int
    ensures |bytes| == 2 ==> 0xC0 <= bytes[0] < 0xE0
    ensures |bytes| == 3 ==> 0xE0 <= bytes[0] < 0xF0
    ensures |bytes| == 4 ==> 0xF0 <= bytes[0] < 0xF8
  {
    var n := c as int;
    if n < 0x80 then [n]
    else if n < 0x800 then [0xC0 + n / 64, 0x80 + n % 64]
    else if n < 0x10000 then [0xE0 + n / 4096, 0x80 + (n / 64) % 64, 0x80 + n % 64]
    else [0xF0 + n / 0x40000, 0x80 + (n / 4096) % 64, 0x80 + (n / 64) % 64, 0x80 + n % 64]
  }

  /** The scalar value a UTF-8 sequence of one to four bytes spells. */
  function Utf8Value(bytes: seq<nat>): int
    requires 1 <= |bytes| <= 4
  {
    var b := seq(|bytes|, i requires 0 <= i < |bytes| => bytes[i] as int);
    if |b| == 1 then b[0]
    else if |b| == 2 then (b[0] - 0xC0) * 64 + (b[1] - 0x80)
    else if |b| == 3 then (b[0] - 0xE0) * 4096 + (b[1] - 0x80) * 64 + (b[2] - 0x80)
    else (b[0] - 0xF0) * 0x40000 + (b[1] - 0x80) * 4096 + (b[2] - 0x80) * 64 + (b[3] - 0x80)
  }

  lemma {:induction false} Split64(n: nat)
    ensures n == (n / 64) * 64 + n % 64
    ensures n / 64 == (n / 4096) * 64 + (n / 64) % 64
    ensures n / 4096 == (n / 0x40000) * 64 + (n / 4096) % 64
  {
    assert n / 4096 == (n / 64) / 64;
    assert n / 0x40000 == (n / 4096) / 64;
  }

  /** Decoding the UTF-8 bytes of a character gives back its scalar value. */
  lemma {:induction false} Utf8RoundTrip(c: char)
    ensures Utf8Value(Utf8(c)) == c as int
  {
    Split64(c as int);
  }

  /** The upper-case hexadecimal digit for `d < 16`. */
  function HexDigit(d: nat): (c: char)
    requires d < 16
    ensures IsUpperHex(c)
  {
    if d < 10 then ('0' as int + d) as char else ('A' as int + d - 10) as char
  }

  function HexValue(c: char): (d: nat)
    requires IsUpperHex(c)
    ensures d < 16
  {
    if IsDigit(c) then c as int - '0' as int else c as int - 'A' as int + 10
  }

  lemma {:induction false} HexRoundTrip(d: nat)
    requires d < 16
    ensures HexValue(HexDigit(d)) == d
  {
  }

  /** `%XY` for one byte, with upper-case hexadecimal digits. */
  function PercentByte(b: nat): (r: string)
    requires b < 0x100
    ensures |r| == 3 && r[0] == '%' && IsUpperHex(r[1]) && IsUpperHex(r[2])
    ensures HexValue(r[1]) * 16 + HexValue(r[2]) == b
  {
    HexRoundTrip(b / 16);
    HexRoundTrip(b % 16);
    ['%', HexDigit(b / 16), HexDigit(b % 16)]
  }

  function PercentBytes(bytes: seq<nat>): (r: string)
    requires forall i :: 0 <= i < |bytes| ==> bytes[i] < 0x100
    ensures |r| == 3 * |bytes|
    decreases |bytes|
  {
    if |bytes| == 0 then "" else PercentByte(bytes[0]) + PercentBytes(bytes[1..])
  }

  /** What `encodeURI` makes of one character: itself when kept, else its UTF-8 bytes as escapes. */
  function EncodeChar(c: char): (r: string)
    ensures IsUriKept(c) ==> r == [c]
    ensures !IsUriKept(c) ==> r == PercentBytes(Utf8(c))
  {
    if IsUriKept(c) then [c] else PercentBytes(Utf8(c))
  }

  /** Every character of an encoding is a kept character or `%`. */
  lemma {:induction false} PercentBytesChars(bytes: seq<nat>)
    requires forall i :: 0 <= i < |bytes| ==> bytes[i] < 0x100
    ensures forall i :: 0 <= i < |PercentBytes(bytes)| ==> IsUriKept(PercentBytes(bytes)[i]) || PercentBytes(bytes)[i] == '%'
    decreases |bytes|
  {
    if |bytes| > 0 {
      PercentBytesChars(bytes[1..]);
    }
  }

  /** `encodeURI`: characters outside the kept set become `%XY` escapes of their UTF-8 bytes. */
  function EncodeUri(s: string): (r: string)
    ensures forall i :: 0 <= i < |r| ==> IsUriKept(r[i]) || r[i] == '%'
    ensures (forall i :: 0 <= i < |s| ==> IsUriKept(s[i])) ==> r == s
    decreases |s|
  {
    if |s| == 0 then ""
    else
      var head := EncodeChar(s[0]);
      assert forall i :: 0 <= i < |head| ==> IsUriKept(head[i]) || head[i] == '%' by {
        if !IsUriKept(s[0]) {
          PercentBytesChars(Utf8(s[0]));
        }
      }
      head + EncodeUri(s[1..])
  }

  /** Encoding works character by character. */
  lemma {:induction false} EncodeUriAppend(a: string, b: string)
    ensures EncodeUri(a + b) == EncodeUri(a) + EncodeUri(b)
    decreases |a|
  {
    if |a| == 0 {
      assert a + b == b;
    } else {
      assert (a + b)[1..] == a[1..] + b;
      EncodeUriAppend(a[1..], b);
    }
  }

  // ---------------------------------------------------------------------
  // Decoding: the inverse that shows encoding loses nothing.

  /** The bytes spelled by a run of `%XY` escapes, or None when `t` is not such a run. */
  function EscapedBytes(t: string): (r: Option<seq<nat>>)
    ensures r.Some? ==> |r.value| * 3 == |t| && forall i :: 0 <= i < |r.value| ==> r.value[i] < 0x100
    decreases |t|
  {
    if |t| == 0 then Some([])
    else if |t| >= 3 && t[0] == '%' && IsUpperHex(t[1]) && IsUpperHex(t[2]) then
      match EscapedBytes(t[3..])
      case Some(rest) => Some([HexValue(t[1]) * 16 + HexValue(t[2])] + rest)
      case None => None
    else None
  }

  /** How many bytes a UTF-8 sequence starting with `lead` has. */
  function SequenceLength(lead: nat): nat
  {
    if lead < 0x80 then 1 else if lead < 0xE0 then 2 else if lead < 0xF0 then 3 else 4
  }

  /** A valid scalar value whose UTF-8 encoding is exactly `bytes`. */
  function CharOfBytes(bytes: seq<nat>): Option<char>
    requires 1 <= |bytes| <= 4
  {
    var n := Utf8Value(bytes);
    if 0 <= n < 0xD800 || 0xE000 <= n < 0x11_0000 then
      if Utf8(n as char) == bytes then Some(n as char) else None
    else None
  }

  /** Decodes `%XY` escapes that spell whole UTF-8 sequences; None on a malformed escape. */
  function PercentDecode(t: string): Option<string>
    decreases |t|
  {
    if |t| == 0 then Some("")
    else if t[0] != '%' then
      match PercentDecode(t[1..])
      case Some(rest) => Some([t[0]] + rest)
      case None => None
    else if |t| >= 3 && IsUpperHex(t[1]) && IsUpperHex(t[2]) then
      var n := SequenceLength(HexValue(t[1]) * 16 + HexValue(t[2]));
      if |t| < 3 * n then None
      else match EscapedBytes(t[..3 * n])
        case None => None
        case Some(bytes) =>
          match CharOfBytes(bytes)
          case None => None
          case Some(c) =>
            match PercentDecode(t[3 * n..])
            case Some(rest) => Some([c] + rest)
            case None => None
    else None
  }

  /** Reading the escapes back gives the bytes they were written from. */
  lemma {:induction false} EscapedBytesOfPercentBytes(bytes: seq<nat>)
    requires forall i :: 0 <= i < |bytes| ==> bytes[i] < 0x100
    ensures EscapedBytes(PercentBytes(bytes)) == Some(bytes)
    decreases |bytes|
  {
    if |bytes| > 0 {
      var t := PercentBytes(bytes);
      var p := PercentByte(bytes[0]);
      assert t == p + PercentBytes(bytes[1..]);
      assert t[0] == p[0] && t[1] == p[1] && t[2] == p[2] && t[3..] == PercentBytes(bytes[1..]);
      EscapedBytesOfPercentBytes(bytes[1..]);
      assert [bytes[0]] + bytes[1..] == bytes;
    }
  }

  /** Decoding the encoding of one character and anything after it peels off that character. */
  lemma {:induction false} DecodeEncodedChar(c: char, rest: string)
    ensures PercentDecode(EncodeChar(c) + rest) ==
      (match PercentDecode(rest) case Some(r) => Some([c] + r) case None => None)
  {
    var t := EncodeChar(c) + rest;
    if IsUriKept(c) {
      assert t[0] == c && t[1..] == rest;
    } else {
      var bytes := Utf8(c);
      var n := |bytes|;
      EscapedBytesOfPercentBytes(bytes);
      var p := PercentBytes(bytes);
      assert p[..3] == PercentByte(bytes[0]);
      assert t[0] == '%' && t[1] == p[1] && t[2] == p[2];
      assert HexValue(t[1]) * 16 + HexValue(t[2]) == bytes[0];
      assert SequenceLength(bytes[0]) == n;
      assert t[..3 * n] == p;
      assert t[3 * n..] == rest;
      Utf8RoundTrip(c);
      assert (c as int) as char == c;
      assert CharOfBytes(bytes) == Some(c);
    }
  }

  /** Decoding an encoding gives back the original string. */
  lemma {:induction false} EncodeUriRoundTrip(s: string)
    ensures PercentDecode(EncodeUri(s)) == Some(s)
    decreases |s|
  {
    if |s| == 0 {
    } else {
      DecodeEncodedChar(s[0], EncodeUri(s[1..]));
      EncodeUriRoundTrip(s[1..]);
      assert [s[0]] + s[1..] == s;
    }
  }

  // ---------------------------------------------------------------------
  // The GitHub mode's encoder: encodeURI, then every `%E2%80%8D` back to U+200D.

  /** A global replacement of `%E2%80%8D` by the zero width joiner. */
  function RestoreJoiners(s: string): (r: string)
    ensures |r| <= |s|
    decreases |s|
  {
    if StartsWithJoiner(s) then [ZeroWidthJoiner] + RestoreJoiners(s[9..])
    else if |s| == 0 then ""
    else [s[0]] + RestoreJoiners(s[1..])
  }

  /** `s` starts with the escape of a zero width joiner. */
  predicate StartsWithJoiner(s: string) {
    && |s| >= 9
    && s[0] == '%' && s[1] == 'E' && s[2] == '2'
    && s[3] == '%' && s[4] == '8' && s[5] == '0'
    && s[6] == '%' && s[7] == '8' && s[8] == 'D'
  }

  /** The characters of `%E2%80%8D`. */
  predicate InJoinerEscape(c: char) {
    c == '%' || c == 'E' || c == '2' || c == '8' || c == '0' || c == 'D'
  }

  lemma {:induction false} RestoreJoinersAtJoiner(s: string)
    requires StartsWithJoiner(s)
    ensures RestoreJoiners(s) == [ZeroWidthJoiner] + RestoreJoiners(s[9..])
  {
  }

  lemma {:induction false} RestoreJoinersAtOther(s: string)
    requires |s| > 0 && !StartsWithJoiner(s)
    ensures RestoreJoiners(s) == [s[0]] + RestoreJoiners(s[1..])
  {
  }

  /** `encodeURI` except that the zero width joiner is copied unchanged. */
  function EncodeUriKeepingJoiners(s: string): (r: string)
    ensures forall i :: 0 <= i < |r| ==> IsUriKept(r[i]) || r[i] == '%' || r[i] == ZeroWidthJoiner
    decreases |s|
  {
    if |s| == 0 then ""
    else if s[0] == ZeroWidthJoiner then [ZeroWidthJoiner] + EncodeUriKeepingJoiners(s[1..])
    else EncodeUri([s[0]]) + EncodeUriKeepingJoiners(s[1..])
  }

  /** No `%` of `t` starts `%E2`, and every `%` is followed by two more characters. */
  predicate NoJoinerLead(t: string) {
    forall i :: 0 <= i < |t| && t[i] == '%' ==> i + 2 < |t| && !(t[i + 1] == 'E' && t[i + 2] == '2')
  }

  /** Text that cannot start an encoded joiner passes through the restoration unchanged. */
  lemma {:induction false} RestoreJoinersSkips(t: string, rest: string)
    requires NoJoinerLead(t)
    ensures RestoreJoiners(t + rest) == t + RestoreJoiners(rest)
    decreases |t|
  {
    if |t| == 0 {
      assert t + rest == rest;
    } else {
      var s := t + rest;
      assert !StartsWithJoiner(s) by {
        assert s[0] == t[0];
        if t[0] == '%' {
          assert s[1] == t[1] && s[2] == t[2];
        }
      }
      RestoreJoinersAtOther(s);
      assert s[1..] == t[1..] + rest;
      RestoreJoinersSkips(t[1..], rest);
    }
  }

  lemma {:induction false} PercentBytesNoJoinerLead(bytes: seq<nat>)
    requires forall i :: 0 <= i < |bytes| ==> bytes[i] < 0x100 && bytes[i] != 0xE2
    ensures NoJoinerLead(PercentBytes(bytes))
    decreases |bytes|
  {
    if |bytes| > 0 {
      PercentBytesNoJoinerLead(bytes[1..]);
      var p := PercentByte(bytes[0]);
      var b := bytes[0];
      assert !(p[1] == 'E' && p[2] == '2');
      var t := PercentBytes(bytes);
      assert t == p + PercentBytes(bytes[1..]);
      forall i | 0 <= i < |t| && t[i] == '%'
        ensures i + 2 < |t| && !(t[i + 1] == 'E' && t[i + 2] == '2')
      {
        if i >= 3 {
          assert t[i] == PercentBytes(bytes[1..])[i - 3];
        }
      }
    }
  }

  lemma {:induction false} PercentBytesOfThree(bytes: seq<nat>)
    requires |bytes| == 3 && forall i :: 0 <= i < 3 ==> bytes[i] < 0x100
    ensures PercentBytes(bytes[1..]) == PercentByte(bytes[1]) + PercentByte(bytes[2])
    ensures PercentBytes(bytes) == PercentByte(bytes[0]) + PercentByte(bytes[1]) + PercentByte(bytes[2])
  {
    assert bytes[1..][1..] == bytes[2..];
    assert bytes[2..][1..] == [];
  }

  /** `encodeURI` turns U+200D into `%E2%80%8D`. */
  lemma {:induction false} JoinerEncoding()
    ensures EncodeChar(ZeroWidthJoiner) == EncodedJoiner
  {
    assert Utf8(ZeroWidthJoiner) == [0xE2, 0x80, 0x8D];
    PercentBytesOfThree(Utf8(ZeroWidthJoiner));
    assert PercentByte(0xE2) == "%E2" && PercentByte(0x80) == "%80" && PercentByte(0x8D) == "%8D";
  }

  lemma {:induction false} JoinerEscapeThen(rest: string)
    ensures StartsWithJoiner(EncodedJoiner + rest) && (EncodedJoiner + rest)[9..] == rest
  {
  }

  lemma {:induction false} RestoreJoinerChar(rest: string)
    ensures RestoreJoiners(EncodeChar(ZeroWidthJoiner) + rest) == [ZeroWidthJoiner] + RestoreJoiners(rest)
  {
    JoinerEncoding();
    JoinerEscapeThen(rest);
    RestoreJoinersAtJoiner(EncodedJoiner + rest);
  }

  /** A character other than U+200D whose UTF-8 lead byte is E2 does not spell `%E2%80%8D`. */
  lemma {:induction false} OtherE2Char(c: char, rest: string)
    requires !IsUriKept(c) && c != ZeroWidthJoiner && Utf8(c)[0] == 0xE2
    ensures |Utf8(c)| == 3 && |EncodeChar(c)| == 9
    ensures !StartsWithJoiner(EncodeChar(c) + rest)
    ensures EncodeChar(c)[1..] == ['E', '2'] + PercentBytes(Utf8(c)[1..])
  {
    var bytes := Utf8(c);
    assert |bytes| == 3;
    E2Structure(bytes);
    if StartsWithJoiner(EncodeChar(c) + rest) {
      PercentBytesOfThree(bytes);
      JoinerBytes(bytes[0], bytes[1], bytes[2], rest);
      assert bytes == [0xE2, 0x80, 0x8D];
      Utf8RoundTrip(c);
    }
  }

  lemma {:induction false} E2Structure(bytes: seq<nat>)
    requires |bytes| == 3 && bytes[0] == 0xE2 && forall i :: 0 <= i < 3 ==> bytes[i] < 0x100
    ensures PercentBytes(bytes)[1..] == ['E', '2'] + PercentBytes(bytes[1..])
  {
    PercentBytesOfThree(bytes);
    assert PercentByte(0xE2) == "%E2";
  }

  /** The digits of an escape spell its byte. */
  lemma {:induction false} EscapeDigits(b: nat, x: char, y: char)
    requires b < 0x100 && PercentByte(b)[1] == x && PercentByte(b)[2] == y
    ensures b == HexValue(x) * 16 + HexValue(y)
  {
  }

  /** Where the digits of three escapes in a row sit. */
  lemma {:induction false} ThreeEscapesAt(b0: nat, b1: nat, b2: nat, rest: string)
    requires b0 < 0x100 && b1 < 0x100 && b2 < 0x100
    ensures var s := PercentByte(b0) + PercentByte(b1) + PercentByte(b2) + rest;
      && s[1] == PercentByte(b0)[1] && s[2] == PercentByte(b0)[2]
      && s[4] == PercentByte(b1)[1] && s[5] == PercentByte(b1)[2]
      && s[7] == PercentByte(b2)[1] && s[8] == PercentByte(b2)[2]
  {
  }

  /** The only three bytes whose escapes spell `%E2%80%8D` are E2 80 8D. */
  lemma {:induction false} JoinerBytes(b0: nat, b1: nat, b2: nat, rest: string)
    requires b0 < 0x100 && b1 < 0x100 && b2 < 0x100
    requires StartsWithJoiner(PercentByte(b0) + PercentByte(b1) + PercentByte(b2) + rest)
    ensures b0 == 0xE2 && b1 == 0x80 && b2 == 0x8D
  {
    ThreeEscapesAt(b0, b1, b2, rest);
    EscapeDigits(b0, 'E', '2');
    EscapeDigits(b1, '8', '0');
    EscapeDigits(b2, '8', 'D');
  }

  /** Text without `%` in front of text with no joiner lead has no joiner lead. */
  lemma {:induction false} NoJoinerLeadPrepend(u: string, t: string)
    requires forall i :: 0 <= i < |u| ==> u[i] != '%'
    requires NoJoinerLead(t)
    ensures NoJoinerLead(u + t)
  {
    var s := u + t;
    forall i | 0 <= i < |s| && s[i] == '%' ensures i + 2 < |s| && !(s[i + 1] == 'E' && s[i + 2] == '2') {
      assert i >= |u| && s[i] == t[i - |u|];
      assert s[i + 1] == t[i - |u| + 1] && s[i + 2] == t[i - |u| + 2];
    }
  }

  /** The continuation bytes of a character never spell the lead of an escaped joiner. */
  lemma {:induction false} ContinuationNoJoinerLead(c: char)
    ensures NoJoinerLead(PercentBytes(Utf8(c)[1..]))
  {
    var tail := Utf8(c)[1..];
    assert forall i :: 0 <= i < |tail| ==> tail[i] == Utf8(c)[i + 1];
    PercentBytesNoJoinerLead(tail);
  }

  /** Text whose head is not the start of a joiner escape and whose tail has no joiner lead is kept. */
  lemma {:induction false} RestoreAfterHead(t: string, rest: string)
    requires |t| > 0 && !StartsWithJoiner(t + rest) && NoJoinerLead(t[1..])
    ensures RestoreJoiners(t + rest) == t + RestoreJoiners(rest)
  {
    RestoreJoinersAtOther(t + rest);
    assert (t + rest)[1..] == t[1..] + rest;
    RestoreJoinersSkips(t[1..], rest);
    ConsSplit(t, RestoreJoiners(rest));
  }

  lemma {:induction false} ConsSplit(t: string, u: string)
    requires |t| > 0
    ensures [t[0]] + (t[1..] + u) == t + u
  {
    assert [t[0]] + t[1..] == t;
  }

  lemma {:induction false} RestoreOtherE2Char(c: char, rest: string)
    requires !IsUriKept(c) && c != ZeroWidthJoiner && Utf8(c)[0] == 0xE2
    ensures RestoreJoiners(EncodeChar(c) + rest) == EncodeChar(c) + RestoreJoiners(rest)
  {
    OtherE2Char(c, rest);
    ContinuationNoJoinerLead(c);
    NoJoinerLeadPrepend(['E', '2'], PercentBytes(Utf8(c)[1..]));
    RestoreAfterHead(EncodeChar(c), rest);
  }

  /** The restoration undoes exactly the escapes of zero width joiners. */
  lemma {:induction false} RestoreEncodedChar(c: char, rest: string)
    ensures RestoreJoiners(EncodeChar(c) + rest) ==
      (if c == ZeroWidthJoiner then [ZeroWidthJoiner] else EncodeChar(c)) + RestoreJoiners(rest)
  {
    if c == ZeroWidthJoiner {
      RestoreJoinerChar(rest);
    } else if IsUriKept(c) {
      RestoreJoinersSkips(EncodeChar(c), rest);
    } else if Utf8(c)[0] != 0xE2 {
      PercentBytesNoJoinerLead(Utf8(c));
      RestoreJoinersSkips(EncodeChar(c), rest);
    } else {
      RestoreOtherE2Char(c, rest);
    }
  }

  /** The GitHub encoder is `encodeURI` that leaves zero width joiners alone. */
  lemma {:induction false} RestoreJoinersOfEncoding(s: string)
    ensures RestoreJoiners(EncodeUri(s)) == EncodeUriKeepingJoiners(s)
    decreases |s|
  {
    if |s| > 0 {
      RestoreEncodedChar(s[0], EncodeUri(s[1..]));
      RestoreJoinersOfEncoding(s[1..]);
      assert EncodeUri([s[0]]) == EncodeChar(s[0]);
    }
  }

  /** The GitHub encoder produces kept characters, `%` and zero width joiners only. */
  lemma {:induction false} GithubEncodingChars(s: string)
    ensures forall i :: 0 <= i < |RestoreJoiners(EncodeUri(s))| ==>
      IsUriKept(RestoreJoiners(EncodeUri(s))[i]) || RestoreJoiners(EncodeUri(s))[i] == '%'
      || RestoreJoiners(EncodeUri(s))[i] == ZeroWidthJoiner
  {
    RestoreJoinersOfEncoding(s);
  }

  /** A window of nine characters that reaches into such a tail is not `%E2%80%8D`. */
  lemma {:induction false} ShortHeadNoJoiner(x: string, b: string)
    requires |x| < 9 && |b| > 0 && !InJoinerEscape(b[0])
    ensures !StartsWithJoiner(x + b)
  {
    var s := x + b;
    if |s| >= 9 {
      assert s[|x|] == b[0];
    }
  }

  /** Appending such a tail to text that does not start with a joiner escape does not create one. */
  lemma {:induction false} HeadNoJoiner(x: string, b: string)
    requires |x| > 0 && !StartsWithJoiner(x) && |b| > 0 && !InJoinerEscape(b[0])
    ensures !StartsWithJoiner(x + b)
  {
    if |x| >= 9 {
      var s := x + b;
      assert s[0] == x[0] && s[1] == x[1] && s[2] == x[2] && s[3] == x[3] && s[4] == x[4];
      assert s[5] == x[5] && s[6] == x[6] && s[7] == x[7] && s[8] == x[8];
    } else {
      ShortHeadNoJoiner(x, b);
    }
  }

  /** Appending to text that starts with a joiner escape keeps the escape in front. */
  lemma {:induction false} JoinerAppend(x: string, b: string)
    requires StartsWithJoiner(x)
    ensures StartsWithJoiner(x + b) && (x + b)[9..] == x[9..] + b
  {
    var s := x + b;
    assert s[0] == x[0] && s[1] == x[1] && s[2] == x[2] && s[3] == x[3] && s[4] == x[4];
    assert s[5] == x[5] && s[6] == x[6] && s[7] == x[7] && s[8] == x[8];
  }

  lemma {:induction false} TailAfterJoiner(x: string, b: string)
    requires StartsWithJoiner(x)
    requires RestoreJoiners(x[9..] + b) == RestoreJoiners(x[9..]) + b
    ensures RestoreJoiners(x + b) == RestoreJoiners(x) + b
  {
    JoinerAppend(x, b);
    RestoreJoinersAtJoiner(x + b);
    RestoreJoinersAtJoiner(x);
  }

  lemma {:induction false} TailAfterOther(x: string, b: string)
    requires |x| > 0 && !StartsWithJoiner(x + b) && !StartsWithJoiner(x)
    requires RestoreJoiners(x[1..] + b) == RestoreJoiners(x[1..]) + b
    ensures RestoreJoiners(x + b) == RestoreJoiners(x) + b
  {
    RestoreJoinersAtOther(x + b);
    RestoreJoinersAtOther(x);
    assert (x + b)[1..] == x[1..] + b;
    AppendAssoc([x[0]], RestoreJoiners(x[1..]), b);
  }

  /** A tail that starts with a character foreign to `%E2%80%8D` and holds no `%` is never rewritten. */
  lemma {:induction false} RestoreJoinersTail(x: string, b: string)
    requires |b| > 0 && !InJoinerEscape(b[0])
    requires forall i :: 0 <= i < |b| ==> b[i] != '%'
    ensures RestoreJoiners(x + b) == RestoreJoiners(x) + b
    decreases |x|
  {
    if |x| == 0 {
      RestoreJoinersSkips(b, "");
      assert x + b == b && b + "" == b;
    } else if StartsWithJoiner(x) {
      RestoreJoinersTail(x[9..], b);
      TailAfterJoiner(x, b);
    } else {
      HeadNoJoiner(x, b);
      RestoreJoinersTail(x[1..], b);
      TailAfterOther(x, b);
    }
  }

  // ---------------------------------------------------------------------
  // Final normalisation.

  /** `String.prototype.toLowerCase` on text made of ASCII characters and zero width joiners. */
  function LowerEncoded(s: string): (r: string)
    requires forall i :: 0 <= i < |s| ==> IsAscii(s[i]) || s[i] == ZeroWidthJoiner
    ensures |r| == |s|
    ensures forall i :: 0 <= i < |s| ==> r[i] == AsciiLower(s[i])
  {
    seq(|s|, i requires 0 <= i < |s| => AsciiLower(s[i]))
  }

  /** Every whitespace character replaced by `-` (the global `\s` replacement). */
  function WhitespaceToHyphen(s: string): (r: string)
    ensures |r| == |s|
    ensures forall i :: 0 <= i < |s| ==> r[i] == (if IsWhitespace(s[i]) then '-' else s[i])
  {
    seq(|s|, i requires 0 <= i < |s| => if IsWhitespace(s[i]) then '-' else s[i])
  }

  /** Characters an encoder may leave behind. */
  predicate IsEncodedChar(c: char) {
    IsUriKept(c) || c == '%' || c == ZeroWidthJoiner
  }

  lemma {:induction false} EncodedCharFacts(c: char)
    requires IsEncodedChar(c)
    ensures IsAscii(c) || c == ZeroWidthJoiner
    ensures !IsWhitespace(c)
    ensures IsUriKept(c) ==> IsUriKept(AsciiLower(c))
  {
  }

  /** The last step of every mode: lower-case, whitespace to `-`, drop `%`. */
  function FinalNormalize(s: string): (r: string)
    requires forall i :: 0 <= i < |s| ==> IsEncodedChar(s[i])
    ensures forall i :: 0 <= i < |r| ==> r[i] != '%' && !IsWhitespace(r[i]) && !IsAsciiUpper(r[i])
    ensures forall i :: 0 <= i < |r| ==> IsUriKept(r[i]) || r[i] == ZeroWidthJoiner
  {
    forall i | 0 <= i < |s| ensures IsAscii(s[i]) || s[i] == ZeroWidthJoiner {
      EncodedCharFacts(s[i]);
    }
    var lower := LowerEncoded(s);
    forall i | 0 <= i < |lower| ensures IsEncodedChar(lower[i]) && !IsWhitespace(lower[i]) {
      EncodedCharFacts(s[i]);
      EncodedCharFacts(lower[i]);
    }
    var spaced := WhitespaceToHyphen(lower);
    assert spaced == lower;
    RemoveChars(spaced, {'%'})
  }

  /** The final normalisation works character by character. */
  lemma {:induction false} FinalNormalizeAppend(a: string, b: string)
    requires forall i :: 0 <= i < |a| ==> IsEncodedChar(a[i])
    requires forall i :: 0 <= i < |b| ==> IsEncodedChar(b[i])
    ensures FinalNormalize(a + b) == FinalNormalize(a) + FinalNormalize(b)
  {
    assert LowerEncoded(a + b) == LowerEncoded(a) + LowerEncoded(b);
    assert WhitespaceToHyphen(LowerEncoded(a + b)) == WhitespaceToHyphen(LowerEncoded(a)) + WhitespaceToHyphen(LowerEncoded(b));
    RemoveCharsAppend(WhitespaceToHyphen(LowerEncoded(a)), WhitespaceToHyphen(LowerEncoded(b)), {'%'});
  }

  /** Lower-case letters, digits, `-` and `_` come through the final normalisation unchanged. */
  lemma {:induction false} FinalNormalizeFixes(s: string)
    requires forall i :: 0 <= i < |s| ==> IsAsciiLower(s[i]) || IsDigit(s[i]) || s[i] == '-' || s[i] == '_'
    ensures FinalNormalize(s) == s
  {
    assert LowerEncoded(s) == s;
    assert WhitespaceToHyphen(s) == s;
    RemoveCharsAbsent(s, {'%'});
  }
}

=== FILE: wrappers.dfy ===
/** Failure-carrying result types shared by the whole model. */
module Wrappers {

  /** An optional value: a regular-expression match that may fail, a search that may find nothing. */
  datatype Option<+T> = None | Some(value: T)

  /** The outcome of an operation that can throw. */
  datatype Result<+T, +E> = Success(value: T) | Failure(error: E)
}
